=== FILE: README.md ===
# Roster Guardian backend — a Dafny model

Roster Guardian is a small Express/SQLite service for an on-call roster and
an issue log. Administrators register users and assign them to dates.
Anyone signed in can file issues for a date, comment on them with
attachments, react to comments and set an issue's status. At start-up the
server creates its tables, seeds four default issue statuses and migrates a
legacy `issues` table, which has a free-text `status`, to one with a
`status_id`. A standalone script does the same migration.

This project models that core on values and in-place state:

- `common.dfy` defines SQLite cell values, statement faults and handler replies.
- `ordering.dfy` gives the SQL reading of `WHERE`, `ORDER BY`, `BETWEEN` and `db.get`: filter, stable sort, binary collation and first match.
- `grouping.dfy` models the `reduce` fold into an object of groups, and the `acc[k] || []` lookup.
- `users.dfy` models the `users` table and the `/api/users` handlers (class `UserTable`), including the SET-list builder of the partial update.
- `roster.dfy` models the `roster` table and the `/api/roster` handlers (class `RosterTable`), with the date-range listing as a function.
- `issues.dfy` covers issues, comments, attachments and reactions (class `IssueStore`), the comment listing with its enrichment loop, and the issue range listing.
- `statuses.dfy` covers the `issue_statuses` catalog, its `INSERT OR IGNORE` seeding and `GET /statuses`.
- `migration.dfy` defines the schema set-up statements on values:
  - what each statement does and how it fails;
  - the branch chosen from `PRAGMA table_info(issues)`;
  - the status `CASE`, and the chain of statements in which each runs only when the one before succeeded;
  - start-up (`database.js`), the script (`migrate.js`) and the embedded server's set-up.
- `setup.dfy` drives those statements one `db.run` at a time against a `Database` object whose table fields change in place. Each procedure is proved equal to its definition in `migration.dfy`.

## Model

Every table is a sequence of rows. Every AUTOINCREMENT column has its own counter. A handler's reply is `Ok`, `BadRequest` (400), `Unauthorized` (401), `NotFound` (404) or `ServerError` (500) with the fault that SQLite would report. SQLite checks constraints in this order: NOT NULL, then CHECK, then UNIQUE. A storage failure that the tables do not decide (a full disk, a locked database) is a parameter: `io` for the one statement of a write handler, `failing` for the attachment inserts, `faults` for the set-up statements. A statement that meets one fails as a whole and changes nothing.

| member | source | states |
|---|---|---|
| Ordering.Filter | backend/routes/roster.js:33 | `WHERE` keeps exactly the rows the predicate accepts, each as often as in the table |
| Ordering.FilterKeepsOrder | backend/routes/issues.js:187-188 | a `WHERE` applied to sorted rows leaves them sorted |
| Ordering.FilterRemovesOne | backend/routes/roster.js:62 | a `WHERE` that rejects one row leaves all the other rows, in order |
| Ordering.FilterFilter | backend/routes/issues.js:257 | filtering by a predicate and then by a stronger one is the same as filtering by the stronger one alone |
| Ordering.Find | backend/routes/users.js:49 | `db.get` returns the first matching row, and returns none exactly when no row matches |
| Ordering.LexLeTotal | backend/routes/roster.js:34 | binary collation orders every pair of dates |
| Ordering.LexLeTransitive | backend/routes/roster.js:34 | binary collation is transitive |
| Ordering.LexLeAntisymmetric | backend/routes/roster.js:34 | two strings that sort at or before each other are equal |
| Ordering.Insert | backend/routes/roster.js:34 | inserting into the sorted result adds exactly that row |
| Ordering.InsertSorted | backend/routes/roster.js:34 | inserting keeps the result sorted |
| Ordering.SortBy | backend/routes/roster.js:34 | `ORDER BY` returns a permutation of its input, sorted by the key |
| Grouping.MapSeq | backend/routes/issues.js:193 | `map` gives one result per element, in order |
| Grouping.GroupBy | backend/routes/roster.js:39-52 | the reduce yields a group for exactly the keys that occur; no group is empty; the group of `k` holds exactly the rows with key `k`, in row order |
| Grouping.GroupIntoKeys | backend/routes/issues.js:101-105 | the fold's keys are the starting keys plus the keys of the rows |
| Grouping.GroupIntoGroups | backend/routes/issues.js:101-105 | the fold appends to each group exactly the rows with its key |
| Grouping.GroupOfFiltered | backend/routes/issues.js:197-206 | grouping the rows kept by `IN (...)` and then reading `acc[k] \|\| []` gives all rows with key `k` (or `[]`) when `k` was listed |
| Grouping.RowInOwnGroup | backend/routes/roster.js:40-41 | every row lands in the group of its own key |
| Grouping.GroupKeepsOrder | backend/routes/roster.js:34-52 | each group keeps the query's order among rows that share a key |
| Users.ProfilePath | backend/routes/users.js:22 | the stored picture path is NULL exactly when no file was uploaded, and otherwise "/uploads/profiles/" followed by the stored file name |
| Users.UserById | backend/routes/roster.js:32 | `JOIN users ON ... = u.id` finds a user with that id, or reports that none exists |
| Users.JoinUsers | backend/routes/issues.js:185-186 | the join yields each row whose user exists exactly as often as the row is in the table, paired with that user, and nothing else |
| Users.SuppliedFieldsExactly | backend/routes/users.js:105-128 | the SET list names a field iff the request supplies it: email, name and role when truthy; contact number and bio when defined; the picture when uploaded |
| Users.SuppliedFieldsInOrder | backend/routes/users.js:105-128 | the SET list names each field once, in the order email, name, role, contact_number, bio, profile_image |
| Users.SuppliedValues | backend/routes/users.js:102-128 | one parameter per SET-list entry |
| Users.AssignAllOverwrites | backend/routes/users.js:132-134 | running the SET list with its parameters overwrites exactly the listed columns with their supplied values |
| Users.OverwriteSupplied | backend/routes/users.js:105-128 | overwriting exactly the supplied fields gives the update the request means |
| Users.SetListMeansUpdate | backend/routes/users.js:102-134 | the statement the handler builds, executed on a row, gives the intended updated user, whatever follows the SET-list parameters |
| Users.BuildSetList | backend/routes/users.js:102-130 | the builder's six conditional pushes yield the supplied fields in order; the parameters are their values followed by the id, one longer than the field list |
| Users.RemoveKeepsValid | backend/db/database.js:9-19 | deleting a user keeps the primary key, UNIQUE(email), the role CHECK and the counter bound |
| Users.UserTable.constructor | backend/db/database.js:9-19 | an empty table whose constraints hold |
| Users.UserTable.Register | backend/routes/users.js:20-44 | a missing password fails the hash (500); a storage failure of the INSERT gives 500 and no change; otherwise a missing email, name or role gives 500 NOT NULL; a role outside the four gives 500 CHECK; a taken email gives 400 "Email already exists"; otherwise exactly one row is appended and `{id, email, name, role}` is echoed; on any failure nothing changes |
| Users.UserTable.Login | backend/routes/users.js:46-72 | no reply at all iff the email is known and the body has no password (the rejected comparison is never caught); otherwise success iff some row has the email and the password check passes; an unknown email and a wrong password both give 401 "Invalid credentials"; on success the profile of that row is returned |
| Users.UserTable.Update | backend/routes/users.js:99-141 | with no supplied field the statement fails (500); a storage failure gives 500 and no change; a missing id gives 404 "User not found"; a role outside the CHECK or an email another user has gives 500; otherwise only that row changes, to the intended update |
| Users.UserTable.Delete | backend/routes/users.js:143-151 | a storage failure gives 500 and no change; a missing id gives 404; otherwise exactly that user is removed |
| Users.WithoutUserRemovesOne | backend/routes/users.js:146 | with distinct ids, deleting by id removes exactly the row with that id and keeps the others in order |
| Roster.RemoveEntryKeepsOthers | backend/routes/roster.js:62 | deleting by id removes exactly that entry and keeps the order of the others |
| Roster.RemoveEntryKeepsValid | backend/db/database.js:22-29 | deleting an entry keeps the primary key and UNIQUE(user_id, date) |
| Roster.RosterTable.constructor | backend/db/database.js:22-29 | an empty table whose constraints hold |
| Roster.RosterTable.Assign | backend/routes/roster.js:6-22 | a storage failure gives 500; a missing user or date gives 500 NOT NULL; a (user, date) pair that already exists gives 400 "Roster entry already exists for this user and date" and no change; otherwise exactly one row with that user and date is appended and `{id, userId, date}` is echoed |
| Roster.RosterTable.Remove | backend/routes/roster.js:59-67 | a storage failure gives 500 and no change; a missing id gives 404 "Roster entry not found" and no change; otherwise only that entry is removed |
| Roster.RosterTable.Reassign | backend/routes/roster.js:69-87 | a storage failure gives 500 and no change; a missing id gives 404; a NULL user or date gives 500; a clash with another row's (user, date) gives 400 and no change; otherwise only that entry's user and date change |
| Roster.ByDateThenNameIsPreorder | backend/routes/roster.js:34 | `ORDER BY r.date, u.name` is a total preorder |
| Roster.ToItem | backend/routes/roster.js:41-50 | each grouped item copies id, userId, name, email, role, profileImage, contactNumber and bio from its row |
| Roster.RangeRowsContents | backend/routes/roster.js:27-35 | the query returns each entry with start ≤ date ≤ end (both ends inclusive) whose user exists, exactly as often as it is in the table, joined with that user, and nothing else |
| Roster.KeyFromEntry | backend/routes/roster.js:39-40 | every date in the listing comes from a listed entry |
| Roster.EntryGivesKey | backend/routes/roster.js:39-40 | the date of every listed entry is in the listing |
| Roster.RangeListingKeys | backend/routes/roster.js:24-57 | the listing has a key for exactly the dates of the listed entries |
| Roster.ItemFromEntry | backend/routes/roster.js:41-50 | every item under a date is the item of a listed entry with that date |
| Roster.EntryGivesItem | backend/routes/roster.js:41-50 | every listed entry's item is under its own date |
| Roster.RangeListingGroups | backend/routes/roster.js:24-57 | under each date the listing holds exactly the items of the listed entries with that date, so the grouping is a partition |
| Roster.RangeListingBetween | backend/routes/roster.js:33 | no date in the listing lies outside the range, and no group is empty |
| Roster.RangeListingWithoutBound | backend/routes/roster.js:33-35 | a missing bound binds NULL, so the listing is empty |
| Roster.RangeListingByName | backend/routes/roster.js:34 | within each date the items are ordered by user name |
| Statuses.IdOf | backend/db/database.js:34 | a status id is found iff a status has that name |
| Statuses.SeedKeepsExisting | backend/db/database.js:42-46 | seeding never changes or removes an existing status: the old rows stay a prefix and the counter never decreases |
| Statuses.SeedAddsNames | backend/db/database.js:42-46 | after seeding, every seeded name is present |
| Statuses.SeedPresentIsNoop | backend/db/database.js:42-46 | `INSERT OR IGNORE` of names that are all present adds no row, while the AUTOINCREMENT counter moves past one id per tuple |
| Statuses.SeedIdempotent | backend/server-embedded.js:78-82 | seeding again, at any later time, leaves the rows unchanged and advances the counter by four |
| Statuses.SeedKeepsValid | backend/db/database.js:32-39 | seeding keeps the primary key and UNIQUE(name) |
| Statuses.SeedEmpty | backend/server-embedded.js:64-82 | seeding an empty table gives open, investigation, resolved and closed the ids 1 to 4, with their colors and sort orders, and the default `is_active` of 1 |
| Statuses.ListActive | backend/server-embedded.js:220-225 | `GET /statuses` returns exactly the active rows, each as often as in the table, in ascending sort order |
| Issues.Kept | backend/routes/issues.js:42-53 | the attachment inserts that succeed; all files when no insert fails |
| Issues.AttachmentRows | backend/routes/issues.js:44-46 | one attachment row per kept file, with consecutive ids |
| Issues.AllFilesAttached | backend/routes/issues.js:41-59 | with no failing insert, N files give N attachment rows, in upload order, under the upload directory, with original name and MIME type |
| Issues.AttachFiles | backend/routes/issues.js:42-57 | the per-file loop inserts the rows of the files whose insert succeeds, and reports a failure iff some insert failed |
| Issues.UpsertedHasOne | backend/routes/issues.js:242-248 | after a react, the new row is the only row for its (comment, user, type) |
| Issues.UpsertedKeepsOthers | backend/routes/issues.js:243 | a react leaves every row of another triple in place, as often as before |
| Issues.ReactThenUnreact | backend/routes/issues.js:243-257 | react then unreact with the same triple leaves the table as unreact alone would: no row for that triple, the others unchanged |
| Issues.WithoutTripleHasNone | backend/routes/issues.js:257 | after the delete no row has that triple |
| Issues.UpsertKeepsValid | backend/db/database.js:216-225 | a react keeps the reaction-type CHECK, the primary key and UNIQUE(comment_id, user_id, reaction_type) |
| Issues.WithoutKeepsValid | backend/db/database.js:216-225 | an unreact keeps those constraints |
| Issues.IssueStore.constructor | backend/server-embedded.js:90-165 | empty tables whose constraints hold |
| Issues.IssueStore.CreateIssue | backend/routes/issues.js:29-63 | a storage failure of the issue INSERT, or a missing title, description or date, gives 500 and no change; otherwise the issue is appended with `status_id` 1, then one attachment row per file whose insert succeeds; the reply echoes `{id, title, description, date}`, or is 500 when some attachment insert failed, and the issue row remains either way; other tables are unchanged |
| Issues.IssueStore.AddComment | backend/routes/issues.js:141-176 | a storage failure of the comment INSERT or a missing content gives 500 and no change; otherwise the comment is appended with type 'comment', followed by its attachment rows, and the reply is `{id, content}` or 500 as for issues |
| Issues.IssueStore.React | backend/routes/issues.js:237-250 | a storage failure gives 500; a missing type gives 500 NOT NULL; a type outside the five gives 500 CHECK; otherwise the new row replaces any row with the same triple, gets a fresh id, and is echoed; other tables are unchanged |
| Issues.IssueStore.Unreact | backend/routes/issues.js:252-265 | a storage failure gives 500 and no change; with no matching row the reply is 404 "Reaction not found" and nothing changes; otherwise exactly the rows of that triple are deleted |
| Issues.IssueStore.SetStatus | backend/routes/issues.js:267-280 | a storage failure gives 500 and no change; a missing id gives 404 "Issue not found" and no change; otherwise only that issue's status changes |
| Issues.EnrichAll | backend/routes/issues.js:223-226 | the `forEach` over the comment rows gives each row its own group of attachments and of reactions, `[]` when it has none, and changes nothing else |
| Issues.IssueStore.ListComments | backend/routes/issues.js:178-235 | one view per comment row; each comment is given exactly the attachments and reactions whose comment_id is its id, in table order, or `[]` |
| Issues.IssueComments | backend/routes/issues.js:181-189 | each of the issue's comments whose author exists, exactly as often as it is in the table, paired with that author, and nothing else, ordered by created_at ascending |
| Issues.AttachmentsByComment | backend/routes/issues.js:196-206 | for each listed comment, its group (or `[]`) is exactly its own attachments, in table order |
| Issues.ReactionsByComment | backend/routes/issues.js:208-221 | for each listed comment, its group (or `[]`) is exactly the reactions on it whose author exists, with the author's name |
| Issues.EnrichedAttachmentsAreOwn | backend/routes/issues.js:223-225 | a comment's listed attachments are exactly the attachments whose comment_id is its id |
| Issues.Summaries | backend/routes/issues.js:89-94 | one summary per joined row, carrying its comment count |
| Issues.ByDateThenNewestIsPreorder | backend/routes/issues.js:96 | `ORDER BY i.date, i.created_at DESC` is a total preorder |
| Issues.IssueRangeRowsContents | backend/routes/issues.js:88-97 | the sorted rows are one summary per joined row, only reordered; a summary is listed exactly when an issue in the inclusive date range whose creator exists has it, with its comment count |
| Issues.RangeJoined | backend/routes/issues.js:93-95 | the join yields each issue in the inclusive date range whose creator exists exactly as often as it is in the table, paired with that creator, and nothing else |
| Issues.RangeReply | backend/routes/issues.js:88-108 | the handler replies with the grouped listing iff `issues` has a `status` column; otherwise SQLite rejects the query and the reply is 500 "no such column" |
| Issues.IssueRangePartition | backend/routes/issues.js:95-105 | the grouping is a partition by date: only dates in range, no empty group, every issue in range under its own date and under no other |
| Issues.IssueRangeNewestFirst | backend/routes/issues.js:96-105 | within each date the issues are listed newest first |
| Migration.StartupPlanDecides | backend/db/database.js:55-154 | start-up creates the table iff it has no columns, migrates iff there is `status` but no `status_id`, adds the column iff both are missing, and otherwise does nothing |
| Migration.PlansAgree | backend/db/migrate.js:51-142 | the script decides as start-up does on every existing table; on a missing table it tries to add the column where start-up creates the table |
| Migration.LegacyStatusId | backend/db/database.js:84-92 | the mapping is total and every status lands in 1..4 |
| Migration.LegacyIdsNameSeededStatuses | backend/db/migrate.js:63-72 | on a freshly seeded catalog, open, investigation, resolved and closed map to the ids of the statuses with those names, in_progress maps to investigation's id, and every other value maps to a seeded id |
| Migration.WithColumn | backend/db/database.js:77 | `ADD COLUMN ... DEFAULT v` appends the column and gives every row the value `v`, leaving the other cells unchanged |
| Migration.CopyKeepsEveryRow | backend/db/database.js:117-118 | a successful copy keeps the rows already in `issues_new` and appends one row per source row, in order, with the same seven columns |
| Migration.FailedStatementChangesNothing | backend/db/database.js:77-137 | a statement that fails leaves every table unchanged |
| Migration.AddedStatusIdKeeps | backend/db/database.js:77 | adding the column keeps every row and its six copied columns |
| Migration.MappedKeeps | backend/db/database.js:84-93 | the mapping keeps every row and its six copied columns |
| Migration.CopiedKeeps | backend/db/database.js:117-118 | the copy keeps every row and its six copied columns |
| Migration.ChainLosesNothing | backend/db/database.js:77-137 | whichever statement of the rebuild fails, every row survives with its six copied columns in `issues` or `issues_new`, so `issues` is dropped only after a successful copy |
| Migration.MapLosesNothing | backend/db/database.js:84-137 | the same, from the mapping onwards |
| Migration.CreateLosesNothing | backend/db/database.js:100-137 | the same, from the creation of `issues_new` onwards |
| Migration.CopyLosesNothing | backend/db/database.js:117-137 | the same, from the copy onwards |
| Migration.DropLosesNothing | backend/db/database.js:125-137 | the same, from the drop onwards |
| Migration.FilterIrrelevantAfterAdd | backend/db/database.js:77-93 | just after `ADD COLUMN status_id ... DEFAULT 1`, the `WHERE status_id IS NULL OR status_id = 1` passes every row, so the filtered and unfiltered mappings write the same table |
| Migration.MigratedRow | backend/db/database.js:77-118 | a legacy row, given its new column, mapped and copied, becomes the row with its six columns and its mapped status id |
| Migration.MappedLegacyRows | backend/db/database.js:77-93 | adding the column and mapping a legacy table maps each row in place |
| Migration.LegacyCopyRows | backend/db/database.js:77-118 | on a legacy table the copy writes exactly the migrated rows |
| Migration.CopiedIdsDistinct | backend/db/database.js:117-118 | distinct source ids give a copy without a primary-key clash |
| Migration.LegacyCopyClean | backend/db/database.js:117-122 | on a legacy table with every copied column, no NULL in a NOT NULL column and distinct ids, the copy into a fresh `issues_new` cannot fail |
| Migration.CopyDropRename | backend/db/database.js:117-137 | copy, drop and rename, without storage failure, leave `issues` holding the copied rows and no `issues_new` |
| Migration.ChainCompletes | backend/db/database.js:72-142 | on a clean legacy table the whole rebuild succeeds when storage does not fail: `issues` ends with the seven new columns and the migrated rows, `issues_new` is gone, and no other table changes |
| Migration.StartUpFresh | backend/db/database.js:7-155 | on an empty database start-up creates the seeded statuses table, an `issues` table with `status_id` and a full `comments` table |
| Migration.CommentStepsOnFull | backend/db/database.js:169-202 | re-running the comments statements on an upgraded table changes nothing, because each duplicate column is passed over |
| Migration.CommentStepsComplete | backend/db/database.js:169-202 | the comments statements always end with a `comments` table holding the three added columns, and touch no other table |
| Migration.ChainKeepsOthers | backend/db/database.js:58-154 | statements of the `issues` part leave the statuses and `comments` untouched |
| Migration.BranchLeavesOthers | backend/db/database.js:58-154 | whatever branch runs, and wherever it stops, the statuses and `comments` are untouched |
| Migration.RebuildKeepsStatusId | backend/db/database.js:72-142 | without storage failures the rebuild, wherever it stops, leaves an `issues` table with `status_id` |
| Migration.BranchKeepsStatusId | backend/db/database.js:58-154 | every start-up branch leaves an `issues` table with `status_id` |
| Migration.StartUpConverges | backend/db/database.js:48-155 | after a start-up without storage failures `issues` has `status_id`, so both plans find nothing to do |
| Migration.StatusStepsSeed | backend/db/database.js:32-46 | creating and seeding the statuses table leaves the seeded catalog and nothing else changed |
| Migration.StartUpShape | backend/db/database.js:7-228 | after start-up the catalog is seeded, `comments` has every added column, and `issues` has `status_id` |
| Migration.StartUpIdempotent | backend/db/database.js:7-228 | a second start-up, later, on what a failure-free start-up left, reports nothing to migrate and changes no row of any table; only the statuses counter advances by four |
| Migration.MigrateAfterStartUp | backend/db/migrate.js:9-146 | the script run after a failure-free start-up reports nothing to migrate and changes no row; only the statuses counter advances by four |
| Migration.ReseedAfterStartUp | backend/db/database.js:42-46 | seeding the catalog a failure-free start-up left keeps its rows and moves the counter past four ids |
| Migration.RangeFailsAfterStartUp | backend/db/database.js:58-142 | on an empty database or a clean legacy table start-up leaves an `issues` without `status`, so GET /range replies 500 whatever the rows hold |
| Migration.StandaloneNeedsTable | backend/db/migrate.js:127-137 | with no `issues` table the script's `ADD COLUMN` fails and no table is created, while start-up creates one |
| Migration.StandaloneStopsEarly | backend/db/migrate.js:11-45 | an error creating or seeding the statuses or inspecting `issues` stops the script, and no table other than the statuses changes |
| Migration.StandaloneMigratesLegacy | backend/db/migrate.js:51-126 | on a clean legacy table, without storage failures, the script seeds the statuses and rebuilds `issues` into the migrated rows |
| Migration.StartUpMigratesLegacy | backend/db/database.js:72-142 | on the same table start-up ends with the same `issues` as the script and no `issues_new` |
| Migration.EmbeddedSeedsAfterCreate | backend/server-embedded.js:64-87 | the embedded server seeds the statuses only when creating their table succeeded |
| Migration.EmbeddedNeverMigrates | backend/server-embedded.js:90-103 | the embedded server leaves an existing `issues`, legacy or not, and `issues_new` as they are |
| Migration.EmbeddedAgreesOnFresh | backend/server-embedded.js:31-168 | on an empty database the embedded server builds the same tables as start-up |
| Setup.Database.constructor | backend/db/database.js:5 | the object holds the tables of the opened file |
| Setup.Database.Execute | backend/db/database.js:77-137 | one `db.run` changes the tables in place as the statement's definition says, and hands its callback that statement's fault |
| Setup.Database.Next | backend/db/database.js:77-81 | one statement of a chain: it goes on exactly when the statement succeeded or hit only a duplicate column, and otherwise ends the chain with that failure |
| Setup.Database.RebuildIssues | backend/db/database.js:77-141 | the nested callbacks run the six rebuild statements, each only when the one before succeeded, and leave the tables and failure of the chain |
| Setup.Database.Replace | backend/db/database.js:99-137 | the inner callbacks create `issues_new`, copy, drop and rename, each only when the one before succeeded, and leave the tables and failure of that chain |
| Setup.Database.TakeBranch | backend/db/database.js:58-154 | runs the statements of the chosen branch and reports its outcome |
| Setup.Database.SetUp | backend/db/database.js:7-228 | start-up leaves exactly the tables and outcome of `StartUp` |
| Setup.Database.Migrate | backend/db/migrate.js:9-146 | the script leaves exactly the tables and outcome of `Standalone` |
| Setup.Database.SetUpEmbedded | backend/server-embedded.js:31-168 | the embedded set-up leaves exactly the tables of `Embedded` |

## Left out

- Express routing, authentication middleware, `adminOnly`, CORS, static files and the health and debug endpoints: HTTP plumbing. The identity of the caller is a parameter.
- Multer storage: the stored file name, which embeds `Date.now()`, is an input (`Upload.filename`, the `upload` parameter).
- bcrypt: the hash is the parameter `hashed`, with a missing password standing for a failed hash. The comparison is the parameter `matches`.
- JWT issuance and the session cookie of login, and logout: foreign libraries and HTTP.
- `CURRENT_TIMESTAMP` is the parameter `now`.
- Ordering.Between, Roster.Clash, Roster.RangeListing, Issues.IssueRange: dates and range bounds are compared as text by binary collation. The `date` columns are declared `DATE`, which gives them NUMERIC affinity: SQLite turns a stored date or a bound that looks like a number into a number, and every number sorts before every text. The model therefore agrees with SQLite only when neither the stored dates nor the bounds look like numbers, as with `YYYY-MM-DD` dates. For example, the bounds "1" and "9" select no text date in SQLite but every `YYYY-MM-DD` date in the model, and "1" and "1.0" are one value to UNIQUE(user_id, date) in SQLite but two in the model.
- Issues.AttachmentsByComment, Issues.ReactionsByComment, Issues.Enriched, Issues.IssueStore.ListComments: the two `IN (...)` reads of the comment listing have no `ORDER BY`, so SQLite's row order is unspecified; for reactions a plan through the UNIQUE(comment_id, user_id, reaction_type) index would likely list them by user and type. The model returns table order, where a repeated react moves the row to the end.
- Order among rows whose `ORDER BY` keys tie: SQLite leaves it unspecified. The model sorts stably, so replies use the stable order among ties; no lemma relies on it.
- Failures of read queries (`db.all`, `db.get` reporting an error) are not modelled. Every read succeeds.
- `Promise.all` over the attachment inserts: the inserts run in upload order, one after another. Only whether some insert failed decides the reply, as with `Promise.all`.
- Foreign keys and `ON DELETE CASCADE`: SQLite does not enforce them unless `PRAGMA foreign_keys` is on, and the code never turns it on. Deleting a user, entry or comment leaves rows that refer to it.
- Reaction ids: a repeated react gets a new id, and no promise is made that the old id survives.
- Issues.IssueStore.SetStatus: writes the issue's `status` field by id. Its statement names the column `status`, which the tables start-up builds do not have; that SQLite then rejects it with 500 is not modelled here, only the update-by-id and 404 shape is (`Issues.RangeReply` models the same mismatch for the range listing).
- Issues.IssueRange, Issues.IssueRangeRowsContents, Issues.Summaries: the listing as the query returns it while `issues` still has a `status` column. On the tables start-up builds it has none, and the reply is the 500 of `Issues.RangeReply` (see `Migration.RangeFailsAfterStartUp`).
- Grouping.GroupBy, Roster.RangeListing, Issues.IssueRange: the groups are a `map`, which has no key order, whereas the JSON object lists its dates in insertion order. A date equal to a member of `Object.prototype` (such as "constructor" or "toString") makes the handler's `push` throw, and no reply is sent; the model returns a group for it.
- GET `/api/issues/date/:date`, GET `/api/issues/:id`, GET `/api/users/me`, GET `/api/users` and POST `/api/users/logout`: single reads or cookie handling with no logic beyond a query.
- The `CREATE TABLE IF NOT EXISTS` statements for `users`, `roster`, `issue_attachments`, `comment_attachments` and `reactions` are not steps of the set-up model. Their constraints are the `Valid` predicates of the classes that own those tables.
- Migration.StartUp, Setup.Database.SetUp, Setup.Database.TakeBranch: four start-up statements have no callback — `CREATE TABLE IF NOT EXISTS issue_statuses` (backend/db/database.js:32), the `INSERT OR IGNORE` seeding (:42), `CREATE TABLE IF NOT EXISTS issues` in the new-table branch (:60) and `CREATE TABLE IF NOT EXISTS comments` (:169); a storage failure on any of them raises an unhandled `error` event that ends the server process. The model does not capture that end: it carries on past such a failure (the statuses and comments statements) or reports `Stopped` (the new-table branch), like the three `ALTER TABLE comments` statements whose callbacks only log. The connection's own `error` event is not modelled either.
- Users.UserTable.Login: a password check that rejects (backend/routes/users.js:53) is an unhandled rejection, which ends the process on Node 15 and later; the model says only that no reply is sent.
- Migration.CopyInto: a NULL `id` is copied as NULL. SQLite would give such a row a fresh id, and the model does not. `Migration.LegacyCopyClean` is stated only for tables with distinct ids.
- Migration.CopyFault: when one copy fails both a NOT NULL and a primary-key check, the fault is the first failing row's NOT NULL. SQLite's row order for that report is not modelled.
- The `migrate.js` add-column branch logs success even after an error; log lines, emoji and `db.close()` are not modelled.
- Migration.StartUp: the `comments` statements run before the `issues` branch, as queued by `db.serialize` before the `PRAGMA` callback fires. The exact interleaving of callbacks with later queued statements is not modelled; `Migration.BranchLeavesOthers` shows the two parts touch different tables.
- The frontend and `seed.js` are not part of this model.

=== FILE: common.dfy ===
/**
 * Values shared by every table of the Roster Guardian backend: optional
 * request fields, SQLite cell values, the ways a statement can fail and the
 * replies a route handler sends back.
 */
module Common {

  /** A request field that may be absent (JavaScript `undefined`). */
  datatype Option<T> = None | Some(value: T)

  /** A SQLite cell value, as far as this model distinguishes them. */
  datatype Value = Null | Int(i: int) | Text(s: string)

  /**
   * Why a SQL statement failed. Constraint failures are decided by the
   * table contents; `Io` stands for every failure the tables do not decide
   * (a full disk, a locked database, an I/O error). Whether a statement
   * meets one is a parameter of the model, and a statement that does fails
   * as a whole and changes nothing.
   */
  datatype Fault =
    | NotNull(column: string)
    | Check(column: string)
    | Unique(index: string)
    | Syntax
    | NoSuchTable(table: string)
    | NoSuchColumn(column: string)
    | TableExists(table: string)
    | DuplicateColumn(column: string)
    | HashFailed
    | Io

  /** The reply of a route handler: a JSON body or an HTTP error. */
  datatype Reply<T> =
    | Ok(body: T)
    | BadRequest(error: string)
    | Unauthorized(error: string)
    | NotFound(error: string)
    | ServerError(fault: Fault)
  {
    /** The HTTP status code the handler sets. */
    function Code(): int {
      match this
      case Ok(_) => 200
      case BadRequest(_) => 400
      case Unauthorized(_) => 401
      case NotFound(_) => 404
      case ServerError(_) => 500
    }
  }

  /** The message of a successful update or delete (`{ message }`). */
  type Message = string
}

=== FILE: grouping.dfy ===
/**
 * The `rows.reduce((acc, row) => { (acc[key] ||= []).push(val(row)); return acc }, {})`
 * fold that the route handlers use to turn a query result into a JSON object
 * of groups, and `acc[key] || []`, the lookup that reads a group back.
 */
module Grouping {
  import opened Ordering

  /** `s.map(f)`. */
  function MapSeq<T, V>(f: T -> V, s: seq<T>): (r: seq<V>)
    ensures |r| == |s|
    ensures forall i :: 0 <= i < |s| ==> r[i] == f(s[i])
  {
    seq(|s|, i requires 0 <= i < |s| => f(s[i]))
  }

  /** The rows whose key is `k`, in their original order. */
  function Select<T(!new), K(==)>(rows: seq<T>, key: T -> K, k: K): seq<T> {
    Filter(rows, (r: T) => key(r) == k)
  }

  /** The keys that occur in `rows`. */
  ghost function KeysOf<T, K>(rows: seq<T>, key: T -> K): set<K> {
    set i | 0 <= i < |rows| :: key(rows[i])
  }

  /** `acc[k] || []`: the group under `k`, or the empty list when there is none. */
  function GroupOf<K, V>(acc: map<K, seq<V>>, k: K): seq<V> {
    if k in acc then acc[k] else []
  }

  /** One step of the fold: append `v` to the group of `k`, creating it if needed. */
  function Push<K, V>(acc: map<K, seq<V>>, k: K, v: V): map<K, seq<V>> {
    acc[k := GroupOf(acc, k) + [v]]
  }

  function GroupInto<T, K, V>(acc: map<K, seq<V>>, rows: seq<T>, key: T -> K, val: T -> V): map<K, seq<V>>
    decreases |rows|
  {
    if rows == [] then acc
    else GroupInto(Push(acc, key(rows[0]), val(rows[0])), rows[1..], key, val)
  }

  lemma MapSeqConcat<T, V>(f: T -> V, a: seq<T>, b: seq<T>)
    ensures MapSeq(f, a + b) == MapSeq(f, a) + MapSeq(f, b)
  {
    assert forall i :: 0 <= i < |a + b| ==> MapSeq(f, a + b)[i] == (MapSeq(f, a) + MapSeq(f, b))[i];
  }

  lemma ConcatAssociates<V>(a: seq<V>, b: seq<V>, c: seq<V>)
    ensures (a + b) + c == a + (b + c)
  {
  }

  lemma SelectCons<T(!new), K>(rows: seq<T>, key: T -> K, k: K)
    requires rows != []
    ensures Select(rows, key, k) == (if key(rows[0]) == k then [rows[0]] else []) + Select(rows[1..], key, k)
  {
  }

  lemma KeysOfCons<T, K>(rows: seq<T>, key: T -> K)
    requires rows != []
    ensures KeysOf(rows, key) == {key(rows[0])} + KeysOf(rows[1..], key)
  {
    var tail := rows[1..];
    forall x | x in KeysOf(rows, key) ensures x in {key(rows[0])} + KeysOf(tail, key) {
      var i :| 0 <= i < |rows| && key(rows[i]) == x;
      if i > 0 { assert tail[i - 1] == rows[i]; }
    }
    forall x | x in KeysOf(tail, key) ensures x in KeysOf(rows, key) {
      var i :| 0 <= i < |tail| && key(tail[i]) == x;
      assert rows[i + 1] == tail[i];
    }
  }

  lemma {:induction false} GroupIntoKeys<T, K, V>(acc: map<K, seq<V>>, rows: seq<T>, key: T -> K, val: T -> V)
    ensures GroupInto(acc, rows, key, val).Keys == acc.Keys + KeysOf(rows, key)
    decreases |rows|
  {
    if rows != [] {
      GroupIntoKeys(Push(acc, key(rows[0]), val(rows[0])), rows[1..], key, val);
      KeysOfCons(rows, key);
    }
  }

  lemma {:induction false} GroupIntoGroups<T(!new), K(!new), V>(acc: map<K, seq<V>>, rows: seq<T>, key: T -> K, val: T -> V, k: K)
    ensures GroupOf(GroupInto(acc, rows, key, val), k) == GroupOf(acc, k) + MapSeq(val, Select(rows, key, k))
    decreases |rows|
  {
    if rows != [] {
      var r0, tail := rows[0], rows[1..];
      var next := Push(acc, key(r0), val(r0));
      GroupIntoGroups(next, tail, key, val, k);
      var head := if key(r0) == k then [r0] else [];
      SelectCons(rows, key, k);
      MapSeqConcat(val, head, Select(tail, key, k));
      if key(r0) == k {
        assert MapSeq(val, head) == [val(r0)];
        assert GroupOf(next, k) == GroupOf(acc, k) + [val(r0)];
      } else {
        assert MapSeq(val, head) == [];
        assert GroupOf(next, k) == GroupOf(acc, k);
      }
      ConcatAssociates(GroupOf(acc, k), MapSeq(val, head), MapSeq(val, Select(tail, key, k)));
    }
  }

  /**
   * The fold as the handlers run it, from an empty object. Its groups are
   * a partition of the rows by key: there is a group for exactly the keys
   * that occur, none is empty, and the group of `k` holds the projections of
   * exactly the rows with key `k`, in row order.
   */
  function GroupBy<T(!new), K(!new), V>(rows: seq<T>, key: T -> K, val: T -> V): (g: map<K, seq<V>>)
    ensures g.Keys == KeysOf(rows, key)
    ensures forall k | k in g :: g[k] == MapSeq(val, Select(rows, key, k))
    ensures forall k | k in g :: g[k] != []
  {
    GroupIntoFromEmpty(rows, key, val);
    GroupInto(map[], rows, key, val)
  }

  lemma GroupIntoFromEmpty<T(!new), K(!new), V>(rows: seq<T>, key: T -> K, val: T -> V)
    ensures GroupInto(map[], rows, key, val).Keys == KeysOf(rows, key)
    ensures forall k | k in GroupInto(map[], rows, key, val) ::
      GroupInto(map[], rows, key, val)[k] == MapSeq(val, Select(rows, key, k)) != []
  {
    var g := GroupInto(map[], rows, key, val);
    GroupIntoKeys(map[], rows, key, val);
    forall k | k in g ensures g[k] == MapSeq(val, Select(rows, key, k)) != [] {
      GroupIntoGroups(map[], rows, key, val, k);
      assert g[k] == GroupOf(g, k);
      var i :| 0 <= i < |rows| && key(rows[i]) == k;
      assert rows[i] in Select(rows, key, k);
    }
  }

  /** The identity, for a fold that pushes the rows themselves. */
  function Id<T>(x: T): T {
    x
  }

  lemma MapSeqId<T>(s: seq<T>)
    ensures MapSeq(Id, s) == s
  {
  }

  /** Selecting key `k` after a `WHERE` that every row with key `k` passes. */
  lemma {:induction false} SelectFiltered<T(!new), K>(rows: seq<T>, keep: T -> bool, key: T -> K, k: K)
    requires forall x :: key(x) == k ==> keep(x)
    ensures Select(Filter(rows, keep), key, k) == Select(rows, key, k)
  {
    if rows != [] {
      var head, tail := rows[0], rows[1..];
      assert rows == [head] + tail;
      SelectFiltered(tail, keep, key, k);
      FilterCons(head, tail, keep);
      SelectCons(rows, key, k);
      if keep(head) {
        var rest := Filter(tail, keep);
        SelectCons([head] + rest, key, k);
        assert ([head] + rest)[1..] == rest;
      } else {
        assert key(head) != k;
        assert Filter(rows, keep) == Filter(tail, keep);
        assert Select(rows, key, k) == Select(tail, key, k);
      }
    }
  }

  /**
   * Grouping the rows a `WHERE` kept, then reading the group of `k`, gives
   * the same group as grouping all rows, provided every row with key `k`
   * passes the `WHERE`; a key with no rows reads back as `[]`.
   */
  lemma GroupOfFiltered<T(!new), K(!new), V>(rows: seq<T>, keep: T -> bool, key: T -> K, val: T -> V, k: K)
    requires forall x :: key(x) == k ==> keep(x)
    ensures GroupOf(GroupBy(Filter(rows, keep), key, val), k) == MapSeq(val, Select(rows, key, k))
  {
    var kept := Filter(rows, keep);
    SelectFiltered(rows, keep, key, k);
    if k !in GroupBy(kept, key, val) {
      SelectAbsent(kept, key, k);
    }
  }

  /** A key that no row has selects nothing. */
  lemma SelectAbsent<T(!new), K>(rows: seq<T>, key: T -> K, k: K)
    requires k !in KeysOf(rows, key)
    ensures Select(rows, key, k) == []
  {
  }

  /** Every row lands in the group of its own key. */
  lemma RowInOwnGroup<T(!new), K(!new), V>(rows: seq<T>, key: T -> K, val: T -> V, i: nat)
    requires i < |rows|
    ensures key(rows[i]) in GroupBy(rows, key, val)
    ensures val(rows[i]) in GroupBy(rows, key, val)[key(rows[i])]
  {
    var k := key(rows[i]);
    var sel := Select(rows, key, k);
    assert rows[i] in sel;
    var j :| 0 <= j < |sel| && sel[j] == rows[i];
    assert MapSeq(val, sel)[j] == val(rows[i]);
  }

  /** Everything in a group is the value of a row with that key. */
  lemma GroupMember<T(!new), K(!new), V>(rows: seq<T>, key: T -> K, val: T -> V, k: K, v: V)
    requires k in GroupBy(rows, key, val) && v in GroupBy(rows, key, val)[k]
    ensures exists r :: r in rows && key(r) == k && v == val(r)
  {
    var sel := Select(rows, key, k);
    var j :| 0 <= j < |sel| && MapSeq(val, sel)[j] == v;
    assert sel[j] in sel;
  }

  /**
   * A group keeps the order of the query: when rows sorted by `le` that share
   * a key are ordered by `within` after projection, so is each group.
   */
  lemma GroupKeepsOrder<T(!new), K(!new), V>(rows: seq<T>, key: T -> K, val: T -> V, le: (T, T) -> bool, within: (V, V) -> bool)
    requires Sorted(rows, le)
    requires forall a, b :: key(a) == key(b) && le(a, b) ==> within(val(a), val(b))
    ensures forall k | k in GroupBy(rows, key, val) :: Sorted(GroupBy(rows, key, val)[k], within)
  {
    forall k | k in GroupBy(rows, key, val) ensures Sorted(GroupBy(rows, key, val)[k], within) {
      var sel := Select(rows, key, k);
      FilterKeepsOrder(rows, (r: T) => key(r) == k, le);
      assert Sorted(sel, le);
      forall i | 0 <= i < |sel| ensures key(sel[i]) == k {
        assert sel[i] in sel;
      }
    }
  }
}

=== FILE: issues.dfy ===
/**
 * The issue tracker behind `/api/issues`: issues and comments with their
 * uploaded attachments, reactions on comments, the status update, the
 * comment listing with its attachments and reactions, and the date-range
 * listing grouped by day.
 */
module Issues {
  import opened Common
  import opened Ordering
  import opened Grouping
  import opened Users

  const IssueUploads := "/uploads/issues/"
  const CommentUploads := "/uploads/comments/"

  /** Column defaults of `issues.status_id` and `comments.comment_type`. */
  const DefaultStatusId := 1
  const DefaultCommentType := "comment"

  /** The values the CHECK constraints on `comment_type` and `reaction_type` admit. */
  const CommentTypes: set<string> := {"comment", "status_change"}
  const ReactionTypes: set<string> := {"thumbs_up", "heart", "smile", "celebrate", "thinking"}

  /**
   * A row of `issues`. `status` is the column the status update and the
   * listings name; `statusId` is the one the schema declares.
   */
  datatype Issue = Issue(
    id: nat,
    title: string,
    description: string,
    date: string,
    createdBy: int,
    statusId: int,
    status: Option<string>,
    createdAt: nat)

  /** A file the upload middleware stored: its stored name, original name and MIME type. */
  datatype Upload = Upload(filename: string, originalName: string, mimeType: string)

  /** A row of `issue_attachments` (owner = issue) or `comment_attachments` (owner = comment). */
  datatype Attachment = Attachment(id: nat, ownerId: int, filePath: string, fileName: string, fileType: string, uploadedAt: nat)

  datatype Comment = Comment(
    id: nat,
    issueId: int,
    userId: int,
    content: string,
    commentType: string,
    oldStatusId: Option<int>,
    newStatusId: Option<int>,
    createdAt: nat)

  datatype Reaction = Reaction(id: nat, commentId: int, userId: int, reactionType: string, createdAt: nat)

  /** The replies of the creating handlers. */
  datatype CreatedIssue = CreatedIssue(id: nat, title: string, description: string, date: string)
  datatype CreatedComment = CreatedComment(id: nat, content: string)
  datatype ReactionEcho = ReactionEcho(id: nat, commentId: int, userId: int, reactionType: string)

  // ---------------------------------------------------------------- attachments

  /** Whether the insert of some file's attachment row fails. */
  predicate AnyFails(files: seq<Upload>, failing: set<nat>) {
    exists k :: 0 <= k < |files| && k in failing
  }

  /** The files whose attachment insert succeeds, in upload order. */
  function Kept(files: seq<Upload>, failing: set<nat>): (kept: seq<Upload>)
    ensures |kept| <= |files|
    decreases |files|
  {
    if files == [] then []
    else
      var n := |files| - 1;
      assert files == files[..n] + [files[n]];
      Kept(files[..n], failing) + (if n in failing then [] else [files[n]])
  }

  /** When no insert fails every file is kept. */
  lemma {:induction false} KeptAll(files: seq<Upload>, failing: set<nat>)
    requires !AnyFails(files, failing)
    ensures Kept(files, failing) == files
    decreases |files|
  {
    if files != [] {
      var n := |files| - 1;
      assert !AnyFails(files[..n], failing);
      KeptAll(files[..n], failing);
      assert files == files[..n] + [files[n]];
    }
  }

  /** The attachment rows for `kept`, numbered from `firstId`, under the upload directory `dir`. */
  function AttachmentRows(ownerId: int, dir: string, kept: seq<Upload>, firstId: nat, now: nat): (rows: seq<Attachment>)
    ensures |rows| == |kept|
    ensures forall i :: 0 <= i < |rows| ==> firstId <= rows[i].id < firstId + |kept|
  {
    seq(|kept|, i requires 0 <= i < |kept| => AttachmentRow(ownerId, dir, kept[i], firstId + i, now))
  }

  /** The row inserted for one uploaded file. */
  function AttachmentRow(ownerId: int, dir: string, f: Upload, id: nat, now: nat): Attachment {
    Attachment(id, ownerId, dir + f.filename, f.originalName, f.mimeType, now)
  }

  lemma AttachmentRowsAppend(ownerId: int, dir: string, kept: seq<Upload>, f: Upload, firstId: nat, now: nat)
    ensures AttachmentRows(ownerId, dir, kept + [f], firstId, now) ==
      AttachmentRows(ownerId, dir, kept, firstId, now) +
      [AttachmentRow(ownerId, dir, f, firstId + |kept|, now)]
  {
  }

  /**
   * With no failing insert, N uploaded files give N attachment rows, one
   * per file in upload order, each owned by `ownerId`, stored under `dir`
   * with the original name and MIME type.
   */
  lemma AllFilesAttached(ownerId: int, dir: string, files: seq<Upload>, failing: set<nat>, firstId: nat, now: nat)
    requires !AnyFails(files, failing)
    ensures var rows := AttachmentRows(ownerId, dir, Kept(files, failing), firstId, now);
      && |rows| == |files|
      && forall i :: 0 <= i < |files| ==>
           rows[i].ownerId == ownerId && rows[i].filePath == dir + files[i].filename &&
           rows[i].fileName == files[i].originalName && rows[i].fileType == files[i].mimeType
  {
    KeptAll(files, failing);
  }

  /**
   * One `INSERT INTO ..._attachments` per uploaded file, in upload order:
   * the rows that get inserted, and whether any insert failed (which makes
   * the handler reply 500 once all of them have run).
   */
  method AttachFiles(ownerId: int, dir: string, files: seq<Upload>, failing: set<nat>, firstId: nat, now: nat)
    returns (rows: seq<Attachment>, failed: bool)
    ensures rows == AttachmentRows(ownerId, dir, Kept(files, failing), firstId, now)
    ensures failed <==> AnyFails(files, failing)
  {
    rows, failed := [], false;
    ghost var kept: seq<Upload> := [];
    var k := 0;
    while k < |files|
      invariant 0 <= k <= |files|
      invariant kept == Kept(files[..k], failing)
      invariant rows == AttachmentRows(ownerId, dir, kept, firstId, now)
      invariant failed <==> AnyFails(files[..k], failing)
    {
      KeptStep(files, failing, k);
      if k in failing {
        failed := true;
      } else {
        AttachmentRowsAppend(ownerId, dir, kept, files[k], firstId, now);
        rows := rows + [AttachmentRow(ownerId, dir, files[k], firstId + |rows|, now)];
        kept := kept + [files[k]];
      }
      k := k + 1;
    }
    assert files[..|files|] == files;
  }

  lemma KeptStep(files: seq<Upload>, failing: set<nat>, k: nat)
    requires k < |files|
    ensures Kept(files[..k + 1], failing) == Kept(files[..k], failing) + (if k in failing then [] else [files[k]])
    ensures AnyFails(files[..k + 1], failing) <==> AnyFails(files[..k], failing) || k in failing
  {
    assert files[..k + 1][..k] == files[..k];
    if AnyFails(files[..k + 1], failing) && k !in failing {
      var j :| 0 <= j < k + 1 && j in failing;
      assert j < |files[..k]|;
    }
  }

  // ---------------------------------------------------------------- reactions

  predicate SameTriple(r: Reaction, commentId: int, userId: int, reactionType: string) {
    r.commentId == commentId && r.userId == userId && r.reactionType == reactionType
  }

  /** `DELETE FROM reactions WHERE comment_id = ? AND user_id = ? AND reaction_type = ?`. */
  function WithoutTriple(rows: seq<Reaction>, commentId: int, userId: int, reactionType: string): seq<Reaction> {
    Filter(rows, (r: Reaction) => !SameTriple(r, commentId, userId, reactionType))
  }

  /**
   * `INSERT OR REPLACE` under UNIQUE(comment_id, user_id, reaction_type):
   * the conflicting row is deleted and the new row appended.
   */
  function Upserted(rows: seq<Reaction>, r: Reaction): seq<Reaction> {
    WithoutTriple(rows, r.commentId, r.userId, r.reactionType) + [r]
  }

  lemma WithoutTripleHasNone(rows: seq<Reaction>, commentId: int, userId: int, reactionType: string)
    ensures forall x | x in WithoutTriple(rows, commentId, userId, reactionType) :: !SameTriple(x, commentId, userId, reactionType)
  {
  }

  /** After a react, the new row is the only one for its triple. */
  lemma UpsertedHasOne(rows: seq<Reaction>, r: Reaction)
    ensures var after := Upserted(rows, r);
      after[|after| - 1] == r &&
      forall i :: 0 <= i < |after| - 1 ==> !SameTriple(after[i], r.commentId, r.userId, r.reactionType)
  {
    var kept := WithoutTriple(rows, r.commentId, r.userId, r.reactionType);
    WithoutTripleHasNone(rows, r.commentId, r.userId, r.reactionType);
    forall i | 0 <= i < |kept| ensures !SameTriple(kept[i], r.commentId, r.userId, r.reactionType) {
      assert kept[i] in kept;
    }
  }

  /** A react leaves every row of another triple in place, as often as before. */
  lemma UpsertedKeepsOthers(rows: seq<Reaction>, r: Reaction, x: Reaction)
    requires !SameTriple(x, r.commentId, r.userId, r.reactionType)
    ensures multiset(Upserted(rows, r))[x] == multiset(rows)[x]
  {
  }

  /** React then unreact with the same triple: no row for it is left, and the others are as before. */
  lemma ReactThenUnreact(rows: seq<Reaction>, r: Reaction)
    ensures WithoutTriple(Upserted(rows, r), r.commentId, r.userId, r.reactionType)
         == WithoutTriple(rows, r.commentId, r.userId, r.reactionType)
  {
    var p := (x: Reaction) => !SameTriple(x, r.commentId, r.userId, r.reactionType);
    var kept := Filter(rows, p);
    FilterFilter(rows, p, p);
    FilterAppendRejected(kept, r, p);
  }

  lemma {:induction false} FilterAppendRejected<T(!new)>(s: seq<T>, x: T, p: T -> bool)
    requires !p(x)
    ensures Filter(s + [x], p) == Filter(s, p)
  {
    if s == [] {
      assert [x][1..] == [];
    } else {
      assert (s + [x])[1..] == s[1..] + [x];
      FilterAppendRejected(s[1..], x, p);
    }
  }

  // ---------------------------------------------------------------- the store

  /** Two rows of `reactions` that the primary key and UNIQUE(comment_id, user_id, reaction_type) both allow. */
  predicate Distinct(a: Reaction, b: Reaction) {
    a.id != b.id && !SameTriple(b, a.commentId, a.userId, a.reactionType)
  }

  /** The constraints of `reactions`: ids below the counter, the CHECK on the type, the keys. */
  ghost predicate ValidReactions(reactions: seq<Reaction>, nextReactionId: nat) {
    && (forall i :: 0 <= i < |reactions| ==> reactions[i].id < nextReactionId && reactions[i].reactionType in ReactionTypes)
    && Sorted(reactions, Distinct)
  }

  class IssueStore {
    var issues: seq<Issue>
    var nextIssueId: nat
    var issueAttachments: seq<Attachment>
    var nextIssueAttachmentId: nat
    var comments: seq<Comment>
    var nextCommentId: nat
    var commentAttachments: seq<Attachment>
    var nextCommentAttachmentId: nat
    var reactions: seq<Reaction>
    var nextReactionId: nat

    ghost predicate Valid()
      reads this
    {
      && (forall i :: 0 <= i < |issues| ==> issues[i].id < nextIssueId)
      && (forall i, j :: 0 <= i < j < |issues| ==> issues[i].id != issues[j].id)
      && (forall i :: 0 <= i < |issueAttachments| ==> issueAttachments[i].id < nextIssueAttachmentId)
      && (forall i :: 0 <= i < |comments| ==> comments[i].id < nextCommentId && comments[i].commentType in CommentTypes)
      && (forall i, j :: 0 <= i < j < |comments| ==> comments[i].id != comments[j].id)
      && (forall i :: 0 <= i < |commentAttachments| ==> commentAttachments[i].id < nextCommentAttachmentId)
      && ValidReactions(reactions, nextReactionId)
    }

    constructor ()
      ensures Valid()
      ensures issues == [] && issueAttachments == [] && comments == [] && commentAttachments == [] && reactions == []
    {
      issues, nextIssueId := [], 1;
      issueAttachments, nextIssueAttachmentId := [], 1;
      comments, nextCommentId := [], 1;
      commentAttachments, nextCommentAttachmentId := [], 1;
      reactions, nextReactionId := [], 1;
    }

    /**
     * POST /: inserts the issue (a storage failure, `io`, fails it as a
     * whole; then NOT NULL on title, description and date; status_id takes
     * its default), then one attachment row per uploaded file. A failing
     * attachment insert makes the reply 500, but the issue row and the
     * other attachment rows remain.
     */
    method CreateIssue(title: Option<string>, description: Option<string>, date: Option<string>, createdBy: int,
                       io: bool, files: seq<Upload>, failing: set<nat>, now: nat)
      returns (reply: Reply<CreatedIssue>)
      requires Valid()
      modifies this
      ensures Valid()
      ensures comments == old(comments) && commentAttachments == old(commentAttachments) && reactions == old(reactions)
      ensures nextCommentId == old(nextCommentId) && nextCommentAttachmentId == old(nextCommentAttachmentId)
      ensures nextReactionId == old(nextReactionId)
      ensures io ==> reply == ServerError(Io)
      ensures !io && title.None? ==> reply == ServerError(NotNull("issues.title"))
      ensures !io && title.Some? && description.None? ==> reply == ServerError(NotNull("issues.description"))
      ensures !io && title.Some? && description.Some? && date.None? ==> reply == ServerError(NotNull("issues.date"))
      ensures io || title.None? || description.None? || date.None? ==>
        issues == old(issues) && nextIssueId == old(nextIssueId) &&
        issueAttachments == old(issueAttachments) && nextIssueAttachmentId == old(nextIssueAttachmentId)
      ensures !io && title.Some? && description.Some? && date.Some? ==>
        var id := old(nextIssueId);
        var kept := Kept(files, failing);
        && issues == old(issues) + [Issue(id, title.value, description.value, date.value, createdBy, DefaultStatusId, None, now)]
        && nextIssueId == id + 1
        && issueAttachments == old(issueAttachments) + AttachmentRows(id, IssueUploads, kept, old(nextIssueAttachmentId), now)
        && nextIssueAttachmentId == old(nextIssueAttachmentId) + |kept|
        && reply == if AnyFails(files, failing) then ServerError(Io)
                    else Ok(CreatedIssue(id, title.value, description.value, date.value))
    {
      if io {
        return ServerError(Io);
      }
      if title.None? {
        return ServerError(NotNull("issues.title"));
      }
      if description.None? {
        return ServerError(NotNull("issues.description"));
      }
      if date.None? {
        return ServerError(NotNull("issues.date"));
      }
      var id := nextIssueId;
      issues := issues + [Issue(id, title.value, description.value, date.value, createdBy, DefaultStatusId, None, now)];
      nextIssueId := nextIssueId + 1;
      var rows, failed := AttachFiles(id, IssueUploads, files, failing, nextIssueAttachmentId, now);
      issueAttachments := issueAttachments + rows;
      nextIssueAttachmentId := nextIssueAttachmentId + |rows|;
      if failed {
        reply := ServerError(Io);
      } else {
        reply := Ok(CreatedIssue(id, title.value, description.value, date.value));
      }
    }

    /**
     * POST /:id/comments: inserts the comment (a storage failure, `io`,
     * fails it as a whole; then NOT NULL on content; comment_type takes its
     * default, the status columns stay NULL), then one attachment row per
     * uploaded file, as for issues.
     */
    method AddComment(issueId: int, userId: int, content: Option<string>, io: bool,
                      files: seq<Upload>, failing: set<nat>, now: nat)
      returns (reply: Reply<CreatedComment>)
      requires Valid()
      modifies this
      ensures Valid()
      ensures issues == old(issues) && issueAttachments == old(issueAttachments) && reactions == old(reactions)
      ensures nextIssueId == old(nextIssueId) && nextIssueAttachmentId == old(nextIssueAttachmentId)
      ensures nextReactionId == old(nextReactionId)
      ensures io || content.None? ==>
        && reply == (if io then ServerError(Io) else ServerError(NotNull("comments.content")))
        && comments == old(comments) && nextCommentId == old(nextCommentId)
        && commentAttachments == old(commentAttachments) && nextCommentAttachmentId == old(nextCommentAttachmentId)
      ensures !io && content.Some? ==>
        var id := old(nextCommentId);
        var kept := Kept(files, failing);
        && comments == old(comments) + [Comment(id, issueId, userId, content.value, DefaultCommentType, None, None, now)]
        && nextCommentId == id + 1
        && commentAttachments == old(commentAttachments) + AttachmentRows(id, CommentUploads, kept, old(nextCommentAttachmentId), now)
        && nextCommentAttachmentId == old(nextCommentAttachmentId) + |kept|
        && reply == if AnyFails(files, failing) then ServerError(Io) else Ok(CreatedComment(id, content.value))
    {
      if io {
        return ServerError(Io);
      }
      if content.None? {
        return ServerError(NotNull("comments.content"));
      }
      var id := nextCommentId;
      comments := comments + [Comment(id, issueId, userId, content.value, DefaultCommentType, None, None, now)];
      nextCommentId := nextCommentId + 1;
      var rows, failed := AttachFiles(id, CommentUploads, files, failing, nextCommentAttachmentId, now);
      commentAttachments := commentAttachments + rows;
      nextCommentAttachmentId := nextCommentAttachmentId + |rows|;
      if failed {
        reply := ServerError(Io);
      } else {
        reply := Ok(CreatedComment(id, content.value));
      }
    }

    /**
     * POST /:id/comments/:commentId/reactions: a storage failure (`io`),
     * NOT NULL and the CHECK on reaction_type fail with 500; otherwise the
     * reaction replaces any row with the same (comment, user, type) and
     * gets a fresh id.
     */
    method React(commentId: int, userId: int, reactionType: Option<string>, io: bool, now: nat)
      returns (reply: Reply<ReactionEcho>)
      requires Valid()
      modifies this
      ensures Valid()
      ensures issues == old(issues) && issueAttachments == old(issueAttachments)
      ensures comments == old(comments) && commentAttachments == old(commentAttachments)
      ensures nextIssueId == old(nextIssueId) && nextIssueAttachmentId == old(nextIssueAttachmentId)
      ensures nextCommentId == old(nextCommentId) && nextCommentAttachmentId == old(nextCommentAttachmentId)
      ensures io ==> reply == ServerError(Io)
      ensures !io && reactionType.None? ==> reply == ServerError(NotNull("reactions.reaction_type"))
      ensures !io && reactionType.Some? && reactionType.value !in ReactionTypes ==>
        reply == ServerError(Check("reactions.reaction_type"))
      ensures !reply.Ok? ==> reactions == old(reactions) && nextReactionId == old(nextReactionId)
      ensures !io && reactionType.Some? && reactionType.value in ReactionTypes ==>
        && reply == Ok(ReactionEcho(old(nextReactionId), commentId, userId, reactionType.value))
        && reactions == Upserted(old(reactions), Reaction(old(nextReactionId), commentId, userId, reactionType.value, now))
        && nextReactionId == old(nextReactionId) + 1
    {
      if io {
        return ServerError(Io);
      }
      if reactionType.None? {
        return ServerError(NotNull("reactions.reaction_type"));
      }
      if reactionType.value !in ReactionTypes {
        return ServerError(Check("reactions.reaction_type"));
      }
      var r := Reaction(nextReactionId, commentId, userId, reactionType.value, now);
      UpsertKeepsValid(reactions, nextReactionId, r);
      reactions := Upserted(reactions, r);
      nextReactionId := nextReactionId + 1;
      reply := Ok(ReactionEcho(r.id, commentId, userId, r.reactionType));
    }

    /**
     * DELETE /:id/comments/:commentId/reactions/:reactionType: removes the
     * caller's reaction of that type, or replies 404 when there is none; a
     * storage failure (`io`) fails the statement and changes nothing.
     */
    method Unreact(commentId: int, userId: int, reactionType: string, io: bool) returns (reply: Reply<Message>)
      requires Valid()
      modifies this
      ensures Valid()
      ensures issues == old(issues) && issueAttachments == old(issueAttachments)
      ensures comments == old(comments) && commentAttachments == old(commentAttachments)
      ensures nextIssueId == old(nextIssueId) && nextIssueAttachmentId == old(nextIssueAttachmentId)
      ensures nextCommentId == old(nextCommentId) && nextCommentAttachmentId == old(nextCommentAttachmentId)
      ensures nextReactionId == old(nextReactionId)
      ensures io ==> reply == ServerError(Io) && reactions == old(reactions)
      ensures !io && (forall x | x in old(reactions) :: !SameTriple(x, commentId, userId, reactionType)) ==>
        reply == NotFound("Reaction not found") && reactions == old(reactions)
      ensures !io && (exists x | x in old(reactions) :: SameTriple(x, commentId, userId, reactionType)) ==>
        reply == Ok("Reaction removed successfully") && reactions == WithoutTriple(old(reactions), commentId, userId, reactionType)
    {
      if io {
        return ServerError(Io);
      }
      var found := Find(reactions, (x: Reaction) => SameTriple(x, commentId, userId, reactionType));
      if found.None? {
        return NotFound("Reaction not found");
      }
      assert reactions[found.value] in reactions;
      WithoutKeepsValid(reactions, nextReactionId, commentId, userId, reactionType);
      reactions := WithoutTriple(reactions, commentId, userId, reactionType);
      reply := Ok("Reaction removed successfully");
    }

    /**
     * PUT /:id/status: writes the status of the issue with that id, or
     * replies 404; a storage failure (`io`) fails the statement and changes
     * nothing.
     */
    method SetStatus(id: int, status: Option<string>, io: bool) returns (reply: Reply<Message>)
      requires Valid()
      modifies this
      ensures Valid()
      ensures issueAttachments == old(issueAttachments) && comments == old(comments)
      ensures commentAttachments == old(commentAttachments) && reactions == old(reactions)
      ensures nextIssueId == old(nextIssueId) && nextIssueAttachmentId == old(nextIssueAttachmentId)
      ensures nextCommentId == old(nextCommentId) && nextCommentAttachmentId == old(nextCommentAttachmentId)
      ensures nextReactionId == old(nextReactionId)
      ensures io ==> reply == ServerError(Io) && issues == old(issues)
      ensures !io && IndexOfIssue(old(issues), id).None? ==> reply == NotFound("Issue not found") && issues == old(issues)
      ensures !io && IndexOfIssue(old(issues), id).Some? ==>
        var i := IndexOfIssue(old(issues), id).value;
        reply == Ok("Issue status updated successfully") && issues == old(issues)[i := old(issues)[i].(status := status)]
    {
      if io {
        return ServerError(Io);
      }
      var found := IndexOfIssue(issues, id);
      if found.None? {
        return NotFound("Issue not found");
      }
      var i := found.value;
      issues := issues[i := issues[i].(status := status)];
      reply := Ok("Issue status updated successfully");
    }

    /**
     * GET /:id/comments: the issue's comments with their authors, oldest
     * first; when there are none the reply is the empty list before any
     * further query. Otherwise the attachments and the reactions of those
     * comments are fetched with `IN (...)`, grouped by comment id, and each
     * comment is given its groups, `[]` when it has none.
     */
    method ListComments(issueId: int, users: seq<User>) returns (views: seq<CommentView>)
      ensures var rows := IssueComments(comments, users, issueId);
        |views| == |rows| &&
        forall k :: 0 <= k < |rows| ==> views[k] == Enriched(rows[k], commentAttachments, reactions, users)
    {
      var rows := IssueComments(comments, users, issueId);
      var ids := MapSeq(CommentIdOf, rows);
      if |ids| == 0 {
        return [];
      }
      var attachmentsBy := AttachmentsByComment(commentAttachments, ids);
      var reactionsBy := ReactionsByComment(reactions, users, ids);
      forall k | 0 <= k < |rows|
        ensures GroupOf(attachmentsBy, rows[k].row.id) == Select(commentAttachments, AttachmentOwner, rows[k].row.id)
        ensures GroupOf(reactionsBy, rows[k].row.id) ==
          MapSeq(ToReactionView, Select(JoinUsers(reactions, ReactionUser, users), ReactionOwner, rows[k].row.id))
      {
        assert ids[k] in ids;
      }
      views := EnrichAll(rows, commentAttachments, reactions, users, attachmentsBy, reactionsBy);
    }
  }

  function IndexOfIssue(rows: seq<Issue>, id: int): Option<nat> {
    Find(rows, (i: Issue) => i.id == id)
  }

  lemma UpsertKeepsValid(rows: seq<Reaction>, nextId: nat, r: Reaction)
    requires ValidReactions(rows, nextId) && r.id == nextId && r.reactionType in ReactionTypes
    ensures ValidReactions(Upserted(rows, r), nextId + 1)
  {
    var p := (x: Reaction) => !SameTriple(x, r.commentId, r.userId, r.reactionType);
    var kept := Filter(rows, p);
    FilterKeepsOrder(rows, p, Distinct);
    var after := kept + [r];
    forall i | 0 <= i < |after| ensures after[i].id < nextId + 1 && after[i].reactionType in ReactionTypes {
      if i < |kept| {
        assert after[i] == kept[i] && kept[i] in kept;
      }
    }
    forall i, j | 0 <= i < j < |after| ensures Distinct(after[i], after[j]) {
      if j == |kept| {
        assert after[i] in kept;
      } else {
        assert after[i] == kept[i] && after[j] == kept[j];
      }
    }
  }

  lemma WithoutKeepsValid(rows: seq<Reaction>, nextId: nat, commentId: int, userId: int, reactionType: string)
    requires ValidReactions(rows, nextId)
    ensures ValidReactions(WithoutTriple(rows, commentId, userId, reactionType), nextId)
  {
    var kept := WithoutTriple(rows, commentId, userId, reactionType);
    FilterKeepsOrder(rows, (x: Reaction) => !SameTriple(x, commentId, userId, reactionType), Distinct);
    forall i | 0 <= i < |kept| ensures kept[i].id < nextId && kept[i].reactionType in ReactionTypes {
      assert kept[i] in kept;
    }
  }

  // ---------------------------------------------------------------- GET /:id/comments

  /** A comment as the listing returns it. */
  datatype CommentView = CommentView(
    id: nat,
    content: string,
    createdAt: nat,
    userId: nat,
    userName: string,
    userEmail: string,
    userImage: Option<string>,
    attachments: seq<Attachment>,
    reactions: seq<ReactionView>)

  /** A reaction row with its author's name (`r.*, u.name as user_name`). */
  datatype ReactionView = ReactionView(reaction: Reaction, userName: string)

  function CommentAuthor(c: Comment): int {
    c.userId
  }

  function ReactionUser(r: Reaction): int {
    r.userId
  }

  function CommentIdOf(j: Joined<Comment>): int {
    j.row.id
  }

  function AttachmentOwner(a: Attachment): int {
    a.ownerId
  }

  function ReactionOwner(j: Joined<Reaction>): int {
    j.row.commentId
  }

  function ToReactionView(j: Joined<Reaction>): ReactionView {
    ReactionView(j.row, j.user.name)
  }

  /** `ORDER BY c.created_at ASC`. */
  predicate ByCreatedAt(a: Joined<Comment>, b: Joined<Comment>) {
    a.row.createdAt <= b.row.createdAt
  }

  /** The rows of the comment query: the issue's comments that have an author, oldest first. */
  function IssueComments(comments: seq<Comment>, users: seq<User>, issueId: int): (rows: seq<Joined<Comment>>)
    ensures Sorted(rows, ByCreatedAt)
    ensures forall j: Joined<Comment> ::
      multiset(rows)[j] ==
      if j.row.issueId == issueId && UserById(users, j.row.userId) == Some(j.user) then multiset(comments)[j.row] else 0
    ensures forall j | j in rows :: j.row in comments && j.row.issueId == issueId && UserById(users, j.row.userId) == Some(j.user)
    ensures forall c | c in comments && c.issueId == issueId && UserById(users, c.userId).Some? ::
      Joined(c, UserById(users, c.userId).value) in rows
  {
    assert TotalPreorder(ByCreatedAt);
    var joined := JoinUsers(Filter(comments, (c: Comment) => c.issueId == issueId), CommentAuthor, users);
    SortByMembers(joined, ByCreatedAt);
    SortBy(joined, ByCreatedAt)
  }

  /** `WHERE comment_id IN (...)` on the attachment rows. */
  function AttachmentListed(ids: seq<int>): Attachment -> bool {
    (a: Attachment) => a.ownerId in ids
  }

  /** `WHERE r.comment_id IN (...)` on the joined reaction rows. */
  function ReactionListed(ids: seq<int>): Joined<Reaction> -> bool {
    (j: Joined<Reaction>) => j.row.commentId in ids
  }

  /**
   * The attachments of the listed comments (`WHERE comment_id IN (...)`)
   * reduced into lists keyed by comment id: for each listed comment, its
   * group or `[]` is exactly its own attachments, in table order.
   */
  function AttachmentsByComment(attachments: seq<Attachment>, ids: seq<int>): (g: map<int, seq<Attachment>>)
    ensures forall id | id in ids :: GroupOf(g, id) == Select(attachments, AttachmentOwner, id)
  {
    var g := GroupBy(Filter(attachments, AttachmentListed(ids)), AttachmentOwner, Id);
    forall id | id in ids ensures GroupOf(g, id) == Select(attachments, AttachmentOwner, id) {
      GroupOfFiltered(attachments, AttachmentListed(ids), AttachmentOwner, Id, id);
      MapSeqId(Select(attachments, AttachmentOwner, id));
    }
    g
  }

  /**
   * The reactions of the listed comments, joined with their authors' names
   * and reduced into lists keyed by comment id: for each listed comment,
   * its group or `[]` is exactly the reactions on it whose author exists.
   */
  function ReactionsByComment(reactions: seq<Reaction>, users: seq<User>, ids: seq<int>): (g: map<int, seq<ReactionView>>)
    ensures forall id | id in ids ::
      GroupOf(g, id) == MapSeq(ToReactionView, Select(JoinUsers(reactions, ReactionUser, users), ReactionOwner, id))
  {
    var joined := JoinUsers(reactions, ReactionUser, users);
    var g := GroupBy(Filter(joined, ReactionListed(ids)), ReactionOwner, ToReactionView);
    forall id | id in ids ensures GroupOf(g, id) == MapSeq(ToReactionView, Select(joined, ReactionOwner, id)) {
      GroupOfFiltered(joined, ReactionListed(ids), ReactionOwner, ToReactionView, id);
    }
    g
  }

  /** The loop over the comment rows that gives each its attachments and reactions. */
  method EnrichAll(rows: seq<Joined<Comment>>, attachments: seq<Attachment>, reactions: seq<Reaction>, users: seq<User>,
                   attachmentsBy: map<int, seq<Attachment>>, reactionsBy: map<int, seq<ReactionView>>)
    returns (views: seq<CommentView>)
    requires forall k :: 0 <= k < |rows| ==>
      GroupOf(attachmentsBy, rows[k].row.id) == Select(attachments, AttachmentOwner, rows[k].row.id)
    requires forall k :: 0 <= k < |rows| ==>
      GroupOf(reactionsBy, rows[k].row.id) ==
      MapSeq(ToReactionView, Select(JoinUsers(reactions, ReactionUser, users), ReactionOwner, rows[k].row.id))
    ensures |views| == |rows|
    ensures forall k :: 0 <= k < |rows| ==> views[k] == Enriched(rows[k], attachments, reactions, users)
  {
    views := MapSeq(Base, rows);
    var k := 0;
    while k < |views|
      invariant 0 <= k <= |views| == |rows|
      invariant forall i :: 0 <= i < k ==> views[i] == Enriched(rows[i], attachments, reactions, users)
      invariant forall i :: k <= i < |views| ==> views[i] == Base(rows[i])
    {
      var id := rows[k].row.id;
      EnrichStep(views, rows, k, attachments, reactions, users, attachmentsBy, reactionsBy);
      views := views[k := views[k].(attachments := GroupOf(attachmentsBy, id), reactions := GroupOf(reactionsBy, id))];
      k := k + 1;
    }
  }

  lemma EnrichStep(views: seq<CommentView>, rows: seq<Joined<Comment>>, k: nat,
                   attachments: seq<Attachment>, reactions: seq<Reaction>, users: seq<User>,
                   attachmentsBy: map<int, seq<Attachment>>, reactionsBy: map<int, seq<ReactionView>>)
    requires k < |views| == |rows|
    requires forall i :: 0 <= i < k ==> views[i] == Enriched(rows[i], attachments, reactions, users)
    requires forall i :: k <= i < |views| ==> views[i] == Base(rows[i])
    requires GroupOf(attachmentsBy, rows[k].row.id) == Select(attachments, AttachmentOwner, rows[k].row.id)
    requires GroupOf(reactionsBy, rows[k].row.id) ==
      MapSeq(ToReactionView, Select(JoinUsers(reactions, ReactionUser, users), ReactionOwner, rows[k].row.id))
    ensures var id := rows[k].row.id;
      var next := views[k := views[k].(attachments := GroupOf(attachmentsBy, id), reactions := GroupOf(reactionsBy, id))];
      && (forall i :: 0 <= i < k + 1 ==> next[i] == Enriched(rows[i], attachments, reactions, users))
      && (forall i :: k + 1 <= i < |next| ==> next[i] == Base(rows[i]))
  {
  }

  /** A comment row before enrichment. */
  function Base(j: Joined<Comment>): CommentView {
    CommentView(j.row.id, j.row.content, j.row.createdAt, j.user.id, j.user.name, j.user.email, j.user.profileImage, [], [])
  }

  /**
   * A comment as the listing should return it: its own attachments and
   * reactions, the rows whose comment_id is its id, in table order.
   */
  function Enriched(j: Joined<Comment>, attachments: seq<Attachment>, reactions: seq<Reaction>, users: seq<User>): CommentView {
    Base(j).(
      attachments := Select(attachments, AttachmentOwner, j.row.id),
      reactions := MapSeq(ToReactionView, Select(JoinUsers(reactions, ReactionUser, users), ReactionOwner, j.row.id)))
  }

  /** Each listed comment's attachments all belong to it, and every one of its attachments is listed. */
  lemma EnrichedAttachmentsAreOwn(j: Joined<Comment>, attachments: seq<Attachment>, reactions: seq<Reaction>, users: seq<User>)
    ensures forall a :: a in Enriched(j, attachments, reactions, users).attachments <==> a in attachments && a.ownerId == j.row.id
  {
    var sel := Select(attachments, AttachmentOwner, j.row.id);
    assert Enriched(j, attachments, reactions, users).attachments == sel;
    forall a ensures a in sel <==> a in attachments && a.ownerId == j.row.id {
      assert AttachmentOwner(a) == a.ownerId;
    }
  }

  // ---------------------------------------------------------------- GET /range

  /** A row of the issue range query. */
  datatype IssueSummary = IssueSummary(
    id: nat,
    title: string,
    description: string,
    date: string,
    status: Option<string>,
    createdAt: nat,
    createdById: nat,
    createdByName: string,
    createdByEmail: string,
    commentCount: nat)

  function IssueCreator(i: Issue): int {
    i.createdBy
  }

  /** `(SELECT COUNT(*) FROM comments WHERE issue_id = i.id)`. */
  function CommentCount(comments: seq<Comment>, issueId: int): nat {
    |Filter(comments, (c: Comment) => c.issueId == issueId)|
  }

  function Summary(j: Joined<Issue>, comments: seq<Comment>): IssueSummary {
    IssueSummary(j.row.id, j.row.title, j.row.description, j.row.date, j.row.status, j.row.createdAt,
                 j.user.id, j.user.name, j.user.email, CommentCount(comments, j.row.id))
  }

  function Summaries(rows: seq<Joined<Issue>>, comments: seq<Comment>): (r: seq<IssueSummary>)
    ensures |r| == |rows| && forall i :: 0 <= i < |rows| ==> r[i] == Summary(rows[i], comments)
  {
    seq(|rows|, i requires 0 <= i < |rows| => Summary(rows[i], comments))
  }

  /** `ORDER BY i.date, i.created_at DESC`. */
  predicate ByDateThenNewest(a: IssueSummary, b: IssueSummary) {
    if a.date == b.date then a.createdAt >= b.createdAt else LexLe(a.date, b.date)
  }

  lemma ByDateThenNewestIsPreorder()
    ensures TotalPreorder(ByDateThenNewest)
  {
    forall a, b ensures ByDateThenNewest(a, b) || ByDateThenNewest(b, a) {
      LexLeTotal(a.date, b.date);
    }
    forall a, b, c | ByDateThenNewest(a, b) && ByDateThenNewest(b, c) ensures ByDateThenNewest(a, c) {
      LexLeTransitive(a.date, b.date, c.date);
      LexLeAntisymmetric(a.date, b.date);
      LexLeAntisymmetric(b.date, c.date);
    }
  }

  function SummaryDate(s: IssueSummary): string {
    s.date
  }

  /** The rows of the range query, in the order it returns them. */
  function IssueRangeRows(issues: seq<Issue>, users: seq<User>, comments: seq<Comment>, start: Option<string>, end: Option<string>)
    : seq<IssueSummary>
  {
    ByDateThenNewestIsPreorder();
    SortBy(RangeSummaries(issues, users, comments, start, end), ByDateThenNewest)
  }

  /**
   * `FROM issues i JOIN users u ON i.created_by = u.id WHERE i.date BETWEEN ? AND ?`:
   * each issue in the range whose creator exists, as often as it is in the
   * table, with that creator, and nothing else.
   */
  function RangeJoined(issues: seq<Issue>, users: seq<User>, start: Option<string>, end: Option<string>): (rows: seq<Joined<Issue>>)
    ensures forall j: Joined<Issue> ::
      multiset(rows)[j] ==
      if Between(j.row.date, start, end) && UserById(users, j.row.createdBy) == Some(j.user) then multiset(issues)[j.row] else 0
  {
    JoinUsers(Filter(issues, (i: Issue) => Between(i.date, start, end)), IssueCreator, users)
  }

  /** The rows of the range query before `ORDER BY`. */
  function RangeSummaries(issues: seq<Issue>, users: seq<User>, comments: seq<Comment>, start: Option<string>, end: Option<string>)
    : seq<IssueSummary>
  {
    Summaries(RangeJoined(issues, users, start, end), comments)
  }

  /** GET /range: the query rows grouped under their date. */
  function IssueRange(issues: seq<Issue>, users: seq<User>, comments: seq<Comment>, start: Option<string>, end: Option<string>)
    : map<string, seq<IssueSummary>>
  {
    GroupBy(IssueRangeRows(issues, users, comments, start, end), SummaryDate, Id)
  }

  /**
   * The reply of GET /range on an `issues` table with the given columns.
   * The query selects `i.status`; where the table has no such column
   * SQLite rejects the statement and the handler replies 500. Otherwise
   * the reply is the grouped listing.
   */
  function RangeReply(columns: seq<string>, issues: seq<Issue>, users: seq<User>, comments: seq<Comment>,
                      start: Option<string>, end: Option<string>): (r: Reply<map<string, seq<IssueSummary>>>)
    ensures r.Ok? <==> "status" in columns
    ensures r.Ok? ==> r.body == IssueRange(issues, users, comments, start, end)
    ensures !r.Ok? ==> r == ServerError(NoSuchColumn("i.status")) && r.Code() == 500
  {
    if "status" in columns then Ok(IssueRange(issues, users, comments, start, end))
    else ServerError(NoSuchColumn("i.status"))
  }

  /**
   * The range query gives one summary per joined row, only reordered; a
   * summary is in the result exactly when an issue in the range with an
   * existing creator has it.
   */
  lemma IssueRangeRowsContents(issues: seq<Issue>, users: seq<User>, comments: seq<Comment>, start: Option<string>, end: Option<string>)
    ensures multiset(IssueRangeRows(issues, users, comments, start, end))
      == multiset(Summaries(RangeJoined(issues, users, start, end), comments))
    ensures forall s | s in IssueRangeRows(issues, users, comments, start, end) ::
      Between(s.date, start, end) &&
      exists i | i in issues && UserById(users, i.createdBy).Some? :: s == Summary(Joined(i, UserById(users, i.createdBy).value), comments)
    ensures forall i | i in issues && Between(i.date, start, end) && UserById(users, i.createdBy).Some? ::
      Summary(Joined(i, UserById(users, i.createdBy).value), comments) in IssueRangeRows(issues, users, comments, start, end)
  {
    ByDateThenNewestIsPreorder();
    SortByMembers(RangeSummaries(issues, users, comments, start, end), ByDateThenNewest);
    RangeSummariesSound(issues, users, comments, start, end);
    RangeSummariesComplete(issues, users, comments, start, end);
  }

  lemma RangeSummariesSound(issues: seq<Issue>, users: seq<User>, comments: seq<Comment>, start: Option<string>, end: Option<string>)
    ensures forall s | s in RangeSummaries(issues, users, comments, start, end) ::
      Between(s.date, start, end) &&
      exists i | i in issues && UserById(users, i.createdBy).Some? :: s == Summary(Joined(i, UserById(users, i.createdBy).value), comments)
  {
    var inRange := Filter(issues, (i: Issue) => Between(i.date, start, end));
    var joined := JoinUsers(inRange, IssueCreator, users);
    var sums := Summaries(joined, comments);
    forall k | 0 <= k < |sums|
      ensures Between(sums[k].date, start, end)
      ensures exists i | i in issues && UserById(users, i.createdBy).Some? :: sums[k] == Summary(Joined(i, UserById(users, i.createdBy).value), comments)
    {
      assert joined[k] in joined;
      var i := joined[k].row;
      assert i in inRange && UserById(users, i.createdBy) == Some(joined[k].user);
    }
  }

  lemma RangeSummariesComplete(issues: seq<Issue>, users: seq<User>, comments: seq<Comment>, start: Option<string>, end: Option<string>)
    ensures forall i | i in issues && Between(i.date, start, end) && UserById(users, i.createdBy).Some? ::
      Summary(Joined(i, UserById(users, i.createdBy).value), comments) in RangeSummaries(issues, users, comments, start, end)
  {
    var inRange := Filter(issues, (i: Issue) => Between(i.date, start, end));
    var joined := JoinUsers(inRange, IssueCreator, users);
    var sums := Summaries(joined, comments);
    forall i | i in issues && Between(i.date, start, end) && UserById(users, i.createdBy).Some?
      ensures Summary(Joined(i, UserById(users, i.createdBy).value), comments) in sums
    {
      assert i in inRange;
      var j := Joined(i, UserById(users, i.createdBy).value);
      assert j in joined;
      var k :| 0 <= k < |joined| && joined[k] == j;
      assert sums[k] == Summary(j, comments);
    }
  }

  /**
   * The range listing has a group for a date only when some issue in range
   * has that date; each issue in range (with an existing creator) appears,
   * with its comment count, in the group of its own date, and every item of
   * a group has the group's date, so no issue appears under two dates.
   */
  lemma IssueRangePartition(issues: seq<Issue>, users: seq<User>, comments: seq<Comment>, start: Option<string>, end: Option<string>)
    ensures var g := IssueRange(issues, users, comments, start, end);
      forall d | d in g :: Between(d, start, end) && g[d] != [] && forall s: IssueSummary | s in g[d] :: s.date == d
    ensures var g := IssueRange(issues, users, comments, start, end);
      forall i | i in issues && Between(i.date, start, end) && UserById(users, i.createdBy).Some? ::
        i.date in g && Summary(Joined(i, UserById(users, i.createdBy).value), comments) in g[i.date]
  {
    var rows := IssueRangeRows(issues, users, comments, start, end);
    var g := IssueRange(issues, users, comments, start, end);
    IssueRangeRowsContents(issues, users, comments, start, end);
    forall d | d in g ensures Between(d, start, end) && forall s: IssueSummary | s in g[d] :: s.date == d {
      var k :| 0 <= k < |rows| && SummaryDate(rows[k]) == d;
      assert rows[k] in rows;
      MapSeqId(Select(rows, SummaryDate, d));
    }
    forall i | i in issues && Between(i.date, start, end) && UserById(users, i.createdBy).Some?
      ensures i.date in g && Summary(Joined(i, UserById(users, i.createdBy).value), comments) in g[i.date]
    {
      var s := Summary(Joined(i, UserById(users, i.createdBy).value), comments);
      var k :| 0 <= k < |rows| && rows[k] == s;
      RowInOwnGroup(rows, SummaryDate, Id, k);
    }
  }

  /** Within each date the issues are listed newest first. */
  lemma IssueRangeNewestFirst(issues: seq<Issue>, users: seq<User>, comments: seq<Comment>, start: Option<string>, end: Option<string>)
    ensures var g := IssueRange(issues, users, comments, start, end);
      forall d | d in g :: Sorted(g[d], (a: IssueSummary, b: IssueSummary) => a.createdAt >= b.createdAt)
  {
    ByDateThenNewestIsPreorder();
    GroupKeepsOrder(IssueRangeRows(issues, users, comments, start, end), SummaryDate, Id, ByDateThenNewest,
                    (a: IssueSummary, b: IssueSummary) => a.createdAt >= b.createdAt);
  }
}

=== FILE: migration.dfy ===
/**
 * Schema set-up and the move of `issues` from a free-text `status` column
 * to a `status_id` that points into `issue_statuses`: the branch start-up
 * takes on the columns it finds, the statement chain that rebuilds the
 * table, the stand-alone migration script, and the embedded server's
 * schema creation. Tables are values; the `Database` class holds the ones
 * these statements touch and performs the statements in place.
 */
module Migration {
  import opened Common
  import opened Ordering
  import opened Statuses
  import opened Issues
  import opened Grouping
  import Users

  /** A stored row: column name to cell value. */
  type Row = map<string, Value>

  datatype Table = Table(columns: seq<string>, rows: seq<Row>)

  /** The cell of column `c`; a column the row lacks reads as NULL. */
  function Get(r: Row, c: string): Value {
    if c in r then r[c] else Null
  }

  /** The columns of the rebuilt `issues` table, in declaration order. */
  const NewColumns: seq<string> := ["id", "title", "description", "date", "created_by", "status_id", "created_at"]

  /** The columns the rebuild copies unchanged. */
  const KeptColumns: seq<string> := ["id", "title", "description", "date", "created_by", "created_at"]

  /** The columns of `comments` as its CREATE TABLE declares them. */
  const CommentColumns: seq<string> :=
    ["id", "issue_id", "user_id", "content", "comment_type", "old_status_id", "new_status_id", "created_at"]

  /** The columns start-up adds to a `comments` table that predates them. */
  const AddedCommentColumns: seq<string> := ["comment_type", "old_status_id", "new_status_id"]

  function CommentColumnDefault(c: string): Value {
    if c == "comment_type" then Text(DefaultCommentType) else Null
  }

  /** The tables the set-up and migration statements touch; `None` is a table that does not exist. */
  datatype Schema = Schema(statuses: Option<Catalog>, issues: Option<Table>, issuesNew: Option<Table>, comments: Option<Table>)

  /** `PRAGMA table_info(issues)`: the column names, none when the table does not exist. */
  function Columns(t: Option<Table>): seq<string> {
    if t.None? then [] else t.value.columns
  }

  // ---------------------------------------------------------------- the branch

  datatype Plan = CreateTable | MigrateStatusColumn | AddStatusIdColumn | AlreadyMigrated

  /** The branch start-up takes on the columns of `issues`. */
  function StartupPlan(columns: seq<string>): Plan {
    if |columns| == 0 then CreateTable
    else if "status" in columns && "status_id" !in columns then MigrateStatusColumn
    else if "status" !in columns && "status_id" !in columns then AddStatusIdColumn
    else AlreadyMigrated
  }

  /** The branch of the migration script, which has no case for a missing table. */
  function StandalonePlan(columns: seq<string>): Plan {
    if "status" in columns && "status_id" !in columns then MigrateStatusColumn
    else if "status" !in columns && "status_id" !in columns then AddStatusIdColumn
    else AlreadyMigrated
  }

  /**
   * Start-up creates the table exactly when it has no columns, migrates
   * exactly when there is a `status` but no `status_id`, adds the column
   * exactly when both are missing, and otherwise does nothing.
   */
  lemma StartupPlanDecides(columns: seq<string>)
    ensures StartupPlan(columns) == CreateTable <==> columns == []
    ensures StartupPlan(columns) == MigrateStatusColumn <==> columns != [] && "status" in columns && "status_id" !in columns
    ensures StartupPlan(columns) == AddStatusIdColumn <==> columns != [] && "status" !in columns && "status_id" !in columns
    ensures StartupPlan(columns) == AlreadyMigrated <==> columns != [] && "status_id" in columns
  {
  }

  /**
   * The script decides as start-up does on every table that has columns;
   * on a missing table, where start-up creates it, the script tries to add
   * the column.
   */
  lemma PlansAgree(columns: seq<string>)
    ensures columns != [] ==> StandalonePlan(columns) == StartupPlan(columns)
    ensures columns == [] ==> StandalonePlan(columns) == AddStatusIdColumn && StartupPlan(columns) == CreateTable
  {
  }

  // ---------------------------------------------------------------- the status mapping

  /**
   * The `CASE` of the data migration: the status id for a legacy status.
   * NULL, numbers and unknown words take the ELSE branch.
   */
  function LegacyStatusId(status: Value): (id: int)
    ensures 1 <= id <= 4
  {
    match status
    case Text(s) =>
      if s == "open" then 1
      else if s == "in_progress" || s == "investigation" then 2
      else if s == "resolved" then 3
      else if s == "closed" then 4
      else 1
    case _ => 1
  }

  /**
   * On a freshly seeded catalog, every legacy status maps to the id of the
   * status of the same name, `in_progress` to that of `investigation`, and
   * every value, known or not, to the id of some seeded status.
   */
  lemma LegacyIdsNameSeededStatuses(now: nat)
    ensures var rows := SeedDefaults(Catalog([], 1), now).rows;
      && IdOf(rows, "open") == Some(LegacyStatusId(Text("open")))
      && IdOf(rows, "investigation") == Some(LegacyStatusId(Text("investigation")))
      && IdOf(rows, "investigation") == Some(LegacyStatusId(Text("in_progress")))
      && IdOf(rows, "resolved") == Some(LegacyStatusId(Text("resolved")))
      && IdOf(rows, "closed") == Some(LegacyStatusId(Text("closed")))
      && forall v: Value :: 0 <= LegacyStatusId(v) - 1 < |rows| && rows[LegacyStatusId(v) - 1].id == LegacyStatusId(v)
  {
    SeedEmpty(now);
    SeededIds(SeedDefaults(Catalog([], 1), now).rows, now);
    LegacyNames();
  }

  /** The `CASE` on each of the legacy words. */
  lemma LegacyNames()
    ensures LegacyStatusId(Text("open")) == 1
    ensures LegacyStatusId(Text("in_progress")) == 2 && LegacyStatusId(Text("investigation")) == 2
    ensures LegacyStatusId(Text("resolved")) == 3
    ensures LegacyStatusId(Text("closed")) == 4
  {
    assert |"in_progress"| != |"open"|;
    assert |"investigation"| != |"open"| && |"investigation"| != |"in_progress"|;
    assert |"resolved"| != |"open"| && |"resolved"| != |"in_progress"| && |"resolved"| != |"investigation"|;
    assert |"closed"| != |"open"| && |"closed"| != |"in_progress"| && |"closed"| != |"investigation"| && |"closed"| != |"resolved"|;
  }

  lemma SeededIds(rows: seq<StatusRow>, now: nat)
    requires rows == [
      StatusRow(1, "open", "#EF4444", 1, 1, now),
      StatusRow(2, "investigation", "#F59E0B", 2, 1, now),
      StatusRow(3, "resolved", "#10B981", 3, 1, now),
      StatusRow(4, "closed", "#6B7280", 4, 1, now)]
    ensures IdOf(rows, "open") == Some(1)
    ensures IdOf(rows, "investigation") == Some(2)
    ensures IdOf(rows, "resolved") == Some(3)
    ensures IdOf(rows, "closed") == Some(4)
    ensures forall i :: 0 <= i < |rows| ==> rows[i].id == i + 1
  {
    IdOfFirst(rows, 0, "open");
    forall j | 0 <= j < 1 ensures rows[j].name != "investigation" {
      assert j == 0;
    }
    IdOfFirst(rows, 1, "investigation");
    forall j | 0 <= j < 2 ensures rows[j].name != "resolved" {
      assert j == 0 || j == 1;
    }
    IdOfFirst(rows, 2, "resolved");
    forall j | 0 <= j < 3 ensures rows[j].name != "closed" {
      assert j == 0 || j == 1 || j == 2;
    }
    IdOfFirst(rows, 3, "closed");
    forall i | 0 <= i < |rows| ensures rows[i].id == i + 1 {
      assert i == 0 || i == 1 || i == 2 || i == 3;
    }
  }

  lemma IdOfFirst(rows: seq<StatusRow>, i: nat, name: string)
    requires i < |rows| && rows[i].name == name
    requires forall j :: 0 <= j < i ==> rows[j].name != name
    ensures IdOf(rows, name) == Some(rows[i].id)
  {
    var found := Find(rows, (s: StatusRow) => s.name == name);
    assert found == Some(i);
  }

  // ---------------------------------------------------------------- statements on one table

  /** What a statement leaves of the table it changes, and its error if it failed. */
  datatype Altered = Altered(table: Option<Table>, fault: Option<Fault>)

  /** Every row gains column `c` holding `v`. */
  function WithColumn(t: Table, c: string, v: Value): (r: Table)
    ensures r.columns == t.columns + [c] && |r.rows| == |t.rows|
    ensures forall i, d :: 0 <= i < |t.rows| ==> Get(r.rows[i], d) == if d == c then v else Get(t.rows[i], d)
  {
    Table(t.columns + [c], seq(|t.rows|, i requires 0 <= i < |t.rows| => t.rows[i][c := v]))
  }

  /** `ALTER TABLE name ADD COLUMN c ... DEFAULT v`. */
  function AddColumn(t: Option<Table>, name: string, c: string, v: Value): Altered {
    if t.None? then Altered(t, Some(NoSuchTable(name)))
    else if c in t.value.columns then Altered(t, Some(DuplicateColumn(c)))
    else Altered(Some(WithColumn(t.value, c, v)), None)
  }

  /** One row under the `UPDATE ... SET status_id = CASE ...`, with or without its `WHERE`. */
  function MapRow(r: Row, filtered: bool): Row {
    var current := Get(r, "status_id");
    if !filtered || current == Null || current == Int(1) then r["status_id" := Int(LegacyStatusId(Get(r, "status")))]
    else r
  }

  /**
   * The data migration. Start-up restricts it with
   * `WHERE status_id IS NULL OR status_id = 1`; the script has no `WHERE`.
   */
  function MapStatusIn(t: Option<Table>, filtered: bool): Altered {
    if t.None? then Altered(t, Some(NoSuchTable("issues")))
    else if "status_id" !in t.value.columns then Altered(t, Some(NoSuchColumn("status_id")))
    else if "status" !in t.value.columns then Altered(t, Some(NoSuchColumn("status")))
    else
      var rows := t.value.rows;
      Altered(Some(Table(t.value.columns, seq(|rows|, i requires 0 <= i < |rows| => MapRow(rows[i], filtered)))), None)
  }

  /** The seven columns `INSERT INTO issues_new (...) SELECT ... FROM issues` takes from a row. */
  function Projected(r: Row): Row {
    map c | c in NewColumns :: Get(r, c)
  }

  function Copied(rows: seq<Row>): seq<Row> {
    seq(|rows|, i requires 0 <= i < |rows| => Projected(rows[i]))
  }

  /** The first NOT NULL column of `issues_new` that the row leaves NULL. */
  function FirstNull(r: Row): Option<string> {
    if Get(r, "title") == Null then Some("title")
    else if Get(r, "description") == Null then Some("description")
    else if Get(r, "date") == Null then Some("date")
    else if Get(r, "created_by") == Null then Some("created_by")
    else None
  }

  predicate HasNull(r: Row) {
    FirstNull(r).Some?
  }

  /** Two rows with the same non-NULL id: the primary key rejects the second. */
  predicate IdsClash(rows: seq<Row>) {
    exists i, j :: 0 <= i < j < |rows| && Get(rows[i], "id") != Null && Get(rows[i], "id") == Get(rows[j], "id")
  }

  /** Why the copy fails, if it does. */
  function CopyFault(src: Option<Table>, dst: Option<Table>): Option<Fault> {
    if dst.None? then Some(NoSuchTable("issues_new"))
    else if src.None? then Some(NoSuchTable("issues"))
    else
      match Find(NewColumns, c => c !in src.value.columns)
      case Some(k) => Some(NoSuchColumn(NewColumns[k]))
      case None =>
        match Find(src.value.rows, HasNull)
        case Some(i) => Some(NotNull("issues_new." + FirstNull(src.value.rows[i]).value))
        case None =>
          if IdsClash(dst.value.rows + Copied(src.value.rows)) then Some(Unique("issues_new.id")) else None
  }

  /** The copy into `issues_new`; the statement is atomic, so a failed copy adds nothing. */
  function CopyInto(src: Option<Table>, dst: Option<Table>): Altered {
    var fault := CopyFault(src, dst);
    if fault.Some? then Altered(dst, fault)
    else Altered(Some(Table(dst.value.columns, dst.value.rows + Copied(src.value.rows))), None)
  }

  /**
   * A successful copy keeps the rows already in `issues_new` and appends
   * one row per source row, in order, with the id, title, description,
   * date, creator, status id and creation time of that row.
   */
  lemma CopyKeepsEveryRow(src: Option<Table>, dst: Option<Table>)
    requires CopyFault(src, dst).None?
    ensures var t := CopyInto(src, dst).table;
      && t.Some? && |t.value.rows| == |dst.value.rows| + |src.value.rows|
      && t.value.rows[..|dst.value.rows|] == dst.value.rows
      && forall i, c :: 0 <= i < |src.value.rows| && c in NewColumns ==>
           Get(t.value.rows[|dst.value.rows| + i], c) == Get(src.value.rows[i], c)
  {
    CopySucceeds(src, dst);
    AppendedCopy(dst.value.rows, src.value.rows);
  }

  lemma CopySucceeds(src: Option<Table>, dst: Option<Table>)
    requires CopyFault(src, dst).None?
    ensures src.Some? && dst.Some?
    ensures CopyInto(src, dst).table == Some(Table(dst.value.columns, dst.value.rows + Copied(src.value.rows)))
  {
  }

  lemma AppendedCopy(before: seq<Row>, rows: seq<Row>)
    ensures var all := before + Copied(rows);
      && |all| == |before| + |rows| && all[..|before|] == before
      && forall i, c :: 0 <= i < |rows| && c in NewColumns ==> Get(all[|before| + i], c) == Get(rows[i], c)
  {
    var copied := Copied(rows);
    var all := before + copied;
    assert all[..|before|] == before;
    forall i, c | 0 <= i < |rows| && c in NewColumns
      ensures Get(all[|before| + i], c) == Get(rows[i], c)
    {
      assert all[|before| + i] == copied[i];
      ProjectedGet(rows[i], c);
    }
  }

  lemma ProjectedGet(r: Row, c: string)
    requires c in NewColumns
    ensures Get(Projected(r), c) == Get(r, c)
  {
  }

  // ---------------------------------------------------------------- statements on the schema

  datatype Step =
    | CreateStatuses
    | SeedStatuses
    | InspectIssues
    | CreateIssues
    | AddStatusId
    | MapStatus(filtered: bool)
    | CreateIssuesNew
    | CopyIssues
    | DropIssues
    | RenameIssuesNew
    | CreateComments
    | AddCommentColumn(column: string)

  datatype Executed = Executed(after: Schema, fault: Option<Fault>)

  /** What one statement does to the tables when the storage does not fail. */
  function Exec(s: Schema, st: Step, now: nat): Executed {
    match st
    case CreateStatuses =>
      Executed(if s.statuses.Some? then s else s.(statuses := Some(Catalog([], 1))), None)
    case SeedStatuses =>
      if s.statuses.None? then Executed(s, Some(NoSuchTable("issue_statuses")))
      else Executed(s.(statuses := Some(SeedDefaults(s.statuses.value, now))), None)
    case InspectIssues =>
      Executed(s, None)
    case CreateIssues =>
      Executed(if s.issues.Some? then s else s.(issues := Some(Table(NewColumns, []))), None)
    case AddStatusId =>
      var a := AddColumn(s.issues, "issues", "status_id", Int(DefaultStatusId));
      Executed(s.(issues := a.table), a.fault)
    case MapStatus(filtered) =>
      var a := MapStatusIn(s.issues, filtered);
      Executed(s.(issues := a.table), a.fault)
    case CreateIssuesNew =>
      if s.issuesNew.Some? then Executed(s, Some(TableExists("issues_new")))
      else Executed(s.(issuesNew := Some(Table(NewColumns, []))), None)
    case CopyIssues =>
      var a := CopyInto(s.issues, s.issuesNew);
      Executed(s.(issuesNew := a.table), a.fault)
    case DropIssues =>
      if s.issues.None? then Executed(s, Some(NoSuchTable("issues")))
      else Executed(s.(issues := None), None)
    case RenameIssuesNew =>
      if s.issuesNew.None? then Executed(s, Some(NoSuchTable("issues_new")))
      else if s.issues.Some? then Executed(s, Some(TableExists("issues")))
      else Executed(s.(issues := s.issuesNew, issuesNew := None), None)
    case CreateComments =>
      Executed(if s.comments.Some? then s else s.(comments := Some(Table(CommentColumns, []))), None)
    case AddCommentColumn(c) =>
      var a := AddColumn(s.comments, "comments", c, CommentColumnDefault(c));
      Executed(s.(comments := a.table), a.fault)
  }

  /** One statement; those in `faults` fail in the storage and change nothing. */
  function Run(s: Schema, st: Step, faults: set<Step>, now: nat): Executed {
    if st in faults then Executed(s, Some(Io)) else Exec(s, st, now)
  }

  /** A failed statement never changes the tables. */
  lemma FailedStatementChangesNothing(s: Schema, st: Step, faults: set<Step>, now: nat)
    ensures Run(s, st, faults, now).fault.Some? ==> Run(s, st, faults, now).after == s
  {
  }

  // ---------------------------------------------------------------- chains

  datatype Failure = Failure(step: Step, fault: Fault)

  datatype Chained = Chained(after: Schema, failure: Option<Failure>)

  /** The one error the chains pass over: adding a column that is already there. */
  predicate Tolerated(f: Fault) {
    f.DuplicateColumn?
  }

  /** Statements run one after another, each only when the one before succeeded. */
  function RunChain(s: Schema, steps: seq<Step>, faults: set<Step>, now: nat): Chained
    decreases |steps|
  {
    if steps == [] then Chained(s, None)
    else
      var e := Run(s, steps[0], faults, now);
      if e.fault.Some? && !Tolerated(e.fault.value) then Chained(e.after, Some(Failure(steps[0], e.fault.value)))
      else RunChain(e.after, steps[1..], faults, now)
  }

  /** The rebuild of `issues`, as both start-up and the script chain it. */
  function MigrationSteps(filtered: bool): seq<Step> {
    [AddStatusId, MapStatus(filtered), CreateIssuesNew, CopyIssues, DropIssues, RenameIssuesNew]
  }

  /** The statements that replace `issues` by `issues_new`. */
  const RebuildTail: seq<Step> := [CreateIssuesNew, CopyIssues, DropIssues, RenameIssuesNew]

  /** The statements of each branch. */
  function PlanSteps(plan: Plan, filtered: bool): seq<Step> {
    match plan
    case CreateTable => [CreateIssues]
    case MigrateStatusColumn => MigrationSteps(filtered)
    case AddStatusIdColumn => [AddStatusId]
    case AlreadyMigrated => []
  }

  /** How the `issues` part ends: the branch ran to its end, or a statement failed and the rest was skipped. */
  datatype Outcome = Done(plan: Plan) | Stopped(failure: Failure)

  datatype Branched = Branched(after: Schema, outcome: Outcome)

  function Branch(s: Schema, plan: Plan, filtered: bool, faults: set<Step>, now: nat): Branched {
    var c := RunChain(s, PlanSteps(plan, filtered), faults, now);
    Branched(c.after, if c.failure.Some? then Stopped(c.failure.value) else Done(plan))
  }

  /** A row of a legacy table as the migration should leave it. */
  function Migrated(r: Row): Row {
    map c | c in NewColumns :: if c == "status_id" then Int(LegacyStatusId(Get(r, "status"))) else Get(r, c)
  }

  /** An `issues` table with a `status` column that the rebuild can copy. */
  ghost predicate LegacyShaped(t: Table) {
    && "status" in t.columns && "status_id" !in t.columns
    && (forall c | c in KeptColumns :: c in t.columns)
    && (forall i :: 0 <= i < |t.rows| ==> !HasNull(t.rows[i]))
    && (forall i, j :: 0 <= i < j < |t.rows| ==> Get(t.rows[i], "id") != Get(t.rows[j], "id"))
  }

  /** The rows keep their order and the six copied columns. */
  ghost predicate Holds(t: Option<Table>, rows: seq<Row>) {
    && t.Some? && |t.value.rows| == |rows|
    && forall i, c :: 0 <= i < |rows| && c in KeptColumns ==> Get(t.value.rows[i], c) == Get(rows[i], c)
  }

  lemma AddedStatusIdKeeps(t: Table, rows: seq<Row>)
    requires Holds(Some(t), rows) && "status_id" !in t.columns
    ensures Holds(AddColumn(Some(t), "issues", "status_id", Int(DefaultStatusId)).table, rows)
  {
  }

  lemma MappedKeeps(t: Table, filtered: bool, rows: seq<Row>)
    requires Holds(Some(t), rows)
    ensures Holds(MapStatusIn(Some(t), filtered).table, rows)
  {
    var a := MapStatusIn(Some(t), filtered);
    if a.fault.None? {
      forall i, c | 0 <= i < |rows| && c in KeptColumns ensures Get(a.table.value.rows[i], c) == Get(rows[i], c) {
        assert a.table.value.rows[i] == MapRow(t.rows[i], filtered);
      }
    }
  }

  lemma CopiedKeeps(src: Table, rows: seq<Row>)
    requires Holds(Some(src), rows) && CopyFault(Some(src), Some(Table(NewColumns, []))).None?
    ensures Holds(CopyInto(Some(src), Some(Table(NewColumns, []))).table, rows)
  {
    CopyKeepsEveryRow(Some(src), Some(Table(NewColumns, [])));
    var t := CopyInto(Some(src), Some(Table(NewColumns, []))).table.value;
    forall i, c | 0 <= i < |rows| && c in KeptColumns ensures Get(t.rows[i], c) == Get(rows[i], c) {
      assert c in NewColumns;
      assert c in t.rows[i];
    }
  }

  /** The rows are in `issues` or in `issues_new`. */
  ghost predicate Kept(s: Schema, rows: seq<Row>) {
    Holds(s.issues, rows) || Holds(s.issuesNew, rows)
  }

  /**
   * Whatever statement fails, no row is lost: the rows and their six
   * copied columns are always in `issues` or in `issues_new`. In
   * particular `issues` is dropped only after the copy succeeded.
   */
  lemma ChainLosesNothing(s: Schema, filtered: bool, faults: set<Step>, now: nat)
    requires s.issues.Some?
    ensures Kept(RunChain(s, MigrationSteps(filtered), faults, now).after, s.issues.value.rows)
  {
    var rows := s.issues.value.rows;
    var e := Run(s, AddStatusId, faults, now);
    if e.fault.None? {
      AddedStatusIdKeeps(s.issues.value, rows);
    }
    assert MigrationSteps(filtered)[1..] == [MapStatus(filtered), CreateIssuesNew, CopyIssues, DropIssues, RenameIssuesNew];
    if e.fault.None? || Tolerated(e.fault.value) {
      MapLosesNothing(e.after, filtered, faults, now, rows);
    }
  }

  lemma MapLosesNothing(s: Schema, filtered: bool, faults: set<Step>, now: nat, rows: seq<Row>)
    requires Holds(s.issues, rows)
    ensures Kept(RunChain(s, [MapStatus(filtered), CreateIssuesNew, CopyIssues, DropIssues, RenameIssuesNew], faults, now).after, rows)
  {
    var e := Run(s, MapStatus(filtered), faults, now);
    if MapStatus(filtered) !in faults {
      MappedKeeps(s.issues.value, filtered, rows);
    }
    assert [MapStatus(filtered), CreateIssuesNew, CopyIssues, DropIssues, RenameIssuesNew][1..] == [CreateIssuesNew, CopyIssues, DropIssues, RenameIssuesNew];
    if e.fault.None? {
      CreateLosesNothing(e.after, faults, now, rows);
    }
  }

  lemma CreateLosesNothing(s: Schema, faults: set<Step>, now: nat, rows: seq<Row>)
    requires Holds(s.issues, rows)
    ensures Kept(RunChain(s, [CreateIssuesNew, CopyIssues, DropIssues, RenameIssuesNew], faults, now).after, rows)
  {
    var e := Run(s, CreateIssuesNew, faults, now);
    assert [CreateIssuesNew, CopyIssues, DropIssues, RenameIssuesNew][1..] == [CopyIssues, DropIssues, RenameIssuesNew];
    if e.fault.None? {
      CopyLosesNothing(e.after, faults, now, rows);
    }
  }

  lemma CopyLosesNothing(s: Schema, faults: set<Step>, now: nat, rows: seq<Row>)
    requires Holds(s.issues, rows) && s.issuesNew == Some(Table(NewColumns, []))
    ensures Kept(RunChain(s, [CopyIssues, DropIssues, RenameIssuesNew], faults, now).after, rows)
  {
    var e := Run(s, CopyIssues, faults, now);
    assert [CopyIssues, DropIssues, RenameIssuesNew][1..] == [DropIssues, RenameIssuesNew];
    if e.fault.None? {
      CopiedKeeps(s.issues.value, rows);
      DropLosesNothing(e.after, faults, now, rows);
    }
  }

  lemma DropLosesNothing(s: Schema, faults: set<Step>, now: nat, rows: seq<Row>)
    requires Holds(s.issuesNew, rows)
    ensures Kept(RunChain(s, [DropIssues, RenameIssuesNew], faults, now).after, rows)
  {
    var e := Run(s, DropIssues, faults, now);
    assert [DropIssues, RenameIssuesNew][1..] == [RenameIssuesNew];
    assert [RenameIssuesNew][1..] == [];
  }

  // ---------------------------------------------------------------- the rebuild on a clean legacy table

  /**
   * Right after `ADD COLUMN status_id ... DEFAULT 1`, the start-up `WHERE
   * status_id IS NULL OR status_id = 1` passes every row, so the filtered
   * and the unfiltered mapping write the same table.
   */
  lemma FilterIrrelevantAfterAdd(t: Table)
    requires "status" in t.columns && "status_id" !in t.columns
    ensures var w := Some(WithColumn(t, "status_id", Int(DefaultStatusId)));
      MapStatusIn(w, true) == MapStatusIn(w, false)
  {
    var w := WithColumn(t, "status_id", Int(DefaultStatusId));
    var f := MapStatusIn(Some(w), true).table.value.rows;
    var u := MapStatusIn(Some(w), false).table.value.rows;
    forall i | 0 <= i < |w.rows| ensures f[i] == u[i] {
      assert Get(w.rows[i], "status_id") == Int(DefaultStatusId);
    }
    assert f == u;
  }

  /** A legacy row, given its new column and mapped, is copied as `Migrated` says. */
  lemma MigratedRow(r: Row, filtered: bool)
    ensures Projected(MapRow(r["status_id" := Int(DefaultStatusId)], filtered)) == Migrated(r)
  {
    var m := MapRow(r["status_id" := Int(DefaultStatusId)], filtered);
    assert Get(m, "status_id") == Int(LegacyStatusId(Get(r, "status")));
    forall c | c in NewColumns && c != "status_id" ensures Get(m, c) == Get(r, c) {
    }
  }

  /** The table the mapping leaves on a legacy table that was given its new column. */
  function MappedLegacy(t: Table, filtered: bool): Option<Table> {
    MapStatusIn(AddColumn(Some(t), "issues", "status_id", Int(DefaultStatusId)).table, filtered).table
  }

  lemma MappedLegacyRows(t: Table, filtered: bool)
    requires "status" in t.columns && "status_id" !in t.columns
    ensures var m := MappedLegacy(t, filtered);
      && m.Some? && m.value.columns == t.columns + ["status_id"] && |m.value.rows| == |t.rows|
      && forall i :: 0 <= i < |t.rows| ==> m.value.rows[i] == MapRow(t.rows[i]["status_id" := Int(DefaultStatusId)], filtered)
  {
    var w := WithColumn(t, "status_id", Int(DefaultStatusId));
    assert AddColumn(Some(t), "issues", "status_id", Int(DefaultStatusId)).table == Some(w);
    forall i | 0 <= i < |t.rows| ensures w.rows[i] == t.rows[i]["status_id" := Int(DefaultStatusId)] {
    }
  }

  /** On a legacy table the copy writes exactly the migrated rows. */
  lemma LegacyCopyRows(t: Table, filtered: bool)
    requires "status" in t.columns && "status_id" !in t.columns
    ensures MappedLegacy(t, filtered).Some?
    ensures Copied(MappedLegacy(t, filtered).value.rows) == MapSeq(Migrated, t.rows)
  {
    MappedLegacyRows(t, filtered);
    var m := MappedLegacy(t, filtered).value;
    var copied := Copied(m.rows);
    forall i | 0 <= i < |t.rows| ensures copied[i] == Migrated(t.rows[i]) {
      MigratedRow(t.rows[i], filtered);
    }
  }

  /** The mapping writes only `status_id`, so the NOT NULL columns keep their cells. */
  lemma MappedKeepsNotNull(r: Row, filtered: bool)
    ensures FirstNull(MapRow(r["status_id" := Int(DefaultStatusId)], filtered)) == FirstNull(r)
  {
  }

  lemma NoneMissing(columns: seq<string>)
    requires forall c | c in NewColumns :: c in columns
    ensures Find(NewColumns, c => c !in columns).None?
  {
    forall i | 0 <= i < |NewColumns| ensures NewColumns[i] in columns {
      assert NewColumns[i] in NewColumns;
    }
  }

  lemma NoneNull(rows: seq<Row>)
    requires forall i :: 0 <= i < |rows| ==> !HasNull(rows[i])
    ensures Find(rows, HasNull).None?
  {
  }

  lemma CopyFaultNone(src: Table, dst: Table)
    requires Find(NewColumns, c => c !in src.columns).None?
    requires Find(src.rows, HasNull).None?
    requires !IdsClash(dst.rows + Copied(src.rows))
    ensures CopyFault(Some(src), Some(dst)).None?
  {
  }

  lemma CopiedIdsDistinct(rows: seq<Row>)
    requires forall i, j :: 0 <= i < j < |rows| ==> Get(rows[i], "id") != Get(rows[j], "id")
    ensures !IdsClash([] + MapSeq(Migrated, rows))
  {
    var copied := MapSeq(Migrated, rows);
    assert [] + copied == copied;
    forall i, j | 0 <= i < j < |copied| ensures Get(copied[i], "id") != Get(copied[j], "id") {
      MigratedId(rows[i]);
      MigratedId(rows[j]);
    }
  }

  lemma MigratedId(r: Row)
    ensures Get(Migrated(r), "id") == Get(r, "id")
  {
  }

  /**
   * On a legacy table with every copied column, no NULL in a NOT NULL
   * column and distinct ids, the copy into a fresh `issues_new` cannot fail.
   */
  lemma LegacyCopyClean(t: Table, filtered: bool)
    requires LegacyShaped(t)
    ensures CopyFault(MappedLegacy(t, filtered), Some(Table(NewColumns, []))).None?
  {
    MappedLegacyRows(t, filtered);
    LegacyCopyRows(t, filtered);
    var m := MappedLegacy(t, filtered).value;
    forall c | c in NewColumns ensures c in m.columns {
      assert c == "status_id" || c in KeptColumns;
    }
    NoneMissing(m.columns);
    forall i | 0 <= i < |m.rows| ensures !HasNull(m.rows[i]) {
      MappedKeepsNotNull(t.rows[i], filtered);
    }
    NoneNull(m.rows);
    CopiedIdsDistinct(t.rows);
    CopyFaultNone(m, Table(NewColumns, []));
  }

  /** The last three statements, when the copy cannot fail and storage does not fail. */
  lemma CopyDropRename(s: Schema, faults: set<Step>, now: nat)
    requires s.issues.Some? && s.issuesNew == Some(Table(NewColumns, []))
    requires CopyFault(s.issues, s.issuesNew).None?
    requires CopyIssues !in faults && DropIssues !in faults && RenameIssuesNew !in faults
    ensures RunChain(s, [CopyIssues, DropIssues, RenameIssuesNew], faults, now)
      == Chained(s.(issues := Some(Table(NewColumns, Copied(s.issues.value.rows))), issuesNew := None), None)
  {
    RunCopy(s, faults, now);
    var s1 := s.(issuesNew := Some(Table(NewColumns, Copied(s.issues.value.rows))));
    assert [CopyIssues, DropIssues, RenameIssuesNew][1..] == [DropIssues, RenameIssuesNew];
    DropRename(s1, faults, now);
  }

  lemma RunCopy(s: Schema, faults: set<Step>, now: nat)
    requires s.issues.Some? && s.issuesNew == Some(Table(NewColumns, []))
    requires CopyFault(s.issues, s.issuesNew).None? && CopyIssues !in faults
    ensures Run(s, CopyIssues, faults, now) == Executed(s.(issuesNew := Some(Table(NewColumns, Copied(s.issues.value.rows)))), None)
  {
    CopySucceeds(s.issues, s.issuesNew);
    assert [] + Copied(s.issues.value.rows) == Copied(s.issues.value.rows);
  }

  lemma DropRename(s: Schema, faults: set<Step>, now: nat)
    requires s.issues.Some? && s.issuesNew.Some? && DropIssues !in faults && RenameIssuesNew !in faults
    ensures RunChain(s, [DropIssues, RenameIssuesNew], faults, now) == Chained(s.(issues := s.issuesNew, issuesNew := None), None)
  {
    assert [DropIssues, RenameIssuesNew][1..] == [RenameIssuesNew];
    assert [RenameIssuesNew][1..] == [];
  }

  /**
   * On a legacy table the whole rebuild succeeds when storage does not
   * fail: `issues` ends with the seven new columns and, row for row, the
   * migrated rows; `issues_new` is gone; no other table changes.
   */
  lemma ChainCompletes(s: Schema, filtered: bool, faults: set<Step>, now: nat)
    requires s.issues.Some? && LegacyShaped(s.issues.value) && s.issuesNew.None?
    requires forall st | st in MigrationSteps(filtered) :: st !in faults
    ensures RunChain(s, MigrationSteps(filtered), faults, now)
      == Chained(s.(issues := Some(Table(NewColumns, MapSeq(Migrated, s.issues.value.rows)))), None)
  {
    var t := s.issues.value;
    var steps := MigrationSteps(filtered);
    assert AddStatusId == steps[0] && MapStatus(filtered) == steps[1] && CreateIssuesNew == steps[2];
    assert CopyIssues == steps[3] && DropIssues == steps[4] && RenameIssuesNew == steps[5];
    var s1 := s.(issues := AddColumn(Some(t), "issues", "status_id", Int(DefaultStatusId)).table);
    assert Run(s, AddStatusId, faults, now) == Executed(s1, None);
    assert steps[1..] == [MapStatus(filtered), CreateIssuesNew, CopyIssues, DropIssues, RenameIssuesNew];
    MappedLegacyRows(t, filtered);
    LegacyCopyClean(t, filtered);
    LegacyCopyRows(t, filtered);
    MapCreateCopy(s1, s.(issues := MappedLegacy(t, filtered)), filtered, faults, now);
  }

  lemma MapCreateCopy(s1: Schema, s2: Schema, filtered: bool, faults: set<Step>, now: nat)
    requires s1.issues.Some? && "status_id" in s1.issues.value.columns && "status" in s1.issues.value.columns
    requires s2 == s1.(issues := MapStatusIn(s1.issues, filtered).table) && s2.issuesNew.None?
    requires CopyFault(s2.issues, Some(Table(NewColumns, []))).None?
    requires MapStatus(filtered) !in faults && CreateIssuesNew !in faults
    requires CopyIssues !in faults && DropIssues !in faults && RenameIssuesNew !in faults
    ensures RunChain(s1, [MapStatus(filtered), CreateIssuesNew, CopyIssues, DropIssues, RenameIssuesNew], faults, now)
      == Chained(s2.(issues := Some(Table(NewColumns, Copied(s2.issues.value.rows)))), None)
  {
    assert Run(s1, MapStatus(filtered), faults, now) == Executed(s2, None);
    assert [MapStatus(filtered), CreateIssuesNew, CopyIssues, DropIssues, RenameIssuesNew][1..] == RebuildTail;
    CreateCopyDropRename(s2, faults, now);
  }

  lemma CreateCopyDropRename(s: Schema, faults: set<Step>, now: nat)
    requires s.issues.Some? && s.issuesNew.None?
    requires CopyFault(s.issues, Some(Table(NewColumns, []))).None?
    requires CreateIssuesNew !in faults && CopyIssues !in faults && DropIssues !in faults && RenameIssuesNew !in faults
    ensures RunChain(s, RebuildTail, faults, now)
      == Chained(s.(issues := Some(Table(NewColumns, Copied(s.issues.value.rows)))), None)
  {
    var s3 := s.(issuesNew := Some(Table(NewColumns, [])));
    assert Run(s, CreateIssuesNew, faults, now) == Executed(s3, None);
    assert RebuildTail[1..] == [CopyIssues, DropIssues, RenameIssuesNew];
    CopyDropRename(s3, faults, now);
  }

  // ---------------------------------------------------------------- whole runs

  /** Statements whose errors are only logged: each runs whatever the ones before did. */
  function RunAll(s: Schema, steps: seq<Step>, faults: set<Step>, now: nat): Schema
    decreases |steps|
  {
    if steps == [] then s else RunAll(Run(s, steps[0], faults, now).after, steps[1..], faults, now)
  }

  /** `CREATE TABLE IF NOT EXISTS comments` and the three `ADD COLUMN`s after it. */
  const CommentSteps: seq<Step> :=
    [CreateComments, AddCommentColumn("comment_type"), AddCommentColumn("old_status_id"), AddCommentColumn("new_status_id")]

  /**
   * Server start-up: the statuses table is created and seeded and the
   * comments table brought up to date, each statement running whatever
   * the ones before did; the columns of `issues` are read and, unless
   * that read fails, the branch they select runs, with the
   * `WHERE`-filtered mapping. Only the three `ADD COLUMN`s log their
   * errors; a failure of a statement without a callback, which ends the
   * process, is modelled as one the run carries on past.
   */
  function StartUp(s: Schema, faults: set<Step>, now: nat): Branched {
    var s1 := RunAll(s, [CreateStatuses, SeedStatuses], faults, now);
    var inspected := Run(s1, InspectIssues, faults, now);
    var s2 := RunAll(s1, CommentSteps, faults, now);
    if inspected.fault.Some? then Branched(s2, Stopped(Failure(InspectIssues, inspected.fault.value)))
    else Branch(s2, StartupPlan(Columns(s1.issues)), true, faults, now)
  }

  /**
   * The migration script: create the statuses table, seed it, read the
   * columns of `issues`, each only when the one before succeeded, then the
   * branch they select, with the unfiltered mapping.
   */
  function Standalone(s: Schema, faults: set<Step>, now: nat): Branched {
    var c := RunChain(s, [CreateStatuses, SeedStatuses, InspectIssues], faults, now);
    if c.failure.Some? then Branched(c.after, Stopped(c.failure.value))
    else Branch(c.after, StandalonePlan(Columns(c.after.issues)), false, faults, now)
  }

  /**
   * The embedded server's schema set-up: seeding runs only when creating
   * the statuses table succeeded; `issues` and `comments` are created if
   * they do not exist, and never migrated.
   */
  function Embedded(s: Schema, faults: set<Step>, now: nat): Schema {
    var created := Run(s, CreateStatuses, faults, now);
    var seeded := if created.fault.None? then Run(created.after, SeedStatuses, faults, now).after else created.after;
    RunAll(seeded, [CreateIssues, CreateComments], faults, now)
  }

  const EmptySchema := Schema(None, None, None, None)

  /** The catalog seeding writes into a new statuses table. */
  function SeededCatalog(now: nat): Catalog {
    SeedDefaults(Catalog([], 1), now)
  }

  /**
   * On an empty database start-up creates the seeded statuses table, a
   * new-shape `issues` and a full `comments` table.
   */
  lemma StartUpFresh(now: nat)
    ensures StartUp(EmptySchema, {}, now) == Branched(
      Schema(Some(SeededCatalog(now)), Some(Table(NewColumns, [])), None, Some(Table(CommentColumns, []))),
      Done(CreateTable))
  {
    var s1 := Schema(Some(SeededCatalog(now)), None, None, None);
    assert RunAll(EmptySchema, [CreateStatuses, SeedStatuses], {}, now) == s1 by {
      assert [CreateStatuses, SeedStatuses][1..] == [SeedStatuses];
    }
    CommentStepsOnFull(s1.(comments := None), now);
    assert [CreateIssues][1..] == [];
  }

  /** Bringing `comments` up to date leaves a table with every added column. */
  lemma CommentStepsOnFull(s: Schema, now: nat)
    requires s.comments.None? || forall c | c in AddedCommentColumns :: c in s.comments.value.columns
    ensures RunAll(s, CommentSteps, {}, now) == if s.comments.None? then s.(comments := Some(Table(CommentColumns, []))) else s
  {
    assert CommentSteps[1..][1..][1..][1..] == [];
    var s1 := Run(s, CreateComments, {}, now).after;
    assert AddedCommentColumns[0] in s1.comments.value.columns;
    assert AddedCommentColumns[1] in s1.comments.value.columns;
    assert AddedCommentColumns[2] in s1.comments.value.columns;
    AddExisting(s1, "comment_type", now);
    AddExisting(s1, "old_status_id", now);
    AddExisting(s1, "new_status_id", now);
  }

  lemma AddExisting(s: Schema, c: string, now: nat)
    requires s.comments.Some? && c in s.comments.value.columns
    ensures Run(s, AddCommentColumn(c), {}, now) == Executed(s, Some(DuplicateColumn(c)))
  {
  }

  /**
   * Bringing `comments` up to date always ends with a `comments` table
   * holding the three added columns, and touches no other table.
   */
  lemma CommentStepsComplete(s: Schema, now: nat)
    ensures var r := RunAll(s, CommentSteps, {}, now);
      && r.comments.Some? && (forall c | c in AddedCommentColumns :: c in r.comments.value.columns)
      && r == s.(comments := r.comments)
  {
    assert CommentSteps[1..][1..][1..][1..] == [];
    var s1 := Run(s, CreateComments, {}, now).after;
    var s2 := Run(s1, AddCommentColumn("comment_type"), {}, now).after;
    var s3 := Run(s2, AddCommentColumn("old_status_id"), {}, now).after;
    var s4 := Run(s3, AddCommentColumn("new_status_id"), {}, now).after;
    assert "comment_type" in s2.comments.value.columns;
    assert "comment_type" in s3.comments.value.columns && "old_status_id" in s3.comments.value.columns;
    assert "comment_type" in s4.comments.value.columns && "old_status_id" in s4.comments.value.columns;
  }

  /** The statements of the `issues` part: they touch neither the statuses nor `comments`. */
  predicate IssuesOnly(st: Step) {
    !(st.CreateStatuses? || st.SeedStatuses? || st.CreateComments? || st.AddCommentColumn?)
  }

  lemma {:induction false} ChainKeepsOthers(s: Schema, steps: seq<Step>, faults: set<Step>, now: nat)
    requires forall i :: 0 <= i < |steps| ==> IssuesOnly(steps[i])
    ensures RunChain(s, steps, faults, now).after.statuses == s.statuses
    ensures RunChain(s, steps, faults, now).after.comments == s.comments
    decreases |steps|
  {
    if steps != [] {
      var e := Run(s, steps[0], faults, now);
      ChainKeepsOthers(e.after, steps[1..], faults, now);
    }
  }

  /** Whatever branch runs, and wherever it stops, the statuses and `comments` are untouched. */
  lemma BranchLeavesOthers(s: Schema, plan: Plan, filtered: bool, faults: set<Step>, now: nat)
    ensures Branch(s, plan, filtered, faults, now).after.statuses == s.statuses
    ensures Branch(s, plan, filtered, faults, now).after.comments == s.comments
  {
    ChainKeepsOthers(s, PlanSteps(plan, filtered), faults, now);
  }

  /** A table exists only with at least one column, so `PRAGMA table_info` is empty exactly for a missing table. */
  predicate WellFormed(s: Schema) {
    s.issues.None? || s.issues.value.columns != []
  }

  predicate HasStatusId(t: Option<Table>) {
    t.Some? && "status_id" in t.value.columns
  }

  lemma TailKeepsStatusId(s: Schema, now: nat)
    requires HasStatusId(s.issues)
    ensures HasStatusId(RunChain(s, [CreateIssuesNew, CopyIssues, DropIssues, RenameIssuesNew], {}, now).after.issues)
  {
    assert [CreateIssuesNew, CopyIssues, DropIssues, RenameIssuesNew][1..] == [CopyIssues, DropIssues, RenameIssuesNew];
    var e := Run(s, CreateIssuesNew, {}, now);
    if e.fault.None? {
      CopyKeepsStatusId(e.after, now);
    }
  }

  lemma CopyKeepsStatusId(s: Schema, now: nat)
    requires HasStatusId(s.issues) && s.issuesNew == Some(Table(NewColumns, []))
    ensures HasStatusId(RunChain(s, [CopyIssues, DropIssues, RenameIssuesNew], {}, now).after.issues)
  {
    assert [CopyIssues, DropIssues, RenameIssuesNew][1..] == [DropIssues, RenameIssuesNew];
    var e := Run(s, CopyIssues, {}, now);
    if e.fault.None? {
      assert e.after.issuesNew.value.columns == NewColumns;
      DropKeepsStatusId(e.after, now);
    }
  }

  lemma DropKeepsStatusId(s: Schema, now: nat)
    requires s.issues.Some? && HasStatusId(s.issuesNew)
    ensures HasStatusId(RunChain(s, [DropIssues, RenameIssuesNew], {}, now).after.issues)
  {
    assert [DropIssues, RenameIssuesNew][1..] == [RenameIssuesNew];
    assert [RenameIssuesNew][1..] == [];
  }

  /** Without storage failures the rebuild, wherever it stops, leaves an `issues` with `status_id`. */
  lemma RebuildKeepsStatusId(s: Schema, filtered: bool, now: nat)
    requires s.issues.Some? && "status" in s.issues.value.columns && "status_id" !in s.issues.value.columns
    ensures HasStatusId(RunChain(s, MigrationSteps(filtered), {}, now).after.issues)
  {
    var steps := MigrationSteps(filtered);
    assert steps[1..] == [MapStatus(filtered), CreateIssuesNew, CopyIssues, DropIssues, RenameIssuesNew];
    assert steps[1..][1..] == [CreateIssuesNew, CopyIssues, DropIssues, RenameIssuesNew];
    var s1 := Run(s, AddStatusId, {}, now).after;
    assert HasStatusId(s1.issues) && "status" in s1.issues.value.columns;
    var s2 := Run(s1, MapStatus(filtered), {}, now).after;
    TailKeepsStatusId(s2, now);
  }

  lemma BranchKeepsStatusId(s: Schema, columns: seq<string>, filtered: bool, now: nat)
    requires WellFormed(s) && columns == Columns(s.issues)
    ensures HasStatusId(Branch(s, StartupPlan(columns), filtered, {}, now).after.issues)
  {
    match StartupPlan(columns)
    case CreateTable =>
      assert [CreateIssues][1..] == [];
    case MigrateStatusColumn =>
      RebuildKeepsStatusId(s, filtered, now);
    case AddStatusIdColumn =>
      assert [AddStatusId][1..] == [];
    case AlreadyMigrated =>
  }

  /**
   * After a start-up without storage failures `issues` has `status_id`,
   * so the next start-up, and the script, find nothing to do.
   */
  lemma StartUpConverges(s: Schema, now: nat)
    requires WellFormed(s)
    ensures HasStatusId(StartUp(s, {}, now).after.issues)
    ensures StartupPlan(Columns(StartUp(s, {}, now).after.issues)) == AlreadyMigrated
    ensures StandalonePlan(Columns(StartUp(s, {}, now).after.issues)) == AlreadyMigrated
  {
    var s1 := RunAll(s, [CreateStatuses, SeedStatuses], {}, now);
    assert [CreateStatuses, SeedStatuses][1..] == [SeedStatuses];
    assert s1.issues == s.issues;
    var s2 := RunAll(s1, CommentSteps, {}, now);
    CommentStepsComplete(s1, now);
    BranchKeepsStatusId(s2, Columns(s1.issues), true, now);
  }

  /** The catalog that creating and seeding the statuses table leaves. */
  function CatalogAfterSeed(statuses: Option<Catalog>, now: nat): Catalog {
    SeedDefaults(if statuses.Some? then statuses.value else Catalog([], 1), now)
  }

  lemma StatusStepsSeed(s: Schema, now: nat)
    ensures RunAll(s, [CreateStatuses, SeedStatuses], {}, now) == s.(statuses := Some(CatalogAfterSeed(s.statuses, now)))
  {
    assert [CreateStatuses, SeedStatuses][1..] == [SeedStatuses];
  }

  /** The state a start-up without storage failures leaves, in terms of what it found. */
  lemma StartUpShape(s: Schema, now: nat)
    requires WellFormed(s)
    ensures var first := StartUp(s, {}, now).after;
      && first.statuses == Some(CatalogAfterSeed(s.statuses, now))
      && first.comments.Some? && (forall c | c in AddedCommentColumns :: c in first.comments.value.columns)
      && HasStatusId(first.issues)
  {
    StatusStepsSeed(s, now);
    var s1 := RunAll(s, [CreateStatuses, SeedStatuses], {}, now);
    CommentStepsComplete(s1, now);
    BranchLeavesOthers(RunAll(s1, CommentSteps, {}, now), StartupPlan(Columns(s1.issues)), true, {}, now);
    StartUpConverges(s, now);
  }

  /**
   * The statuses table after a seeding that finds every default already
   * there: the same rows, with the counter moved past one id per tuple.
   */
  function Reseeded(statuses: Option<Catalog>): Option<Catalog> {
    match statuses
    case None => None
    case Some(c) => Some(Catalog(c.rows, c.nextId + |Defaults|))
  }

  /** Seeding the catalog a failure-free start-up left only advances its counter. */
  lemma ReseedAfterStartUp(s: Schema, now: nat, later: nat)
    requires WellFormed(s)
    ensures var first := StartUp(s, {}, now).after;
      first.statuses.Some? && Some(CatalogAfterSeed(first.statuses, later)) == Reseeded(first.statuses)
  {
    StartUpShape(s, now);
    ReseedCatalog(s.statuses, now, later);
  }

  lemma ReseedCatalog(statuses: Option<Catalog>, now: nat, later: nat)
    ensures var seeded := Some(CatalogAfterSeed(statuses, now));
      Some(CatalogAfterSeed(seeded, later)) == Reseeded(seeded)
  {
    SeedIdempotent(if statuses.Some? then statuses.value else Catalog([], 1), now, later);
  }

  /**
   * Start-up is idempotent on the tables: run again on what a failure-free
   * start-up left, later, it finds the table migrated, the `ADD COLUMN`s
   * all meet a duplicate column, and the re-seeding inserts no row. The
   * one change is the statuses counter, which the ignored tuples advance.
   */
  lemma StartUpIdempotent(s: Schema, now: nat, later: nat)
    requires WellFormed(s)
    ensures var first := StartUp(s, {}, now).after;
      StartUp(first, {}, later) == Branched(first.(statuses := Reseeded(first.statuses)), Done(AlreadyMigrated))
  {
    var first := StartUp(s, {}, now).after;
    StartUpShape(s, now);
    StartUpConverges(s, now);
    ReseedAfterStartUp(s, now, later);
    StatusStepsSeed(first, later);
    CommentStepsOnFull(first.(statuses := Reseeded(first.statuses)), later);
  }

  /**
   * The script, run after a failure-free start-up, finds nothing to
   * migrate; as for start-up, only the statuses counter moves.
   */
  lemma MigrateAfterStartUp(s: Schema, now: nat, later: nat)
    requires WellFormed(s)
    ensures var first := StartUp(s, {}, now).after;
      Standalone(first, {}, later) == Branched(first.(statuses := Reseeded(first.statuses)), Done(AlreadyMigrated))
  {
    var first := StartUp(s, {}, now).after;
    StartUpShape(s, now);
    StartUpConverges(s, now);
    ReseedAfterStartUp(s, now, later);
    StatusChainSeeds(first, later);
  }

  /**
   * The script has no branch for a missing `issues`: it tries to add the
   * column, fails, and creates no table, where start-up creates one.
   */
  lemma StandaloneNeedsTable(s: Schema, now: nat)
    requires s.issues.None?
    ensures Standalone(s, {}, now).outcome == Stopped(Failure(AddStatusId, NoSuchTable("issues")))
    ensures Standalone(s, {}, now).after.issues.None?
    ensures StartUp(s, {}, now).after.issues == Some(Table(NewColumns, []))
  {
    StatusChainSeeds(s, now);
    var s1 := s.(statuses := Some(CatalogAfterSeed(s.statuses, now)));
    assert [AddStatusId][1..] == [];
    StatusStepsSeed(s, now);
    CommentStepsComplete(s1, now);
    assert [CreateIssues][1..] == [];
  }

  /**
   * Start-up, on an empty database or on a clean legacy table, leaves an
   * `issues` without the `status` column, so GET /range, which selects
   * `i.status`, replies 500 whatever the rows hold.
   */
  lemma RangeFailsAfterStartUp(s: Schema, now: nat, issues: seq<Issue>, users: seq<Users.User>, comments: seq<Comment>,
                               start: Option<string>, end: Option<string>)
    requires s.issues.None? || (LegacyShaped(s.issues.value) && s.issuesNew.None?)
    ensures "status" !in Columns(StartUp(s, {}, now).after.issues)
    ensures RangeReply(Columns(StartUp(s, {}, now).after.issues), issues, users, comments, start, end)
      == ServerError(NoSuchColumn("i.status"))
  {
    StartUpRebuildsIssues(s, now);
    NoStatusColumn();
  }

  lemma StartUpRebuildsIssues(s: Schema, now: nat)
    requires s.issues.None? || (LegacyShaped(s.issues.value) && s.issuesNew.None?)
    ensures Columns(StartUp(s, {}, now).after.issues) == NewColumns
  {
    if s.issues.None? {
      StandaloneNeedsTable(s, now);
    } else {
      StartUpMigratesLegacy(s, now);
    }
  }

  /** The rebuilt `issues` declares `status_id` and no `status`. */
  lemma NoStatusColumn()
    ensures "status" !in NewColumns
  {
    assert |"status"| == 6;
    assert |"status_id"| == 9 && |"id"| == 2 && |"title"| == 5 && |"date"| == 4;
    assert "status"[0] != "description"[0] && "status"[0] != "created_by"[0] && "status"[0] != "created_at"[0];
  }

  /** Without storage failures the script's first three statements only create and seed the statuses. */
  lemma StatusChainSeeds(s: Schema, now: nat)
    ensures RunChain(s, [CreateStatuses, SeedStatuses, InspectIssues], {}, now)
      == Chained(s.(statuses := Some(CatalogAfterSeed(s.statuses, now))), None)
  {
    var steps := [CreateStatuses, SeedStatuses, InspectIssues];
    assert steps[1..] == [SeedStatuses, InspectIssues] && steps[1..][1..] == [InspectIssues] && steps[1..][1..][1..] == [];
  }

  /**
   * In the script an error while creating the statuses table, seeding it
   * or reading the columns of `issues` stops everything after it: the
   * `issues` part does not run and no table but the statuses changes.
   */
  lemma StandaloneStopsEarly(s: Schema, faults: set<Step>, now: nat)
    requires CreateStatuses in faults || SeedStatuses in faults || InspectIssues in faults
    ensures Standalone(s, faults, now).outcome.Stopped?
    ensures var after := Standalone(s, faults, now).after;
      after.issues == s.issues && after.issuesNew == s.issuesNew && after.comments == s.comments
    ensures CreateStatuses in faults ==> Standalone(s, faults, now) == Branched(s, Stopped(Failure(CreateStatuses, Io)))
  {
    var steps := [CreateStatuses, SeedStatuses, InspectIssues];
    assert steps[1..] == [SeedStatuses, InspectIssues] && steps[1..][1..] == [InspectIssues] && steps[1..][1..][1..] == [];
  }

  /**
   * The script on a clean legacy table, without storage failures, seeds
   * the statuses and rebuilds `issues` into the migrated rows.
   */
  lemma StandaloneMigratesLegacy(s: Schema, now: nat)
    requires s.issues.Some? && LegacyShaped(s.issues.value) && s.issuesNew.None?
    ensures Standalone(s, {}, now) == Branched(
      s.(statuses := Some(CatalogAfterSeed(s.statuses, now)), issues := Some(Table(NewColumns, MapSeq(Migrated, s.issues.value.rows)))),
      Done(MigrateStatusColumn))
  {
    var steps := [CreateStatuses, SeedStatuses, InspectIssues];
    assert steps[1..] == [SeedStatuses, InspectIssues] && steps[1..][1..] == [InspectIssues] && steps[1..][1..][1..] == [];
    var s1 := s.(statuses := Some(CatalogAfterSeed(s.statuses, now)));
    assert RunChain(s, steps, {}, now) == Chained(s1, None);
    ChainCompletes(s1, false, {}, now);
  }

  /**
   * Start-up on the same table ends with the same `issues` as the script:
   * its `WHERE` on the mapping makes no difference there.
   */
  lemma StartUpMigratesLegacy(s: Schema, now: nat)
    requires s.issues.Some? && LegacyShaped(s.issues.value) && s.issuesNew.None?
    ensures StartUp(s, {}, now).outcome == Done(MigrateStatusColumn)
    ensures StartUp(s, {}, now).after.issues == Some(Table(NewColumns, MapSeq(Migrated, s.issues.value.rows)))
    ensures StartUp(s, {}, now).after.issues == Standalone(s, {}, now).after.issues
    ensures StartUp(s, {}, now).after.issuesNew.None?
  {
    StatusStepsSeed(s, now);
    var s1 := RunAll(s, [CreateStatuses, SeedStatuses], {}, now);
    CommentStepsComplete(s1, now);
    var s2 := RunAll(s1, CommentSteps, {}, now);
    assert StartupPlan(Columns(s1.issues)) == MigrateStatusColumn;
    ChainCompletes(s2, true, {}, now);
    StandaloneMigratesLegacy(s, now);
  }

  /** The embedded server seeds the statuses only when creating their table succeeded. */
  lemma EmbeddedSeedsAfterCreate(s: Schema, faults: set<Step>, now: nat)
    ensures CreateStatuses in faults ==> Embedded(s, faults, now).statuses == s.statuses
    ensures CreateStatuses !in faults && SeedStatuses !in faults ==>
      Embedded(s, faults, now).statuses == Some(CatalogAfterSeed(s.statuses, now))
  {
    assert [CreateIssues, CreateComments][1..] == [CreateComments];
  }

  /**
   * The embedded server never migrates: an existing `issues`, legacy or
   * not, and `issues_new` are left as they are.
   */
  lemma EmbeddedNeverMigrates(s: Schema, faults: set<Step>, now: nat)
    ensures s.issues.Some? ==> Embedded(s, faults, now).issues == s.issues
    ensures Embedded(s, faults, now).issuesNew == s.issuesNew
  {
    assert [CreateIssues, CreateComments][1..] == [CreateComments];
  }

  /** On an empty database the embedded server builds the same tables as start-up. */
  lemma EmbeddedAgreesOnFresh(now: nat)
    ensures Embedded(EmptySchema, {}, now) == StartUp(EmptySchema, {}, now).after
  {
    StartUpFresh(now);
    assert [CreateIssues, CreateComments][1..] == [CreateComments];
    assert [CreateComments][1..] == [];
  }
}

=== FILE: ordering.dfy ===
/**
 * What the SQL engine does for a query before the route handler sees the
 * rows: `WHERE` keeps the rows a predicate accepts, in table order, and
 * `ORDER BY` sorts them. TEXT columns (dates, names) compare with SQLite's
 * binary collation, which on strings of characters is the lexicographic
 * order of their code points.
 */
module Ordering {
  import opened Common

  /** Binary collation: `a` sorts at or before `b`. */
  predicate LexLe(a: string, b: string)
    decreases |a|
  {
    if a == [] then true
    else if b == [] then false
    else if a[0] != b[0] then a[0] < b[0]
    else LexLe(a[1..], b[1..])
  }

  lemma {:induction false} LexLeTotal(a: string, b: string)
    ensures LexLe(a, b) || LexLe(b, a)
    decreases |a|
  {
    if a != [] && b != [] && a[0] == b[0] {
      LexLeTotal(a[1..], b[1..]);
    }
  }

  lemma {:induction false} LexLeAntisymmetric(a: string, b: string)
    ensures LexLe(a, b) && LexLe(b, a) ==> a == b
    decreases |a|
  {
    if a != [] && b != [] && a[0] == b[0] {
      LexLeAntisymmetric(a[1..], b[1..]);
      assert a == [a[0]] + a[1..] && b == [b[0]] + b[1..];
    }
  }

  lemma {:induction false} LexLeTransitive(a: string, b: string, c: string)
    ensures LexLe(a, b) && LexLe(b, c) ==> LexLe(a, c)
    decreases |a|
  {
    if a != [] && b != [] && c != [] && a[0] == b[0] && b[0] == c[0] {
      LexLeTransitive(a[1..], b[1..], c[1..]);
    }
  }

  /** `le` orders every pair and is transitive, as every ORDER BY key does. */
  ghost predicate TotalPreorder<T(!new)>(le: (T, T) -> bool) {
    && (forall a, b :: le(a, b) || le(b, a))
    && (forall a, b, c :: le(a, b) && le(b, c) ==> le(a, c))
  }

  ghost predicate Sorted<T>(s: seq<T>, le: (T, T) -> bool) {
    forall i, j :: 0 <= i < j < |s| ==> le(s[i], s[j])
  }

  /** The rows of `s` that satisfy the `WHERE` predicate `p`, in table order. */
  function Filter<T(!new)>(s: seq<T>, p: T -> bool): (r: seq<T>)
    ensures forall x :: multiset(r)[x] == if p(x) then multiset(s)[x] else 0
    ensures forall x :: x in r <==> x in s && p(x)
  {
    if s == [] then []
    else
      assert s == [s[0]] + s[1..];
      (if p(s[0]) then [s[0]] else []) + Filter(s[1..], p)
  }

  lemma {:induction false} FilterKeepsOrder<T(!new)>(s: seq<T>, p: T -> bool, le: (T, T) -> bool)
    requires Sorted(s, le)
    ensures Sorted(Filter(s, p), le)
  {
    if s != [] {
      var tail := s[1..];
      SortedTail(s, le);
      FilterKeepsOrder(tail, p, le);
      var f := Filter(tail, p);
      if p(s[0]) {
        forall k | 0 <= k < |f| ensures le(s[0], f[k]) {
          FirstBeforeAll(s, le, f[k]);
        }
        SortedCons(s[0], f, le);
      }
    }
  }

  lemma SortedTail<T>(s: seq<T>, le: (T, T) -> bool)
    requires Sorted(s, le) && s != []
    ensures Sorted(s[1..], le)
  {
    var tail := s[1..];
    forall i, j | 0 <= i < j < |tail| ensures le(tail[i], tail[j]) {
      assert tail[i] == s[i + 1] && tail[j] == s[j + 1];
    }
  }

  /** In sorted rows the first row sorts at or before every later one. */
  lemma FirstBeforeAll<T>(s: seq<T>, le: (T, T) -> bool, x: T)
    requires Sorted(s, le) && s != [] && x in s[1..]
    ensures le(s[0], x)
  {
    var m :| 0 <= m < |s[1..]| && s[1..][m] == x;
    assert s[m + 1] == x;
  }

  lemma SortedCons<T>(x: T, f: seq<T>, le: (T, T) -> bool)
    requires Sorted(f, le) && forall k :: 0 <= k < |f| ==> le(x, f[k])
    ensures Sorted([x] + f, le)
  {
    var r := [x] + f;
    forall i, j | 0 <= i < j < |r| ensures le(r[i], r[j]) {
      assert r[j] == f[j - 1];
      if i > 0 {
        assert r[i] == f[i - 1];
      }
    }
  }

  lemma {:induction false} FilterKeepsAll<T(!new)>(s: seq<T>, p: T -> bool)
    requires forall j :: 0 <= j < |s| ==> p(s[j])
    ensures Filter(s, p) == s
  {
    if s != [] {
      FilterKeepsAll(s[1..], p);
      assert s == [s[0]] + s[1..];
    }
  }

  /** A `WHERE` that rejects exactly the row at `i` leaves the others in order. */
  lemma {:induction false} FilterRemovesOne<T(!new)>(s: seq<T>, p: T -> bool, i: nat)
    requires i < |s| && !p(s[i])
    requires forall j :: 0 <= j < |s| && j != i ==> p(s[j])
    ensures Filter(s, p) == s[..i] + s[i + 1..]
  {
    var tail := s[1..];
    assert s == [s[0]] + tail;
    FilterCons(s[0], tail, p);
    forall j | 0 <= j < |tail| && j + 1 != i ensures p(tail[j]) {
      assert tail[j] == s[j + 1];
    }
    if i == 0 {
      FilterKeepsAll(tail, p);
      assert s[..0] + s[1..] == tail;
    } else {
      FilterRemovesOne(tail, p, i - 1);
      SpliceCons(s, i);
    }
  }

  lemma SpliceCons<T>(s: seq<T>, i: nat)
    requires 0 < i < |s|
    ensures s[..i] + s[i + 1..] == [s[0]] + (s[1..][..i - 1] + s[1..][i..])
  {
    var tail := s[1..];
    assert s[..i] == [s[0]] + tail[..i - 1];
    assert s[i + 1..] == tail[i..];
  }

  lemma FilterCons<T(!new)>(x: T, s: seq<T>, p: T -> bool)
    ensures Filter([x] + s, p) == (if p(x) then [x] else []) + Filter(s, p)
  {
    assert ([x] + s)[1..] == s;
  }

  /** Filtering by `p` and then by a stronger `q` is filtering by `q` alone. */
  lemma {:induction false} FilterFilter<T(!new)>(s: seq<T>, p: T -> bool, q: T -> bool)
    requires forall x :: q(x) ==> p(x)
    ensures Filter(Filter(s, p), q) == Filter(s, q)
  {
    if s != [] {
      var head, tail := s[0], s[1..];
      assert s == [head] + tail;
      FilterFilter(tail, p, q);
      FilterCons(head, tail, p);
      FilterCons(head, tail, q);
      if p(head) {
        FilterCons(head, Filter(tail, p), q);
      } else {
        assert !q(head);
        assert Filter(s, p) == Filter(tail, p);
      }
    }
  }

  /**
   * `v BETWEEN lo AND hi` on TEXT, inclusive at both ends; a missing bound
   * is NULL and the comparison matches nothing.
   */
  predicate Between(v: string, lo: Option<string>, hi: Option<string>) {
    lo.Some? && hi.Some? && LexLe(lo.value, v) && LexLe(v, hi.value)
  }

  /** The index of the first row `p` accepts, the row `db.get` returns, if any. */
  function Find<T>(s: seq<T>, p: T -> bool): (r: Option<nat>)
    ensures r.None? <==> forall i :: 0 <= i < |s| ==> !p(s[i])
    ensures r.Some? ==> r.value < |s| && p(s[r.value]) && forall i :: 0 <= i < r.value ==> !p(s[i])
  {
    if s == [] then None
    else if p(s[0]) then Some(0)
    else match Find(s[1..], p)
      case None => None
      case Some(i) => Some(i + 1)
  }

  /** Places `x` before the first element it sorts at or before. */
  function Insert<T>(x: T, s: seq<T>, le: (T, T) -> bool): (r: seq<T>)
    ensures multiset(r) == multiset(s) + multiset{x}
  {
    if s == [] then [x]
    else if le(x, s[0]) then [x] + s
    else
      assert s == [s[0]] + s[1..];
      [s[0]] + Insert(x, s[1..], le)
  }

  lemma {:induction false} InsertSorted<T(!new)>(x: T, s: seq<T>, le: (T, T) -> bool)
    requires TotalPreorder(le)
    requires Sorted(s, le)
    ensures Sorted(Insert(x, s, le), le)
  {
    if s != [] {
      var tail := s[1..];
      if le(x, s[0]) {
        var r := [x] + s;
        forall i, j | 0 <= i < j < |r| ensures le(r[i], r[j]) {
          if i == 0 && j > 1 {
            assert le(s[0], s[j - 1]);
          }
        }
      } else {
        assert Sorted(tail, le) by {
          forall i, j | 0 <= i < j < |tail| ensures le(tail[i], tail[j]) {
            assert tail[i] == s[i + 1] && tail[j] == s[j + 1];
          }
        }
        InsertSorted(x, tail, le);
        var t := Insert(x, tail, le);
        assert le(s[0], x);
        forall k | 0 <= k < |t| ensures le(s[0], t[k]) {
          assert t[k] in multiset(t);
          if t[k] != x {
            assert t[k] in multiset(tail);
            var m :| 0 <= m < |tail| && tail[m] == t[k];
            assert s[m + 1] == t[k];
          }
        }
        var r := [s[0]] + t;
        forall i, j | 0 <= i < j < |r| ensures le(r[i], r[j]) {
          if i == 0 {
            assert r[j] == t[j - 1];
          } else {
            assert r[i] == t[i - 1] && r[j] == t[j - 1];
          }
        }
      }
    }
  }

  /** `ORDER BY` returns the rows it was given and no others. */
  lemma SortByMembers<T(!new)>(s: seq<T>, le: (T, T) -> bool)
    requires TotalPreorder(le)
    ensures forall x :: x in SortBy(s, le) <==> x in s
  {
    var r := SortBy(s, le);
    forall x ensures x in r <==> x in s {
      assert x in r <==> x in multiset(r);
      assert x in s <==> x in multiset(s);
    }
  }

  /**
   * `ORDER BY` on the key `le` describes: a stable insertion sort, so rows
   * with equal keys keep their table order.
   */
  function SortBy<T(!new)>(s: seq<T>, le: (T, T) -> bool): (r: seq<T>)
    requires TotalPreorder(le)
    ensures multiset(r) == multiset(s)
    ensures Sorted(r, le)
  {
    if s == [] then []
    else
      assert s == [s[0]] + s[1..];
      var rest := SortBy(s[1..], le);
      InsertSorted(s[0], rest, le);
      Insert(s[0], rest, le)
  }
}

=== FILE: roster.dfy ===
/**
 * The `roster` table and the handlers of `/api/roster`: assigning a user to
 * a date, moving or removing an assignment, and the date-range listing that
 * groups the assignments of each day.
 */
module Roster {
  import opened Common
  import opened Ordering
  import opened Grouping
  import opened Users

  /** A row of `roster`. */
  datatype Entry = Entry(id: nat, userId: int, date: string, createdAt: nat)

  /** What a successful assignment echoes back: `{ id, userId, date }`. */
  datatype Assigned = Assigned(id: nat, userId: int, date: string)

  /**
   * The constraints of `roster`: ids below the AUTOINCREMENT counter, the
   * primary key, and UNIQUE(user_id, date).
   */
  ghost predicate ValidRoster(rows: seq<Entry>, nextId: nat) {
    && (forall i :: 0 <= i < |rows| ==> rows[i].id < nextId)
    && (forall i, j :: 0 <= i < j < |rows| ==>
          rows[i].id != rows[j].id && (rows[i].userId, rows[i].date) != (rows[j].userId, rows[j].date))
  }

  /** Whether a row other than the one at index `except` already assigns `userId` to `date`. */
  predicate Clash(rows: seq<Entry>, userId: int, date: string, except: int) {
    exists i :: 0 <= i < |rows| && i != except && rows[i].userId == userId && rows[i].date == date
  }

  function IndexOfEntry(rows: seq<Entry>, id: int): Option<nat> {
    Find(rows, (e: Entry) => e.id == id)
  }

  /** The rows left by `DELETE FROM roster WHERE id = ?`. */
  function WithoutEntry(rows: seq<Entry>, id: int): seq<Entry> {
    Filter(rows, (e: Entry) => e.id != id)
  }

  /** Deleting by id removes exactly that row and keeps the order of the others. */
  lemma RemoveEntryKeepsOthers(rows: seq<Entry>, nextId: nat, i: nat)
    requires ValidRoster(rows, nextId) && i < |rows|
    ensures WithoutEntry(rows, rows[i].id) == rows[..i] + rows[i + 1..]
  {
    FilterRemovesOne(rows, (e: Entry) => e.id != rows[i].id, i);
  }

  lemma RemoveEntryKeepsValid(rows: seq<Entry>, nextId: nat, i: nat)
    requires ValidRoster(rows, nextId) && i < |rows|
    ensures ValidRoster(rows[..i] + rows[i + 1..], nextId)
  {
    var r := rows[..i] + rows[i + 1..];
    assert forall a :: 0 <= a < |r| ==> r[a] == rows[if a < i then a else a + 1];
  }

  lemma DeleteEntryKeepsValid(rows: seq<Entry>, nextId: nat, i: nat)
    requires ValidRoster(rows, nextId) && i < |rows|
    ensures ValidRoster(WithoutEntry(rows, rows[i].id), nextId)
  {
    RemoveEntryKeepsOthers(rows, nextId, i);
    RemoveEntryKeepsValid(rows, nextId, i);
  }

  class RosterTable {
    var rows: seq<Entry>
    var nextId: nat

    ghost predicate Valid()
      reads this
    {
      ValidRoster(rows, nextId)
    }

    constructor ()
      ensures Valid() && rows == [] && nextId == 1
    {
      rows, nextId := [], 1;
    }

    /**
     * POST /: the INSERT fails as a whole on a storage failure (`io`), and
     * otherwise checks NOT NULL on user_id and date, then
     * UNIQUE(user_id, date); only the UNIQUE failure is reported as 400.
     */
    method Assign(userId: Option<int>, date: Option<string>, io: bool, now: nat) returns (reply: Reply<Assigned>)
      requires Valid()
      modifies this
      ensures Valid()
      ensures io ==> reply == ServerError(Io)
      ensures !io && userId.None? ==> reply == ServerError(NotNull("roster.user_id"))
      ensures !io && userId.Some? && date.None? ==> reply == ServerError(NotNull("roster.date"))
      ensures !io && userId.Some? && date.Some? ==>
        if Clash(old(rows), userId.value, date.value, -1)
        then reply == BadRequest("Roster entry already exists for this user and date")
        else reply == Ok(Assigned(old(nextId), userId.value, date.value))
      ensures reply.Ok? ==>
        rows == old(rows) + [Entry(old(nextId), userId.value, date.value, now)] && nextId == old(nextId) + 1
      ensures !reply.Ok? ==> rows == old(rows) && nextId == old(nextId)
    {
      if io {
        return ServerError(Io);
      }
      if userId.None? {
        return ServerError(NotNull("roster.user_id"));
      }
      if date.None? {
        return ServerError(NotNull("roster.date"));
      }
      if Clash(rows, userId.value, date.value, -1) {
        return BadRequest("Roster entry already exists for this user and date");
      }
      var id := nextId;
      rows := rows + [Entry(id, userId.value, date.value, now)];
      nextId := nextId + 1;
      reply := Ok(Assigned(id, userId.value, date.value));
    }

    /**
     * DELETE /:id: removes the entry with that id, or replies 404 when there
     * is none; a storage failure (`io`) fails the statement and changes nothing.
     */
    method Remove(id: int, io: bool) returns (reply: Reply<Message>)
      requires Valid()
      modifies this
      ensures Valid() && nextId == old(nextId)
      ensures io ==> reply == ServerError(Io) && rows == old(rows)
      ensures !io && IndexOfEntry(old(rows), id).None? ==> reply == NotFound("Roster entry not found") && rows == old(rows)
      ensures !io && IndexOfEntry(old(rows), id).Some? ==>
        reply == Ok("Roster entry deleted successfully") && rows == WithoutEntry(old(rows), id)
    {
      if io {
        return ServerError(Io);
      }
      var found := IndexOfEntry(rows, id);
      if found.None? {
        return NotFound("Roster entry not found");
      }
      DeleteEntryKeepsValid(rows, nextId, found.value);
      rows := WithoutEntry(rows, id);
      reply := Ok("Roster entry deleted successfully");
    }

    /**
     * PUT /:id: rewrites user_id and date of the entry with that id. A
     * storage failure (`io`) fails the statement as a whole. When no row
     * has the id the UPDATE touches nothing, so no constraint is checked
     * and the reply is 404; otherwise NOT NULL and then
     * UNIQUE(user_id, date) against the other rows decide.
     */
    method Reassign(id: int, userId: Option<int>, date: Option<string>, io: bool) returns (reply: Reply<Message>)
      requires Valid()
      modifies this
      ensures Valid() && nextId == old(nextId)
      ensures io ==> reply == ServerError(Io) && rows == old(rows)
      ensures !io && IndexOfEntry(old(rows), id).None? ==> reply == NotFound("Roster entry not found") && rows == old(rows)
      ensures !io && IndexOfEntry(old(rows), id).Some? ==>
        var i := IndexOfEntry(old(rows), id).value;
        if userId.None? then reply == ServerError(NotNull("roster.user_id")) && rows == old(rows)
        else if date.None? then reply == ServerError(NotNull("roster.date")) && rows == old(rows)
        else if Clash(old(rows), userId.value, date.value, i) then
          reply == BadRequest("Roster entry already exists for this user and date") && rows == old(rows)
        else
          reply == Ok("Roster entry updated successfully") &&
          rows == old(rows)[i := old(rows)[i].(userId := userId.value, date := date.value)]
    {
      if io {
        return ServerError(Io);
      }
      var found := IndexOfEntry(rows, id);
      if found.None? {
        return NotFound("Roster entry not found");
      }
      var i := found.value;
      if userId.None? {
        return ServerError(NotNull("roster.user_id"));
      }
      if date.None? {
        return ServerError(NotNull("roster.date"));
      }
      if Clash(rows, userId.value, date.value, i) {
        return BadRequest("Roster entry already exists for this user and date");
      }
      rows := rows[i := rows[i].(userId := userId.value, date := date.value)];
      reply := Ok("Roster entry updated successfully");
    }
  }

  // ---------------------------------------------------------------- GET /range

  /** A row of the listing query: a roster entry joined with its user. */
  type RangeRow = Joined<Entry>

  function UserOf(e: Entry): int {
    e.userId
  }

  /** `ORDER BY r.date, u.name`, both by binary collation. */
  predicate ByDateThenName(a: RangeRow, b: RangeRow) {
    if a.row.date == b.row.date then LexLe(a.user.name, b.user.name)
    else LexLe(a.row.date, b.row.date)
  }

  lemma ByDateThenNameIsPreorder()
    ensures TotalPreorder(ByDateThenName)
  {
    forall a, b ensures ByDateThenName(a, b) || ByDateThenName(b, a) {
      LexLeTotal(a.row.date, b.row.date);
      LexLeTotal(a.user.name, b.user.name);
    }
    forall a, b, c | ByDateThenName(a, b) && ByDateThenName(b, c) ensures ByDateThenName(a, c) {
      var da, db, dc := a.row.date, b.row.date, c.row.date;
      LexLeTransitive(da, db, dc);
      LexLeTransitive(a.user.name, b.user.name, c.user.name);
      LexLeAntisymmetric(da, db);
      LexLeAntisymmetric(db, dc);
      LexLeAntisymmetric(da, dc);
      if da == dc && da != db {
        LexLeAntisymmetric(db, dc);
      }
    }
  }

  function DateOf(r: RangeRow): string {
    r.row.date
  }

  /** The entry object the handler pushes for a row. */
  datatype RosterItem = RosterItem(
    id: nat,
    userId: int,
    name: string,
    email: string,
    role: string,
    profileImage: Option<string>,
    contactNumber: Option<string>,
    bio: Option<string>)

  function ToItem(r: RangeRow): (item: RosterItem)
    ensures item.id == r.row.id && item.userId == r.row.userId
    ensures item.name == r.user.name && item.email == r.user.email && item.role == r.user.role
    ensures item.profileImage == r.user.profileImage && item.contactNumber == r.user.contactNumber
    ensures item.bio == r.user.bio
  {
    RosterItem(r.row.id, r.row.userId, r.user.name, r.user.email, r.user.role,
               r.user.profileImage, r.user.contactNumber, r.user.bio)
  }

  /** The rows of the listing query, in the order the query returns them. */
  function RangeRows(entries: seq<Entry>, users: seq<User>, start: Option<string>, end: Option<string>): seq<RangeRow> {
    ByDateThenNameIsPreorder();
    SortBy(JoinUsers(Filter(entries, (e: Entry) => Between(e.date, start, end)), UserOf, users), ByDateThenName)
  }

  /** GET /range: the query rows grouped under their date. */
  function RangeListing(entries: seq<Entry>, users: seq<User>, start: Option<string>, end: Option<string>)
    : map<string, seq<RosterItem>>
  {
    GroupBy(RangeRows(entries, users, start, end), DateOf, ToItem)
  }

  /** The entries the listing shows: in the range and with an existing user. */
  predicate Listed(e: Entry, users: seq<User>, start: Option<string>, end: Option<string>) {
    Between(e.date, start, end) && UserById(users, e.userId).Some?
  }

  /**
   * The listing query returns each entry in the range whose user exists
   * exactly as often as it is in the table, joined with that user, and
   * nothing else.
   */
  lemma RangeRowsContents(entries: seq<Entry>, users: seq<User>, start: Option<string>, end: Option<string>)
    ensures forall r: RangeRow ::
      multiset(RangeRows(entries, users, start, end))[r] ==
      if Between(r.row.date, start, end) && UserById(users, r.row.userId) == Some(r.user) then multiset(entries)[r.row] else 0
    ensures forall r | r in RangeRows(entries, users, start, end) ::
      r.row in entries && Listed(r.row, users, start, end) && UserById(users, r.row.userId) == Some(r.user)
    ensures forall e | e in entries && Listed(e, users, start, end) ::
      Joined(e, UserById(users, e.userId).value) in RangeRows(entries, users, start, end)
  {
    var p := (e: Entry) => Between(e.date, start, end);
    var rows := RangeRows(entries, users, start, end);
    var joined := JoinUsers(Filter(entries, p), UserOf, users);
    assert multiset(rows) == multiset(joined);
    forall r: RangeRow ensures multiset(rows)[r] ==
      if Between(r.row.date, start, end) && UserById(users, r.row.userId) == Some(r.user) then multiset(entries)[r.row] else 0
    {
      assert UserOf(r.row) == r.row.userId && p(r.row) == Between(r.row.date, start, end);
    }
    forall r | r in rows ensures r in joined {
      assert r in multiset(rows);
    }
    forall r | r in joined ensures r in rows {
      assert r in multiset(joined);
    }
  }

  /** A date the listing has comes from a listed entry of that date. */
  lemma KeyFromEntry(entries: seq<Entry>, users: seq<User>, start: Option<string>, end: Option<string>, d: string)
    requires d in RangeListing(entries, users, start, end)
    ensures exists e :: e in entries && Listed(e, users, start, end) && e.date == d
  {
    var rows := RangeRows(entries, users, start, end);
    RangeRowsContents(entries, users, start, end);
    var i :| 0 <= i < |rows| && DateOf(rows[i]) == d;
    assert rows[i] in rows;
  }

  /** A listed entry's date is a key of the listing. */
  lemma EntryGivesKey(entries: seq<Entry>, users: seq<User>, start: Option<string>, end: Option<string>, e: Entry)
    requires e in entries && Listed(e, users, start, end)
    ensures e.date in RangeListing(entries, users, start, end)
  {
    var rows := RangeRows(entries, users, start, end);
    RangeRowsContents(entries, users, start, end);
    var r := Joined(e, UserById(users, e.userId).value);
    assert r in rows;
    var i :| 0 <= i < |rows| && rows[i] == r;
    assert DateOf(rows[i]) == e.date;
  }

  /** The listing has a key for exactly the dates of the listed entries. */
  lemma RangeListingKeys(entries: seq<Entry>, users: seq<User>, start: Option<string>, end: Option<string>)
    ensures var listing := RangeListing(entries, users, start, end);
      forall d :: d in listing <==> exists e :: e in entries && Listed(e, users, start, end) && e.date == d
  {
    var listing := RangeListing(entries, users, start, end);
    forall d ensures d in listing <==> exists e :: e in entries && Listed(e, users, start, end) && e.date == d {
      if d in listing {
        KeyFromEntry(entries, users, start, end, d);
      }
      if exists e :: e in entries && Listed(e, users, start, end) && e.date == d {
        var e :| e in entries && Listed(e, users, start, end) && e.date == d;
        EntryGivesKey(entries, users, start, end, e);
      }
    }
  }

  /** The item for a listed entry of the row `r`. */
  function ItemOf(e: Entry, users: seq<User>): RosterItem
    requires UserById(users, e.userId).Some?
  {
    ToItem(Joined(e, UserById(users, e.userId).value))
  }

  lemma ItemFromEntry(entries: seq<Entry>, users: seq<User>, start: Option<string>, end: Option<string>, d: string, item: RosterItem)
    requires d in RangeListing(entries, users, start, end)
    requires item in RangeListing(entries, users, start, end)[d]
    ensures exists e :: e in entries && Listed(e, users, start, end) && e.date == d && item == ItemOf(e, users)
  {
    var rows := RangeRows(entries, users, start, end);
    GroupMember(rows, DateOf, ToItem, d, item);
    var r :| r in rows && DateOf(r) == d && item == ToItem(r);
    RangeRowsContents(entries, users, start, end);
    assert r.row in entries && Listed(r.row, users, start, end) && item == ItemOf(r.row, users);
  }

  lemma EntryGivesItem(entries: seq<Entry>, users: seq<User>, start: Option<string>, end: Option<string>, e: Entry)
    requires e in entries && Listed(e, users, start, end)
    ensures e.date in RangeListing(entries, users, start, end)
    ensures ItemOf(e, users) in RangeListing(entries, users, start, end)[e.date]
  {
    var rows := RangeRows(entries, users, start, end);
    var r := Joined(e, UserById(users, e.userId).value);
    assert r in rows by {
      RangeRowsContents(entries, users, start, end);
    }
    var i :| 0 <= i < |rows| && rows[i] == r;
    RowInOwnGroup(rows, DateOf, ToItem, i);
  }

  /**
   * Under each date the listing holds exactly the items of the listed
   * entries of that date: each listed entry appears in the group of its own
   * date, and in no other, since an item carries its entry's id.
   */
  lemma RangeListingGroups(entries: seq<Entry>, users: seq<User>, start: Option<string>, end: Option<string>)
    ensures var listing := RangeListing(entries, users, start, end);
      forall d, item | d in listing ::
        item in listing[d] <==>
        exists e :: e in entries && Listed(e, users, start, end) && e.date == d && item == ItemOf(e, users)
  {
    var listing := RangeListing(entries, users, start, end);
    forall d, item | d in listing
      ensures item in listing[d] <==>
        exists e :: e in entries && Listed(e, users, start, end) && e.date == d && item == ItemOf(e, users)
    {
      if item in listing[d] {
        ItemFromEntry(entries, users, start, end, d, item);
      }
      if exists e :: e in entries && Listed(e, users, start, end) && e.date == d && item == ItemOf(e, users) {
        var e :| e in entries && Listed(e, users, start, end) && e.date == d && item == ItemOf(e, users);
        EntryGivesItem(entries, users, start, end, e);
      }
    }
  }

  /** No date in the listing lies outside the requested range, and no group is empty. */
  lemma RangeListingBetween(entries: seq<Entry>, users: seq<User>, start: Option<string>, end: Option<string>)
    ensures var listing := RangeListing(entries, users, start, end);
      forall d | d in listing :: Between(d, start, end) && listing[d] != []
  {
    RangeListingKeys(entries, users, start, end);
  }

  /** A missing bound is NULL: the listing is empty. */
  lemma RangeListingWithoutBound(entries: seq<Entry>, users: seq<User>, start: Option<string>, end: Option<string>)
    requires start.None? || end.None?
    ensures RangeListing(entries, users, start, end) == map[]
  {
    RangeListingBetween(entries, users, start, end);
  }

  /** Within each date the items are ordered by user name. */
  lemma RangeListingByName(entries: seq<Entry>, users: seq<User>, start: Option<string>, end: Option<string>)
    ensures var listing := RangeListing(entries, users, start, end);
      forall d | d in listing :: Sorted(listing[d], (a: RosterItem, b: RosterItem) => LexLe(a.name, b.name))
  {
    ByDateThenNameIsPreorder();
    GroupKeepsOrder(RangeRows(entries, users, start, end), DateOf, ToItem, ByDateThenName,
                    (a: RosterItem, b: RosterItem) => LexLe(a.name, b.name));
  }
}

=== FILE: setup.dfy ===
/**
 * The connection as the set-up code drives it: one `db.run` at a time,
 * each changing the tables in place and handing its error to a callback
 * that logs it, and either goes on or returns. Each procedure is proved to
 * leave the tables, and report the outcome, that its definition on values
 * in the migration module gives.
 */
module Setup {
  import opened Common
  import opened Statuses
  import opened Issues
  import opened Migration

  class Database {
    var statuses: Option<Catalog>
    var issues: Option<Table>
    var issuesNew: Option<Table>
    var comments: Option<Table>

    /** The tables as values. */
    function Snapshot(): Schema
      reads this
    {
      Schema(statuses, issues, issuesNew, comments)
    }

    /** Opens a database file holding the tables `s`. */
    constructor(s: Schema)
      ensures Snapshot() == s
    {
      statuses := s.statuses;
      issues := s.issues;
      issuesNew := s.issuesNew;
      comments := s.comments;
    }

    /** `db.run(statement, callback)`: the callback receives `fault`. */
    method Execute(st: Step, faults: set<Step>, now: nat) returns (fault: Option<Fault>)
      modifies this
      ensures Snapshot() == Run(old(Snapshot()), st, faults, now).after
      ensures fault == Run(old(Snapshot()), st, faults, now).fault
    {
      if st in faults {
        return Some(Io);
      }
      fault := None;
      match st
      case CreateStatuses =>
        if statuses.None? {
          statuses := Some(Catalog([], 1));
        }
      case SeedStatuses =>
        if statuses.None? {
          fault := Some(NoSuchTable("issue_statuses"));
        } else {
          statuses := Some(SeedDefaults(statuses.value, now));
        }
      case InspectIssues =>
      case CreateIssues =>
        if issues.None? {
          issues := Some(Table(NewColumns, []));
        }
      case AddStatusId =>
        var a := AddColumn(issues, "issues", "status_id", Int(DefaultStatusId));
        issues, fault := a.table, a.fault;
      case MapStatus(filtered) =>
        var a := MapStatusIn(issues, filtered);
        issues, fault := a.table, a.fault;
      case CreateIssuesNew =>
        if issuesNew.Some? {
          fault := Some(TableExists("issues_new"));
        } else {
          issuesNew := Some(Table(NewColumns, []));
        }
      case CopyIssues =>
        var a := CopyInto(issues, issuesNew);
        issuesNew, fault := a.table, a.fault;
      case DropIssues =>
        if issues.None? {
          fault := Some(NoSuchTable("issues"));
        } else {
          issues := None;
        }
      case RenameIssuesNew =>
        if issuesNew.None? {
          fault := Some(NoSuchTable("issues_new"));
        } else if issues.Some? {
          fault := Some(TableExists("issues"));
        } else {
          issues, issuesNew := issuesNew, None;
        }
      case CreateComments =>
        if comments.None? {
          comments := Some(Table(CommentColumns, []));
        }
      case AddCommentColumn(c) =>
        var a := AddColumn(comments, "comments", c, CommentColumnDefault(c));
        comments, fault := a.table, a.fault;
    }

    /**
     * One statement of a chain and the check in its callback: `go` when
     * the chain goes on with the rest, otherwise the failure that ends it.
     * Only a duplicate column is passed over.
     */
    method Next(st: Step, ghost steps: seq<Step>, faults: set<Step>, now: nat) returns (failure: Option<Failure>, go: bool)
      requires steps != [] && steps[0] == st
      modifies this
      ensures go ==> failure.None? && RunChain(old(Snapshot()), steps, faults, now) == RunChain(Snapshot(), steps[1..], faults, now)
      ensures !go ==> failure.Some? && RunChain(old(Snapshot()), steps, faults, now) == Chained(Snapshot(), failure)
    {
      var fault := Execute(st, faults, now);
      if fault.Some? && !Tolerated(fault.value) {
        return Some(Failure(st, fault.value)), false;
      }
      return None, true;
    }

    /**
     * The rebuild of `issues`: add the column, map the statuses, create
     * `issues_new`, copy, drop, rename, each only when the one before
     * succeeded.
     */
    method RebuildIssues(filtered: bool, faults: set<Step>, now: nat) returns (failure: Option<Failure>)
      modifies this
      ensures Snapshot() == RunChain(old(Snapshot()), MigrationSteps(filtered), faults, now).after
      ensures failure == RunChain(old(Snapshot()), MigrationSteps(filtered), faults, now).failure
    {
      ghost var steps := MigrationSteps(filtered);
      var go;
      failure, go := Next(AddStatusId, steps, faults, now);
      if !go {
        return;
      }
      failure, go := Next(MapStatus(filtered), steps[1..], faults, now);
      if !go {
        return;
      }
      assert steps[2..] == RebuildTail;
      failure := Replace(faults, now);
    }

    /**
     * The second half of the rebuild: create `issues_new`, copy, drop,
     * rename, each only when the one before succeeded.
     */
    method Replace(faults: set<Step>, now: nat) returns (failure: Option<Failure>)
      modifies this
      ensures Snapshot() == RunChain(old(Snapshot()), RebuildTail, faults, now).after
      ensures failure == RunChain(old(Snapshot()), RebuildTail, faults, now).failure
    {
      ghost var steps := RebuildTail;
      var go;
      failure, go := Next(CreateIssuesNew, steps, faults, now);
      if !go {
        return;
      }
      failure, go := Next(CopyIssues, steps[1..], faults, now);
      if !go {
        return;
      }
      failure, go := Next(DropIssues, steps[2..], faults, now);
      if !go {
        return;
      }
      failure, go := Next(RenameIssuesNew, steps[3..], faults, now);
      assert steps[3..][1..] == [];
    }

    /** The statements of the branch `plan` selected. */
    method TakeBranch(plan: Plan, filtered: bool, faults: set<Step>, now: nat) returns (outcome: Outcome)
      modifies this
      ensures Snapshot() == Branch(old(Snapshot()), plan, filtered, faults, now).after
      ensures outcome == Branch(old(Snapshot()), plan, filtered, faults, now).outcome
    {
      var failure: Option<Failure> := None;
      match plan {
        case CreateTable =>
          var go;
          failure, go := Next(CreateIssues, [CreateIssues], faults, now);
        case MigrateStatusColumn =>
          failure := RebuildIssues(filtered, faults, now);
        case AddStatusIdColumn =>
          var go;
          failure, go := Next(AddStatusId, [AddStatusId], faults, now);
        case AlreadyMigrated =>
      }
      outcome := if failure.Some? then Stopped(failure.value) else Done(plan);
    }

    /**
     * Server start-up (the set-up that runs when the database module is
     * loaded): statuses created and seeded, `comments` brought up to
     * date, each statement running whatever the ones before did; `issues`
     * inspected and, unless that fails, the branch its columns select,
     * with the filtered mapping. A failed statement without a callback,
     * which ends the process, is modelled as one the set-up carries on past.
     */
    method SetUp(faults: set<Step>, now: nat) returns (outcome: Outcome)
      modifies this
      ensures Snapshot() == StartUp(old(Snapshot()), faults, now).after
      ensures outcome == StartUp(old(Snapshot()), faults, now).outcome
    {
      ghost var s0 := Snapshot();
      var logged := Execute(CreateStatuses, faults, now);
      logged := Execute(SeedStatuses, faults, now);
      assert Snapshot() == RunAll(s0, [CreateStatuses, SeedStatuses], faults, now) by {
        assert [CreateStatuses, SeedStatuses][1..] == [SeedStatuses];
      }
      ghost var s1 := Snapshot();
      var inspected := Execute(InspectIssues, faults, now);
      var columns := Columns(issues);
      logged := Execute(CreateComments, faults, now);
      logged := Execute(AddCommentColumn("comment_type"), faults, now);
      logged := Execute(AddCommentColumn("old_status_id"), faults, now);
      logged := Execute(AddCommentColumn("new_status_id"), faults, now);
      assert Snapshot() == RunAll(s1, CommentSteps, faults, now) by {
        assert CommentSteps[1..][1..][1..][1..] == [];
      }
      if inspected.Some? {
        return Stopped(Failure(InspectIssues, inspected.value));
      }
      outcome := TakeBranch(StartupPlan(columns), true, faults, now);
    }

    /**
     * The migration script: create the statuses table, seed it, inspect
     * `issues`, each only when the one before succeeded, then the branch
     * the columns select, with the unfiltered mapping.
     */
    method Migrate(faults: set<Step>, now: nat) returns (outcome: Outcome)
      modifies this
      ensures Snapshot() == Standalone(old(Snapshot()), faults, now).after
      ensures outcome == Standalone(old(Snapshot()), faults, now).outcome
    {
      ghost var steps := [CreateStatuses, SeedStatuses, InspectIssues];
      var failure, go := Next(CreateStatuses, steps, faults, now);
      if !go {
        return Stopped(failure.value);
      }
      failure, go := Next(SeedStatuses, steps[1..], faults, now);
      if !go {
        return Stopped(failure.value);
      }
      failure, go := Next(InspectIssues, steps[2..], faults, now);
      if !go {
        return Stopped(failure.value);
      }
      assert steps[2..][1..] == [];
      outcome := TakeBranch(StandalonePlan(Columns(issues)), false, faults, now);
    }

    /**
     * The embedded server's schema set-up: seeding only from the callback
     * of a successful statuses CREATE; `issues` and `comments` created if
     * missing; every error only logged.
     */
    method SetUpEmbedded(faults: set<Step>, now: nat)
      modifies this
      ensures Snapshot() == Embedded(old(Snapshot()), faults, now)
    {
      var created := Execute(CreateStatuses, faults, now);
      if created.None? {
        var logged := Execute(SeedStatuses, faults, now);
      }
      var logged := Execute(CreateIssues, faults, now);
      logged := Execute(CreateComments, faults, now);
      assert [CreateIssues, CreateComments][1..] == [CreateComments];
      assert [CreateComments][1..] == [];
    }
  }
}

=== FILE: statuses.dfy ===
/**
 * The `issue_statuses` catalog: the INSERT OR IGNORE
 * that seeds the four default statuses at start-up, with the AUTOINCREMENT
 * counter it advances, and GET /statuses, the list of active statuses in
 * display order.
 */
module Statuses {
  import opened Common
  import opened Ordering

  /** The default of `issue_statuses.is_active`, the one column the seeding leaves out. */
  const DefaultActive := 1

  /** A row of `issue_statuses`; `is_active` is a BOOLEAN column, stored as an integer. */
  datatype StatusRow = StatusRow(id: nat, name: string, color: string, sortOrder: int, isActive: int, createdAt: nat)

  /** The table together with its AUTOINCREMENT counter. */
  datatype Catalog = Catalog(rows: seq<StatusRow>, nextId: nat)

  /** One `(name, color, sort_order)` tuple of the seeding INSERT. */
  datatype Seed = Seed(name: string, color: string, sortOrder: int)

  const Defaults: seq<Seed> := [
    Seed("open", "#EF4444", 1),
    Seed("investigation", "#F59E0B", 2),
    Seed("resolved", "#10B981", 3),
    Seed("closed", "#6B7280", 4)]

  /** The constraints of the table: ids below the counter, primary key, UNIQUE(name). */
  ghost predicate ValidCatalog(c: Catalog) {
    && (forall i :: 0 <= i < |c.rows| ==> c.rows[i].id < c.nextId)
    && (forall i, j :: 0 <= i < j < |c.rows| ==> c.rows[i].id != c.rows[j].id && c.rows[i].name != c.rows[j].name)
  }

  predicate HasName(rows: seq<StatusRow>, name: string) {
    exists i :: 0 <= i < |rows| && rows[i].name == name
  }

  /** The id of the status called `name`, if there is one. */
  function IdOf(rows: seq<StatusRow>, name: string): (r: Option<nat>)
    ensures r.Some? <==> HasName(rows, name)
  {
    match Find(rows, (s: StatusRow) => s.name == name)
    case None => None
    case Some(i) => Some(rows[i].id)
  }

  /**
   * One tuple of `INSERT OR IGNORE`: the new rowid is drawn from the
   * AUTOINCREMENT counter before UNIQUE(name) is checked, so a name already
   * present adds no row but still uses up an id; otherwise the row is added
   * with that id, the given color and sort order, and the default
   * `is_active`.
   */
  function InsertOrIgnore(c: Catalog, s: Seed, now: nat): Catalog {
    if HasName(c.rows, s.name) then c.(nextId := c.nextId + 1)
    else Catalog(c.rows + [StatusRow(c.nextId, s.name, s.color, s.sortOrder, DefaultActive, now)], c.nextId + 1)
  }

  function SeedAll(c: Catalog, seeds: seq<Seed>, now: nat): Catalog
    decreases |seeds|
  {
    if seeds == [] then c else SeedAll(InsertOrIgnore(c, seeds[0], now), seeds[1..], now)
  }

  /** The seeding statement of start-up and of the migration script. */
  function SeedDefaults(c: Catalog, now: nat): Catalog {
    SeedAll(c, Defaults, now)
  }

  /** Seeding never changes or removes an existing status: the old rows stay a prefix. */
  lemma {:induction false} SeedKeepsExisting(c: Catalog, seeds: seq<Seed>, now: nat)
    ensures |c.rows| <= |SeedAll(c, seeds, now).rows|
    ensures SeedAll(c, seeds, now).rows[..|c.rows|] == c.rows
    ensures c.nextId <= SeedAll(c, seeds, now).nextId
    decreases |seeds|
  {
    if seeds != [] {
      var next := InsertOrIgnore(c, seeds[0], now);
      SeedKeepsExisting(next, seeds[1..], now);
      assert next.rows[..|c.rows|] == c.rows;
    }
  }

  lemma HasNameGrows(rows: seq<StatusRow>, more: seq<StatusRow>, name: string)
    requires HasName(rows, name) && |rows| <= |more| && more[..|rows|] == rows
    ensures HasName(more, name)
  {
    var i :| 0 <= i < |rows| && rows[i].name == name;
    assert more[i] == rows[i];
  }

  /** After seeding, every seeded name is in the table. */
  lemma {:induction false} SeedAddsNames(c: Catalog, seeds: seq<Seed>, now: nat)
    ensures forall k :: 0 <= k < |seeds| ==> HasName(SeedAll(c, seeds, now).rows, seeds[k].name)
    decreases |seeds|
  {
    if seeds != [] {
      var next := InsertOrIgnore(c, seeds[0], now);
      var last := SeedAll(next, seeds[1..], now);
      SeedAddsNames(next, seeds[1..], now);
      assert HasName(next.rows, seeds[0].name) by {
        if !HasName(c.rows, seeds[0].name) {
          assert next.rows[|c.rows|].name == seeds[0].name;
        }
      }
      SeedKeepsExisting(next, seeds[1..], now);
      HasNameGrows(next.rows, last.rows, seeds[0].name);
      forall k | 0 < k < |seeds| ensures HasName(last.rows, seeds[k].name) {
        assert seeds[1..][k - 1] == seeds[k];
      }
    }
  }

  /**
   * Seeding names that are all present adds no row; the counter still
   * moves past one id per tuple.
   */
  lemma {:induction false} SeedPresentIsNoop(c: Catalog, seeds: seq<Seed>, now: nat)
    requires forall k :: 0 <= k < |seeds| ==> HasName(c.rows, seeds[k].name)
    ensures SeedAll(c, seeds, now) == Catalog(c.rows, c.nextId + |seeds|)
    decreases |seeds|
  {
    if seeds != [] {
      SeedPresentIsNoop(c.(nextId := c.nextId + 1), seeds[1..], now);
    }
  }

  /**
   * Running the seeding again, at any later time, leaves the rows as they
   * are; only the counter advances, by one id per default status.
   */
  lemma SeedIdempotent(c: Catalog, now: nat, later: nat)
    ensures SeedDefaults(SeedDefaults(c, now), later).rows == SeedDefaults(c, now).rows
    ensures SeedDefaults(SeedDefaults(c, now), later).nextId == SeedDefaults(c, now).nextId + |Defaults|
  {
    SeedAddsNames(c, Defaults, now);
    SeedPresentIsNoop(SeedDefaults(c, now), Defaults, later);
  }

  /** Seeding keeps the primary key and UNIQUE(name). */
  lemma {:induction false} SeedKeepsValid(c: Catalog, seeds: seq<Seed>, now: nat)
    requires ValidCatalog(c)
    ensures ValidCatalog(SeedAll(c, seeds, now))
    decreases |seeds|
  {
    if seeds != [] {
      var next := InsertOrIgnore(c, seeds[0], now);
      assert ValidCatalog(next);
      SeedKeepsValid(next, seeds[1..], now);
    }
  }

  /**
   * Seeding an empty table gives `open`, `investigation`, `resolved` and
   * `closed` the ids 1 to 4, with their colors and sort orders, all active.
   */
  lemma SeedEmpty(now: nat)
    ensures SeedDefaults(Catalog([], 1), now) == Catalog([
      StatusRow(1, "open", "#EF4444", 1, 1, now),
      StatusRow(2, "investigation", "#F59E0B", 2, 1, now),
      StatusRow(3, "resolved", "#10B981", 3, 1, now),
      StatusRow(4, "closed", "#6B7280", 4, 1, now)], 5)
  {
    var c1 := InsertOrIgnore(Catalog([], 1), Defaults[0], now);
    var c2 := InsertOrIgnore(c1, Defaults[1], now);
    var c3 := InsertOrIgnore(c2, Defaults[2], now);
    assert !HasName(c1.rows, "investigation");
    assert !HasName(c2.rows, "resolved");
    assert !HasName(c3.rows, "closed") by {
      assert forall i :: 0 <= i < |c3.rows| ==> c3.rows[i].name in {"open", "investigation", "resolved"};
    }
    assert Defaults[1..][1..][1..][1..] == [];
  }

  // ---------------------------------------------------------------- GET /statuses

  predicate IsActive(s: StatusRow) {
    s.isActive == 1
  }

  /** `ORDER BY sort_order`. */
  predicate BySortOrder(a: StatusRow, b: StatusRow) {
    a.sortOrder <= b.sortOrder
  }

  /**
   * `SELECT * FROM issue_statuses WHERE is_active = 1 ORDER BY sort_order`:
   * exactly the active rows, each as often as in the table, in ascending
   * sort order.
   */
  function ListActive(rows: seq<StatusRow>): (r: seq<StatusRow>)
    ensures forall s :: multiset(r)[s] == if IsActive(s) then multiset(rows)[s] else 0
    ensures forall s | s in r :: IsActive(s) && s in rows
    ensures forall s | s in rows && IsActive(s) :: s in r
    ensures Sorted(r, BySortOrder)
  {
    assert TotalPreorder(BySortOrder);
    var active := Filter(rows, IsActive);
    var sorted := SortBy(active, BySortOrder);
    assert forall s :: s in sorted <==> s in multiset(active);
    sorted
  }
}

=== FILE: users.dfy ===
/**
 * The `users` table and the handlers of `/api/users`: registration by an
 * administrator, login, the partial update whose SET list is built from the
 * fields present in the request, and deletion.
 */
module Users {
  import opened Common
  import opened Ordering

  /** The values the CHECK constraint on `users.role` admits. */
  const Roles: set<string> := {"developer", "qa", "support", "admin"}

  const ProfileUploads := "/uploads/profiles/"

  datatype User = User(
    id: nat,
    email: string,
    password: string,
    name: string,
    role: string,
    profileImage: Option<string>,
    contactNumber: Option<string>,
    bio: Option<string>,
    createdAt: nat)

  /** The stored path of an uploaded profile picture, or NULL when none was uploaded. */
  function ProfilePath(upload: Option<string>): (path: Option<string>)
    ensures upload.None? <==> path.None?
    ensures upload.Some? ==> path.value == ProfileUploads + upload.value
  {
    match upload
    case None => None
    case Some(filename) => Some(ProfileUploads + filename)
  }

  /** The index of the user with primary key `id`. */
  function IndexOfUser(rows: seq<User>, id: int): Option<nat> {
    Find(rows, (u: User) => u.id == id)
  }

  /** The user with primary key `id`, as a `JOIN users u ON ... = u.id` finds it. */
  function UserById(rows: seq<User>, id: int): (r: Option<User>)
    ensures r.Some? ==> r.value in rows && r.value.id == id
    ensures r.None? ==> forall u | u in rows :: u.id != id
  {
    match IndexOfUser(rows, id)
    case None => None
    case Some(i) => Some(rows[i])
  }

  /** A row of a query that joins a table with `users`. */
  datatype Joined<R> = Joined(row: R, user: User)

  /**
   * `FROM t JOIN users u ON t.<user column> = u.id`: the rows in table
   * order, each with its user; a row whose user is missing drops out, since
   * foreign keys are not enforced.
   */
  function JoinUsers<R(!new)>(rows: seq<R>, userOf: R -> int, users: seq<User>): (joined: seq<Joined<R>>)
    ensures forall j :: multiset(joined)[j] == if UserById(users, userOf(j.row)) == Some(j.user) then multiset(rows)[j.row] else 0
    ensures forall j | j in joined :: j.row in rows && UserById(users, userOf(j.row)) == Some(j.user)
    ensures forall r | r in rows && UserById(users, userOf(r)).Some? ::
      Joined(r, UserById(users, userOf(r)).value) in joined
    decreases |rows|
  {
    if rows == [] then []
    else
      var r := rows[0];
      var rest := JoinUsers(rows[1..], userOf, users);
      var head := match UserById(users, userOf(r))
        case None => []
        case Some(u) => [Joined(r, u)];
      assert rows == [r] + rows[1..];
      assert multiset(rows) == multiset{r} + multiset(rows[1..]);
      assert multiset(head + rest) == multiset(head) + multiset(rest);
      head + rest
  }

  /** Whether some user other than the one at index `except` has that email. */
  predicate EmailTaken(rows: seq<User>, email: string, except: int) {
    exists i :: 0 <= i < |rows| && i != except && rows[i].email == email
  }

  /** The rows left by `DELETE FROM users WHERE id = ?`. */
  function WithoutUser(rows: seq<User>, id: int): seq<User> {
    Filter(rows, (u: User) => u.id != id)
  }

  /** What a successful registration echoes back. */
  datatype Registered = Registered(id: nat, email: string, name: string, role: string)

  /** What a successful login returns (the session cookie is not modelled). */
  datatype Profile = Profile(id: nat, email: string, name: string, role: string, profileImage: Option<string>)

  /** The columns the update handler may put into its SET list. */
  datatype Field = EmailField | NameField | RoleField | ContactField | BioField | ImageField {
    function Column(): string {
      match this
      case EmailField => "email"
      case NameField => "name"
      case RoleField => "role"
      case ContactField => "contact_number"
      case BioField => "bio"
      case ImageField => "profile_image"
    }

    /** The position of the field in the order the handler considers them. */
    function Rank(): nat {
      match this
      case EmailField => 0
      case NameField => 1
      case RoleField => 2
      case ContactField => 3
      case BioField => 4
      case ImageField => 5
    }
  }

  const FieldOrder: seq<Field> := [EmailField, NameField, RoleField, ContactField, BioField, ImageField]

  /** The text fields of an update request; `None` is a field left out of the form. */
  datatype UserUpdate = UserUpdate(
    email: Option<string>,
    name: Option<string>,
    role: Option<string>,
    contactNumber: Option<string>,
    bio: Option<string>)

  /** JavaScript truthiness of a form field: present and not the empty string. */
  predicate Truthy(v: Option<string>) {
    v.Some? && v.value != ""
  }

  /**
   * The value the request supplies for `f`, if it supplies one: email, name
   * and role only when truthy, contact number and bio whenever present (even
   * empty), the picture path when a file was uploaded.
   */
  function Supplied(body: UserUpdate, upload: Option<string>, f: Field): Option<string> {
    match f
    case EmailField => if Truthy(body.email) then body.email else None
    case NameField => if Truthy(body.name) then body.name else None
    case RoleField => if Truthy(body.role) then body.role else None
    case ContactField => body.contactNumber
    case BioField => body.bio
    case ImageField => ProfilePath(upload)
  }

  /** `[f]` when the request supplies `f`, otherwise nothing. */
  function IfSupplied(body: UserUpdate, upload: Option<string>, f: Field): seq<Field> {
    if Supplied(body, upload, f).Some? then [f] else []
  }

  /** The fields the request supplies, in handler order. */
  function SuppliedFields(body: UserUpdate, upload: Option<string>): seq<Field> {
    IfSupplied(body, upload, EmailField) + IfSupplied(body, upload, NameField) +
    IfSupplied(body, upload, RoleField) + IfSupplied(body, upload, ContactField) +
    IfSupplied(body, upload, BioField) + IfSupplied(body, upload, ImageField)
  }

  /** The SET list names exactly the supplied fields. */
  lemma SuppliedFieldsExactly(body: UserUpdate, upload: Option<string>)
    ensures forall f :: f in SuppliedFields(body, upload) <==> Supplied(body, upload, f).Some?
  {
  }

  /**
   * The SET list names each field once, in the order email, name, role,
   * contact_number, bio, profile_image.
   */
  lemma SuppliedFieldsInOrder(body: UserUpdate, upload: Option<string>)
    ensures var fs := SuppliedFields(body, upload);
      forall i, j :: 0 <= i < j < |fs| ==> fs[i].Rank() < fs[j].Rank()
  {
  }

  /**
   * The user as the request means to leave it: every supplied field takes
   * the supplied value, every other field keeps its value.
   */
  function Updated(u: User, body: UserUpdate, upload: Option<string>): User {
    u.(
      email := if Truthy(body.email) then body.email.value else u.email,
      name := if Truthy(body.name) then body.name.value else u.name,
      role := if Truthy(body.role) then body.role.value else u.role,
      contactNumber := if body.contactNumber.Some? then body.contactNumber else u.contactNumber,
      bio := if body.bio.Some? then body.bio else u.bio,
      profileImage := if upload.Some? then ProfilePath(upload) else u.profileImage)
  }

  /** What `SET col = ?` does to one column. */
  function Assign(u: User, f: Field, v: Value): User {
    match v
    case Text(s) => (
      match f
      case EmailField => u.(email := s)
      case NameField => u.(name := s)
      case RoleField => u.(role := s)
      case ContactField => u.(contactNumber := Some(s))
      case BioField => u.(bio := Some(s))
      case ImageField => u.(profileImage := Some(s)))
    case _ => u
  }

  /** What the SET list does to a row: each column in turn takes its parameter. */
  function AssignAll(u: User, fields: seq<Field>, values: seq<Value>): User
    requires |fields| <= |values|
    decreases |fields|
  {
    if fields == [] then u else AssignAll(Assign(u, fields[0], values[0]), fields[1..], values[1..])
  }

  /** `u` with the fields in `fs` overwritten by the values the request supplies. */
  function Overwrite(u: User, body: UserUpdate, upload: Option<string>, fs: seq<Field>): User {
    var s := (f: Field) => Supplied(body, upload, f);
    u.(
      email := if EmailField in fs && s(EmailField).Some? then s(EmailField).value else u.email,
      name := if NameField in fs && s(NameField).Some? then s(NameField).value else u.name,
      role := if RoleField in fs && s(RoleField).Some? then s(RoleField).value else u.role,
      contactNumber := if ContactField in fs && s(ContactField).Some? then s(ContactField) else u.contactNumber,
      bio := if BioField in fs && s(BioField).Some? then s(BioField) else u.bio,
      profileImage := if ImageField in fs && s(ImageField).Some? then s(ImageField) else u.profileImage)
  }

  /** The statement parameter for field `f`: its supplied text. */
  function SuppliedValue(body: UserUpdate, upload: Option<string>, f: Field): Value {
    match Supplied(body, upload, f)
    case Some(s) => Text(s)
    case None => Null
  }

  /** The statement parameters for the SET list `fs`, one per field. */
  function SuppliedValues(body: UserUpdate, upload: Option<string>, fs: seq<Field>): (vs: seq<Value>)
    ensures |vs| == |fs|
  {
    seq(|fs|, i requires 0 <= i < |fs| => SuppliedValue(body, upload, fs[i]))
  }

  lemma SuppliedValuesAppend(body: UserUpdate, upload: Option<string>, fs: seq<Field>, f: Field)
    ensures SuppliedValues(body, upload, fs + [f]) == SuppliedValues(body, upload, fs) + [SuppliedValue(body, upload, f)]
  {
  }

  lemma OverwriteStep(u: User, body: UserUpdate, upload: Option<string>, f: Field, fs: seq<Field>)
    requires Supplied(body, upload, f).Some? && f !in fs
    ensures Overwrite(Assign(u, f, SuppliedValue(body, upload, f)), body, upload, fs)
         == Overwrite(u, body, upload, [f] + fs)
  {
    var all := [f] + fs;
    assert forall g :: g in all <==> g == f || g in fs;
    var v := Supplied(body, upload, f).value;
    assert SuppliedValue(body, upload, f) == Text(v);
    match f
    case EmailField => assert Assign(u, f, Text(v)) == u.(email := v);
    case NameField => assert Assign(u, f, Text(v)) == u.(name := v);
    case RoleField => assert Assign(u, f, Text(v)) == u.(role := v);
    case ContactField => assert Assign(u, f, Text(v)) == u.(contactNumber := Some(v));
    case BioField => assert Assign(u, f, Text(v)) == u.(bio := Some(v));
    case ImageField => assert Assign(u, f, Text(v)) == u.(profileImage := Some(v));
  }

  /**
   * A SET list of distinct supplied fields, with their supplied values as
   * parameters, overwrites exactly those fields.
   */
  lemma {:induction false} AssignAllOverwrites(u: User, body: UserUpdate, upload: Option<string>, fs: seq<Field>, vs: seq<Value>)
    requires forall i :: 0 <= i < |fs| ==> Supplied(body, upload, fs[i]).Some?
    requires forall i, j :: 0 <= i < j < |fs| ==> fs[i] != fs[j]
    requires |fs| <= |vs| && forall i :: 0 <= i < |fs| ==> vs[i] == SuppliedValue(body, upload, fs[i])
    ensures AssignAll(u, fs, vs) == Overwrite(u, body, upload, fs)
    decreases |fs|
  {
    if fs != [] {
      var u' := Assign(u, fs[0], vs[0]);
      AssignAllOverwrites(u', body, upload, fs[1..], vs[1..]);
      OverwriteStep(u, body, upload, fs[0], fs[1..]);
      assert [fs[0]] + fs[1..] == fs;
    }
  }

  /** Overwriting exactly the supplied fields is the update the request means. */
  lemma OverwriteSupplied(u: User, body: UserUpdate, upload: Option<string>, fs: seq<Field>)
    requires forall f :: f in fs <==> Supplied(body, upload, f).Some?
    ensures Overwrite(u, body, upload, fs) == Updated(u, body, upload)
  {
  }

  /**
   * The SET list the handler builds, executed by the database on a row with
   * the parameters the handler passes, has the effect the request means,
   * whatever parameters (the id) follow.
   */
  lemma SetListMeansUpdate(u: User, body: UserUpdate, upload: Option<string>, rest: seq<Value>)
    ensures var fs := SuppliedFields(body, upload);
      AssignAll(u, fs, SuppliedValues(body, upload, fs) + rest) == Updated(u, body, upload)
  {
    var fs := SuppliedFields(body, upload);
    SuppliedFieldsExactly(body, upload);
    SuppliedFieldsInOrder(body, upload);
    forall i, j | 0 <= i < j < |fs| ensures fs[i] != fs[j] {
      assert fs[i].Rank() < fs[j].Rank();
    }
    assert forall i :: 0 <= i < |fs| ==> fs[i] in fs;
    AssignAllOverwrites(u, body, upload, fs, SuppliedValues(body, upload, fs) + rest);
    OverwriteSupplied(u, body, upload, fs);
  }

  /**
   * The update handler's builder: `fields` are the columns of the SET list,
   * `values` the statement parameters, the supplied values in SET-list
   * order followed by the id (one more parameter than assignments).
   */
  method BuildSetList(body: UserUpdate, upload: Option<string>, id: int) returns (fields: seq<Field>, values: seq<Value>)
    ensures fields == SuppliedFields(body, upload)
    ensures values == SuppliedValues(body, upload, fields) + [Int(id)]
  {
    fields, values := [], [];
    if Truthy(body.email) {
      SuppliedValuesAppend(body, upload, fields, EmailField);
      fields, values := fields + [EmailField], values + [Text(body.email.value)];
    }
    assert fields == IfSupplied(body, upload, EmailField);
    if Truthy(body.name) {
      SuppliedValuesAppend(body, upload, fields, NameField);
      fields, values := fields + [NameField], values + [Text(body.name.value)];
    }
    assert fields == IfSupplied(body, upload, EmailField) + IfSupplied(body, upload, NameField);
    if Truthy(body.role) {
      SuppliedValuesAppend(body, upload, fields, RoleField);
      fields, values := fields + [RoleField], values + [Text(body.role.value)];
    }
    assert fields == IfSupplied(body, upload, EmailField) + IfSupplied(body, upload, NameField) + IfSupplied(body, upload, RoleField);
    if body.contactNumber.Some? {
      SuppliedValuesAppend(body, upload, fields, ContactField);
      fields, values := fields + [ContactField], values + [Text(body.contactNumber.value)];
    }
    assert fields == IfSupplied(body, upload, EmailField) + IfSupplied(body, upload, NameField) + IfSupplied(body, upload, RoleField) + IfSupplied(body, upload, ContactField);
    if body.bio.Some? {
      SuppliedValuesAppend(body, upload, fields, BioField);
      fields, values := fields + [BioField], values + [Text(body.bio.value)];
    }
    assert fields == IfSupplied(body, upload, EmailField) + IfSupplied(body, upload, NameField) + IfSupplied(body, upload, RoleField) + IfSupplied(body, upload, ContactField) + IfSupplied(body, upload, BioField);
    if upload.Some? {
      SuppliedValuesAppend(body, upload, fields, ImageField);
      fields, values := fields + [ImageField], values + [Text(ProfileUploads + upload.value)];
    }
    values := values + [Int(id)];
  }

  /**
   * The constraints of the `users` table: ids below the AUTOINCREMENT
   * counter, primary key and UNIQUE(email), and every role passed the CHECK.
   */
  ghost predicate ValidUsers(rows: seq<User>, nextId: nat) {
    && (forall i :: 0 <= i < |rows| ==> rows[i].id < nextId && rows[i].role in Roles)
    && (forall i, j :: 0 <= i < j < |rows| ==> rows[i].id != rows[j].id && rows[i].email != rows[j].email)
  }

  lemma RemoveKeepsValid(rows: seq<User>, nextId: nat, i: nat)
    requires ValidUsers(rows, nextId) && i < |rows|
    ensures ValidUsers(rows[..i] + rows[i + 1..], nextId)
  {
    var r := rows[..i] + rows[i + 1..];
    assert forall a :: 0 <= a < |r| ==> r[a] == rows[if a < i then a else a + 1];
  }

  lemma DeleteKeepsValid(rows: seq<User>, nextId: nat, i: nat)
    requires ValidUsers(rows, nextId) && i < |rows|
    ensures ValidUsers(WithoutUser(rows, rows[i].id), nextId)
  {
    WithoutUserRemovesOne(rows, i);
    RemoveKeepsValid(rows, nextId, i);
  }

  /** The `users` table, with its AUTOINCREMENT counter. */
  class UserTable {
    var rows: seq<User>
    var nextId: nat

    ghost predicate Valid()
      reads this
    {
      ValidUsers(rows, nextId)
    }

    constructor ()
      ensures Valid() && rows == [] && nextId == 1
    {
      rows, nextId := [], 1;
    }

    /**
     * POST /register. The password is hashed first (`hashed` is the hash;
     * hashing an absent password throws). The INSERT then fails as a whole
     * on a storage failure (`io`), and otherwise checks NOT NULL on email,
     * name and role, the CHECK on role, and UNIQUE(email), in that order;
     * only the UNIQUE failure is reported as 400.
     */
    method Register(email: Option<string>, password: Option<string>, hashed: string, name: Option<string>,
                    role: Option<string>, contactNumber: Option<string>, bio: Option<string>,
                    upload: Option<string>, io: bool, now: nat)
      returns (reply: Reply<Registered>)
      requires Valid()
      modifies this
      ensures Valid()
      ensures password.None? ==> reply == ServerError(HashFailed)
      ensures password.Some? && io ==> reply == ServerError(Io)
      ensures password.Some? && !io && email.None? ==> reply == ServerError(NotNull("users.email"))
      ensures password.Some? && !io && email.Some? && name.None? ==> reply == ServerError(NotNull("users.name"))
      ensures password.Some? && !io && email.Some? && name.Some? && role.None? ==> reply == ServerError(NotNull("users.role"))
      ensures password.Some? && !io && email.Some? && name.Some? && role.Some? && role.value !in Roles ==>
        reply == ServerError(Check("users.role"))
      ensures password.Some? && !io && email.Some? && name.Some? && role.Some? && role.value in Roles ==>
        if EmailTaken(old(rows), email.value, -1) then reply == BadRequest("Email already exists")
        else reply == Ok(Registered(old(nextId), email.value, name.value, role.value))
      ensures reply.Ok? ==>
        && rows == old(rows) + [User(old(nextId), email.value, hashed, name.value, role.value,
                                     ProfilePath(upload), contactNumber, bio, now)]
        && nextId == old(nextId) + 1
      ensures !reply.Ok? ==> rows == old(rows) && nextId == old(nextId)
    {
      if password.None? {
        return ServerError(HashFailed);
      }
      if io {
        return ServerError(Io);
      }
      if email.None? {
        return ServerError(NotNull("users.email"));
      }
      if name.None? {
        return ServerError(NotNull("users.name"));
      }
      if role.None? {
        return ServerError(NotNull("users.role"));
      }
      if role.value !in Roles {
        return ServerError(Check("users.role"));
      }
      if EmailTaken(rows, email.value, -1) {
        return BadRequest("Email already exists");
      }
      var id := nextId;
      rows := rows + [User(id, email.value, hashed, name.value, role.value, ProfilePath(upload), contactNumber, bio, now)];
      nextId := nextId + 1;
      reply := Ok(Registered(id, email.value, name.value, role.value));
    }

    /**
     * POST /login. An unknown email and a wrong password give the same 401
     * reply; `matches` is the password check against the stored hash. When
     * the email is known but the body has no password, the comparison
     * rejects inside the query callback, nothing catches it, and no reply
     * is ever sent: `answer` is `None`.
     */
    method Login(email: Option<string>, password: Option<string>, matches: (string, string) -> bool)
      returns (answer: Option<Reply<Profile>>)
      requires Valid()
      ensures answer.None? <==> password.None? && exists i :: 0 <= i < |rows| && email == Some(rows[i].email)
      ensures answer.Some? ==> answer.value.Ok? || answer.value == Unauthorized("Invalid credentials")
      ensures answer.Some? ==>
        (answer.value.Ok? <==>
          password.Some? && exists i :: 0 <= i < |rows| && email == Some(rows[i].email) && matches(password.value, rows[i].password))
      ensures answer.Some? && answer.value.Ok? ==>
        exists i :: 0 <= i < |rows| && email == Some(rows[i].email) &&
          answer.value.body == Profile(rows[i].id, rows[i].email, rows[i].name, rows[i].role, rows[i].profileImage)
    {
      var found := Find(rows, (u: User) => email.Some? && u.email == email.value);
      if found.None? {
        return Some(Unauthorized("Invalid credentials"));
      }
      var u := rows[found.value];
      if password.None? {
        assert email == Some(rows[found.value].email);
        return None;
      }
      if !matches(password.value, u.password) {
        forall i | 0 <= i < |rows| && email == Some(rows[i].email)
          ensures !matches(password.value, rows[i].password)
        {
          assert i == found.value;
        }
        return Some(Unauthorized("Invalid credentials"));
      }
      answer := Some(Ok(Profile(u.id, u.email, u.name, u.role, u.profileImage)));
    }

    /**
     * PUT /:id. With nothing supplied the SET list is empty and the statement
     * does not parse. Otherwise a storage failure (`io`) fails it as a whole;
     * a missing id changes nothing and gives 404; an update that breaks the
     * role CHECK or UNIQUE(email) fails as a whole.
     */
    method Update(id: int, body: UserUpdate, upload: Option<string>, io: bool) returns (reply: Reply<Message>)
      requires Valid()
      modifies this
      ensures Valid() && nextId == old(nextId)
      ensures SuppliedFields(body, upload) == [] ==> reply == ServerError(Syntax) && rows == old(rows)
      ensures SuppliedFields(body, upload) != [] && io ==> reply == ServerError(Io) && rows == old(rows)
      ensures SuppliedFields(body, upload) != [] && !io && IndexOfUser(old(rows), id).None? ==>
        reply == NotFound("User not found") && rows == old(rows)
      ensures SuppliedFields(body, upload) != [] && !io && IndexOfUser(old(rows), id).Some? ==>
        var i := IndexOfUser(old(rows), id).value;
        var u := Updated(old(rows)[i], body, upload);
        if u.role !in Roles then reply == ServerError(Check("users.role")) && rows == old(rows)
        else if EmailTaken(old(rows), u.email, i) then reply == ServerError(Unique("users.email")) && rows == old(rows)
        else reply == Ok("User updated successfully") && rows == old(rows)[i := u]
    {
      var fields, values := BuildSetList(body, upload, id);
      if fields == [] {
        return ServerError(Syntax);
      }
      if io {
        return ServerError(Io);
      }
      var found := IndexOfUser(rows, id);
      if found.None? {
        return NotFound("User not found");
      }
      var i := found.value;
      var u := AssignAll(rows[i], fields, values);
      SetListMeansUpdate(rows[i], body, upload, [Int(id)]);
      if u.role !in Roles {
        return ServerError(Check("users.role"));
      }
      if EmailTaken(rows, u.email, i) {
        return ServerError(Unique("users.email"));
      }
      rows := rows[i := u];
      reply := Ok("User updated successfully");
    }

    /**
     * DELETE /:id: removes the user with that id, or replies 404 when there
     * is none; a storage failure (`io`) fails the statement and changes nothing.
     */
    method Delete(id: int, io: bool) returns (reply: Reply<Message>)
      requires Valid()
      modifies this
      ensures Valid() && nextId == old(nextId)
      ensures io ==> reply == ServerError(Io) && rows == old(rows)
      ensures !io && IndexOfUser(old(rows), id).None? ==> reply == NotFound("User not found") && rows == old(rows)
      ensures !io && IndexOfUser(old(rows), id).Some? ==>
        reply == Ok("User deleted successfully") && rows == WithoutUser(old(rows), id)
    {
      if io {
        return ServerError(Io);
      }
      var found := IndexOfUser(rows, id);
      if found.None? {
        return NotFound("User not found");
      }
      DeleteKeepsValid(rows, nextId, found.value);
      rows := WithoutUser(rows, id);
      reply := Ok("User deleted successfully");
    }
  }

  /**
   * Deleting removes exactly the row with that id (ids are unique) and keeps
   * the order of the others.
   */
  lemma WithoutUserRemovesOne(rows: seq<User>, i: nat)
    requires i < |rows|
    requires forall a, b :: 0 <= a < b < |rows| ==> rows[a].id != rows[b].id
    ensures WithoutUser(rows, rows[i].id) == rows[..i] + rows[i + 1..]
  {
    FilterRemovesOne(rows, (u: User) => u.id != rows[i].id, i);
  }
}
